=== FILE: README.md ===
# anki_assist pipeline core, modelled in Dafny

anki_assist turns legal documents into Anki flash cards. The pipeline has
these stages:

- **Normalize and segment.** A document's text has its whitespace
  normalised and is split into sentences.
- **Extract.** The text is cut into overlapping chunks. Each chunk goes to
  a chat model, and the entries of the JSON reply are validated as
  `ExtractedItem`s. There is also a chat-free path that turns raw text
  windows into items, and a "semantic understanding" path that segments
  long texts at sentence marks.
- **Generate cards.** Each item goes to the chat model again, and the
  `cards` of the reply become `Card`s with provenance, tags, evidence and a
  quality score.
- **Finalize.** The cards pass a quality gate and a greedy fuzzy
  deduplication.
- **Export.** The survivors are rendered as the fields of Anki notes.

The model has one module per source file:

- `Schemas` for the pydantic records, and `Coerce` for pydantic's lax
  coercion of numbers, bools and numeric strings to `int` and `float`.
- `JsonRecovery` for the JSON recovery helper.
- `Normalize`, `Extract`, `ItemsFromText`, `Induction`, `GenerateCards`,
  `Quality` and `Exporter` for the pipeline stages.
- Shared helpers: `Text` for Python string operations, `Json` for decoded
  JSON values, `Chunking` for the overlapping-window loop that two stages
  share, `Seqs` for the two loop shapes (concatenate per input; all or
  nothing), and `Wrappers` for `Option`.

Everything the pipeline cannot compute itself is a function-typed parameter:

| oracle | stands for |
|---|---|
| `parse` | `json.loads`; `None` where it raises |
| `fence` | the code-fence regex search |
| `chat` | the chat model of the extract and card stages; `""` for a failed call |
| `gen` | the semantic model; `None` where the call raises |
| `parseFloat` | `float(str)` |
| `sim` | `fuzz.token_set_ratio`, a score in `[0, 100]` |

Each property is stated for every value of these parameters.

## Model

| member | source | states |
|---|---|---|
| Schemas.Strs | models/schemas.py:30 | a `List[str]` validates exactly when every element is a string, and keeps the elements in order |
| Schemas.Ints | models/schemas.py:28-29 | a `List[int]` validates exactly when every element coerces to an int, and holds the coerced values in order |
| Schemas.StrsToJson | models/schemas.py:30 | dumped string lists validate back to themselves |
| Schemas.IntsToJson | models/schemas.py:28-29 | dumped integer lists validate back to themselves |
| Schemas.DocumentFromJson | models/schemas.py:5-9 | `Document(**m)` succeeds exactly when name, path and text are strings and pages is absent or coerces to an int; pages is that int, or 0 when absent |
| Schemas.DocumentRoundTrip | models/schemas.py:5-9 | validating a dumped document gives it back |
| Schemas.ItemTypeFromName | models/schemas.py:12 | the `Literal` accepts exactly the five type names, each as its own type |
| Schemas.ItemTypeRoundTrip | models/schemas.py:12 | every item type's name is accepted back as that type |
| Schemas.ItemFromJson | models/schemas.py:15-31 | `ExtractedItem(**m)` succeeds exactly for dicts of the valid shape; the item holds the dict's type, string fields and keyword list, and its integer lists coerced element by element |
| Schemas.ItemRoundTrip | models/schemas.py:15-31 | validating a dumped item gives it back |
| Schemas.ItemDefaults | models/schemas.py:16-31 | only `type` is required; every other field defaults to None |
| Schemas.ItemNeedsType | models/schemas.py:16 | a dict without a valid `type` string is rejected, whatever else it holds |
| Schemas.LaxIntOfText3 | models/schemas.py:28 | the string "3" coerces to the int 3 |
| Schemas.IntsSingle | models/schemas.py:28-29 | a one-element list coerces exactly as its element does |
| Schemas.ItemWithPageRange | models/schemas.py:16-28 | a dict of a type and a coercible page range validates, with that type and the coerced range |
| Schemas.ItemPageRangeFromText | models/schemas.py:28 | `{"type": "Statute", "pageRange": ["3"]}` validates with page range [3] |
| Coerce.LaxInt | models/schemas.py:9 | an `int` field takes a number exactly when it is whole, with its value; a bool as 1 or 0; a string as the integer literal its stripped form spells; null, lists and dicts fail |
| Coerce.LaxFloat | models/schemas.py:48 | a `float` field takes any number as itself, a bool as 1.0 or 0.0, and a string as the decimal literal its stripped form spells; null, lists and dicts fail |
| Coerce.NatText | models/schemas.py:9 | the printed digits of a nat are digits and spell that nat |
| Coerce.IntTextStripped | models/schemas.py:9 | the text of an int has no whitespace at either end |
| Coerce.NatTextReads | models/schemas.py:9 | the text of a nat reads back as that nat, as an integer and as a decimal literal |
| Coerce.IntTextReads | models/schemas.py:9 | the text of any int reads back as that int, as an integer and as a decimal literal |
| Coerce.IntLiteralIsDecimal | models/schemas.py:48 | every integer literal is a decimal literal with the same value |
| Coerce.LaxIntIsFloat | models/schemas.py:48 | every value an `int` field accepts, a `float` field accepts with the same value |
| Coerce.LaxIntOfInt | models/schemas.py:9 | an int is accepted as itself, as a number and as its text padded with any whitespace; the padded text is that number as a float too |
| Coerce.LaxIntRejectsFraction | models/schemas.py:9 | 2.5 fails as an int both as a number and as text, while "2.5" is 2.5 as a float |
| Schemas.CardTypeFromName | models/schemas.py:40 | `Card.type` accepts exactly "basic" and "cloze" |
| Schemas.CardFromJson | models/schemas.py:39-48 | `Card(**m)` succeeds exactly for dicts of the valid shape; the card holds the dict's fields, quality coerced to a float, with basic, [] and 0.0 as the defaults |
| Schemas.CardRoundTrip | models/schemas.py:39-48 | validating a dumped card gives it back |
| Schemas.CardDefaults | models/schemas.py:40-48 | with only Question, Answer, SourceDoc and SourceLoc given, type is basic, Tags is empty, Difficulty and Evidence are None, quality is 0 |
| Schemas.ConfigFromJson | models/schemas.py:57-64 | `PipelineConfig(**m)` succeeds exactly when both credentials and any given model names are strings and any given thresholds and per-item maximum coerce to numbers; the credentials and given model names are the dict's strings, the given thresholds and maximum its coerced values, and every missing optional field its default (DeepSeek-V3, 0.88, 0.65, 3) |
| Schemas.ConfigDefaults | models/schemas.py:60-64 | with only the credentials given, the models are "DeepSeek-V3", dedup 0.88, min quality 0.65, 3 cards per item |
| Schemas.ConfigNeedsCredentials | models/schemas.py:58-59 | a missing credential is a validation error |
| Schemas.ConfigNoRangeChecks | models/schemas.py:62-63 | any numbers are accepted as thresholds, since there are no range checks |
| JsonRecovery.Step | pipeline/utils/json_utils.py:18-32 | inside a string the depth is unchanged, an escaped character never ends the string, and a quote opens one; other characters outside strings change nothing unless they are brackets |
| JsonRecovery.ScanFrom | pipeline/utils/json_utils.py:17-36 | the scan stops only at a closing character inside the text |
| JsonRecovery.FindBalancedEnd | pipeline/utils/json_utils.py:9-36 | no opening character means no result; a result is a closing character after the first opening one |
| JsonRecovery.FindBalanced | pipeline/utils/json_utils.py:9-36 | the result is the slice from the first opening character to a closing one, at least two characters long |
| JsonRecovery.ScanFromSpec | pipeline/utils/json_utils.py:17-35 | loop invariant: while the depth has stayed positive, the scan returns at the first position where it reaches zero, or nowhere if it never does |
| JsonRecovery.FindBalancedFirstZero | pipeline/utils/json_utils.py:9-36 | the returned slice ends where the bracket depth first returns to zero; no slice exactly when the depth stays positive to the end |
| JsonRecovery.QuotedBracketsIgnored | pipeline/utils/json_utils.py:19-25 | brackets inside strings, also after a backslash escape, leave the depth unchanged |
| JsonRecovery.FindBalancedScan | pipeline/utils/json_utils.py:9-36 | the imperative scan loop computes the same slice as the recursive definition |
| JsonRecovery.SafeJsonLoadsAny | pipeline/utils/json_utils.py:39-76 | empty text gives None; a fenced block that parses wins; text without brackets and without a fence gives None |
| JsonRecovery.LoadsBracketed | pipeline/utils/json_utils.py:50-75 | the bracket strategies give nothing on text without brackets |
| JsonRecovery.LoadsWhole | pipeline/utils/json_utils.py:64-75 | the whole-text strategy gives nothing on text without brackets |
| JsonRecovery.FirstSuccessSpec | pipeline/utils/json_utils.py:39-76 | trying candidates in order gives a result exactly when some candidate parses, and then it is the first that does |
| JsonRecovery.FirstSuccessAppend | pipeline/utils/json_utils.py:39-76 | trying `a + b` is trying `a`, then `b` only when `a` gives nothing |
| JsonRecovery.SafeLoadsIsFirstSuccess | pipeline/utils/json_utils.py:39-76 | the nested strategy chain is "first success" over: the fence, the object, the array, the whole text if it is an object, the whole text if it is an array |
| JsonRecovery.BracketedIsFirstSuccess | pipeline/utils/json_utils.py:50-75 | strategies 2 to 4 are first success over their candidates |
| JsonRecovery.WholeIsFirstSuccess | pipeline/utils/json_utils.py:64-75 | strategy 4 is first success over its candidates |
| JsonRecovery.SafeLoadsNoneIffAllFail | pipeline/utils/json_utils.py:39-76 | recovery fails exactly when no candidate parses |
| Normalize.ReplaceNbsp | pipeline/nodes/normalize.py:9 | each U+00A0 becomes a space, and every other character is kept in place |
| Normalize.Collapse | pipeline/nodes/normalize.py:10 | the result is no longer than the input, has single plain spaces only, and starts with whitespace exactly when the input does |
| Normalize.CollapseKeepsVisible | pipeline/nodes/normalize.py:10 | collapsing keeps every non-whitespace character, in order |
| Normalize.CollapseFixpoint | pipeline/nodes/normalize.py:10 | a collapsed text is its own collapse |
| Normalize.CollapseIdempotent | pipeline/nodes/normalize.py:10 | collapsing twice is collapsing once |
| Normalize.CollapseAppend | pipeline/nodes/normalize.py:10 | the collapse works run by run: a text cut after a visible character collapses as its two parts do |
| Normalize.CollapseRun | pipeline/nodes/normalize.py:10 | a whole whitespace run, of any length, becomes one space in place; with CollapseAppend and CollapseFixpoint this fixes the collapse of every text |
| Normalize.NbspSubsumed | pipeline/nodes/normalize.py:9-10 | the NBSP substitution changes nothing after the whitespace collapse |
| Normalize.FirstBreak | pipeline/nodes/normalize.py:12 | finds the first whitespace that directly follows a sentence mark, or reports that there is none |
| Normalize.SplitAtMarks | pipeline/nodes/normalize.py:12 | there is at least one piece; every piece but the last ends with 。！？ or ；, and no piece holds a mark followed by whitespace, so the text is split at every such place |
| Normalize.SplitAtMarksJoin | pipeline/nodes/normalize.py:10-12 | on collapsed text, joining the pieces with single spaces restores the text |
| Normalize.SplitAtMarksNoDoubleSpace | pipeline/nodes/normalize.py:10-12 | no piece of a collapsed text holds two adjacent whitespace characters |
| Normalize.KeepLong | pipeline/nodes/normalize.py:14 | keeps at most as many sentences as pieces, each stripped and longer than five characters |
| Normalize.KeepLongMarks | pipeline/nodes/normalize.py:12-14 | if every piece but the last ends with a mark, so does every kept sentence but the last |
| Normalize.KeepLongSingle | pipeline/nodes/normalize.py:14 | one piece is kept, stripped, exactly when its stripped form is longer than five characters |
| Normalize.KeepLongAppend | pipeline/nodes/normalize.py:14 | pieces are filtered one by one, in order: the sentences of `a + b` are those of `a`, then those of `b` |
| Normalize.KeepLongMember | pipeline/nodes/normalize.py:14 | a sentence is kept exactly when it is the stripped form, longer than five characters, of some piece |
| Normalize.NormalizeAndSegmentSpec | pipeline/nodes/normalize.py:6-15 | every sentence is stripped, longer than five characters, free of double whitespace and holds no mark followed by whitespace; all but the last end with a mark |
| Normalize.NormalizeAndSegmentKeeps | pipeline/nodes/normalize.py:6-15 | a sentence is returned exactly when it is the stripped form, longer than five characters, of a piece of the whitespace-collapsed text |
| Normalize.NormalizeAndSegmentOrder | pipeline/nodes/normalize.py:6-15 | sentences keep source order: for every cut of the pieces, the sentences of the pieces before the cut come first, followed by those after it |
| Normalize.PiecesRestoreText | pipeline/nodes/normalize.py:9-12 | the pieces before filtering, joined with spaces, are the collapsed original text |
| Chunking.Windows | pipeline/nodes/extract.py:30-39 | the loop's windows tile the text: each is a full `size` window until the last, which ends at the end of the text, and each starts `overlap` before the previous end |
| Chunking.ChunkWindows | pipeline/nodes/extract.py:25-39 | a text that fits one chunk is one window; otherwise the windows tile it |
| Chunking.ChunkText | pipeline/nodes/extract.py:25-39 | `_chunk_text` returns a fitting text whole; otherwise at least two chunks, each a slice of at most `size` characters, from position 0 to the end, each starting `overlap` before the previous end |
| Chunking.StitchWindows | pipeline/nodes/extract.py:31-39 | the window slices, with the overlap of every later one dropped, concatenate to the text |
| Chunking.ChunkTextStitches | pipeline/nodes/extract.py:25-39 | nothing is lost or invented: the chunks with their overlaps dropped concatenate back to the text |
| Extract.UserPrompt | pipeline/nodes/extract.py:16-22 | the prompt starts with the keyword header and ends with the chunk, verbatim |
| Extract.EntryItem | pipeline/nodes/extract.py:59-66 | an entry gives an item exactly when it is a dict that validates once its `docName` is overwritten; the item carries the document's name |
| Extract.StampedItems | pipeline/nodes/extract.py:59-66 | at most one item per entry, each naming the document |
| Extract.ReplyItems | pipeline/nodes/extract.py:51-66 | a blank reply, or a reply not recovered to a JSON object, gives nothing; every item names the document |
| Extract.ChunkItems | pipeline/nodes/extract.py:45-66 | every item of a document's chunks names that document |
| Extract.DocumentItems | pipeline/nodes/extract.py:44-66 | every item of a document names that document |
| Extract.SuppliedDocNameIgnored | pipeline/nodes/extract.py:63-64 | an entry's own `docName` is irrelevant, because it is overwritten before validation |
| Extract.StampedItemsAppend | pipeline/nodes/extract.py:59-66 | entries are handled independently: the items of `a + b` are those of `a`, then those of `b` |
| Extract.DroppedEntryKeepsSiblings | pipeline/nodes/extract.py:60-66 | a failing entry is skipped without losing its siblings |
| Extract.ValidEntryKept | pipeline/nodes/extract.py:63-64 | a valid entry contributes exactly its own item, in place |
| Extract.ChunkItemsAppend | pipeline/nodes/extract.py:45-66 | items keep chunk order |
| Extract.ExtractAppend | pipeline/nodes/extract.py:42-67 | items keep document order |
| Extract.ExtractedDocNames | pipeline/nodes/extract.py:42-67 | every extracted item names the document it came from |
| Extract.ReplyItemsOfList | pipeline/nodes/extract.py:54-58 | a non-empty `items` list is validated entry by entry; an empty or missing `items` falls back to `Items`; both missing or falsy give nothing, and so does a truthy non-list in the key that is used |
| ItemsFromText.WindowItemsSpec | pipeline/nodes/items_from_text.py:13-25 | every item is a RawText item of the document whose text is the stripped, non-empty text of one window |
| ItemsFromText.WindowItemsCount | pipeline/nodes/items_from_text.py:15-25 | at most one item per window; blank windows add none, non-blank windows add one each |
| ItemsFromText.DocumentWindows | pipeline/nodes/items_from_text.py:8-30 | an empty text has no windows; otherwise the windows tile the text |
| ItemsFromText.ChunkDocumentsNames | pipeline/nodes/items_from_text.py:5-31 | every item is a RawText item carrying the name of one of the documents |
| ItemsFromText.WindowItemsAppend | pipeline/nodes/items_from_text.py:13-30 | windows are handled one after another: the items of `a + b` are those of `a`, then those of `b` |
| ItemsFromText.ChunkDocumentsAppend | pipeline/nodes/items_from_text.py:7-31 | items keep document order |
| ItemsFromText.DocumentItemsSpec | pipeline/nodes/items_from_text.py:8-30 | each item of a document is a RawText item of that document whose text is the stripped text of a slice at most `chunk_chars` long |
| ItemsFromText.DocumentItemsCount | pipeline/nodes/items_from_text.py:10-11 | an empty document gives no item, and a document that fits one window gives at most one |
| ItemsFromText.NonBlankDocumentHasItem | pipeline/nodes/items_from_text.py:13-27 | a non-blank document that fits one window gives exactly one item: its stripped text |
| Induction.ParamsForValid | pipeline/nodes/induction.py:162-168 | segments are 15000 characters with an overlap of 1000 up to 50000 characters, else 20000 with 1500; both sets leave room to advance |
| Induction.LastMark | pipeline/nodes/induction.py:183 | a mark found is a '。' inside the window |
| Induction.LastMarkSpec | pipeline/nodes/induction.py:183 | the mark found is the last '。' of the window, and none is found only when the window has none |
| Induction.CutAfterMark | pipeline/nodes/induction.py:184-186 | a window is cut just after its last '。' only when that mark lies beyond 80% of the window |
| Induction.CutEnd | pipeline/nodes/induction.py:175-186 | a segment is a non-empty slice of at most `size` characters; it reaches the end of the text exactly when the window does; a shortened segment is cut beyond 80% |
| Induction.CutEndSpec | pipeline/nodes/induction.py:180-186 | a cut segment ends just after the window's last '。'; an uncut full window has no '。' beyond 80% except possibly as its last character |
| Induction.SegmentsAsWritten | pipeline/nodes/induction.py:171-201 | the loop as written always produces exactly ten segments, the first at the start |
| Induction.TailRepeats | pipeline/nodes/induction.py:195-201 | as written, once a segment reaches the end of the text, every later segment is the tail `(n - overlap, n)` |
| Induction.AsWrittenInText | pipeline/nodes/induction.py:171-201 | every segment of the loop as written is a non-empty slice of the text, none longer than the size |
| Induction.AsWrittenResendsTail | pipeline/nodes/induction.py:171-201 | a text of 15001 to 29000 characters without '。' is covered by two segments, yet the tail is sent eight more times |
| Induction.InTextBounds | pipeline/nodes/induction.py:175-186 | well-formed segments are non-empty slices of the text, none longer than the size |
| Induction.NextStart | pipeline/nodes/induction.py:195 | the next segment starts `overlap` before the previous end, and moves forward by at least a fixed step when that end is not the end of the text |
| Induction.SegmentsCorrected | pipeline/nodes/induction.py:171-201 | the corrected loop gives one to ten segments; the first starts at the start |
| Induction.CorrectedInText | pipeline/nodes/induction.py:175-186 | every corrected segment is a non-empty slice of at most `size` characters |
| Induction.CorrectedChained | pipeline/nodes/induction.py:195 | each corrected segment starts `overlap` before the previous end, and only the last may reach the end of the text |
| Induction.CorrectedStopsAtEnd | pipeline/nodes/induction.py:199-201 | fewer than ten corrected segments happen only when the last reaches the end of the text |
| Induction.CorrectedIsPrefix | pipeline/nodes/induction.py:171-201 | the corrected segments are the segments as written, up to the first that reaches the end |
| Induction.CorrectedReachesEnd | pipeline/nodes/induction.py:171-201 | the corrected loop reaches the end of the text whenever the remaining segments can cover it at the minimal step |
| Induction.CorrectedCoversText | pipeline/nodes/induction.py:156-203 | every text of 15001 to 150500 characters is segmented to its end within ten segments |
| Induction.SemanticEntrySpec | pipeline/nodes/induction.py:136-146 | an entry gives an item exactly when it is a dict whose built fields validate; the item carries those fields and the fixed docName "语义抽取结果" |
| Induction.ReplySemanticItems | pipeline/nodes/induction.py:132-153 | a reply that is not an object, or whose `items` is not a list, gives no items |
| Induction.ReplyItemsNamed | pipeline/nodes/induction.py:135-147 | every item of a reply carries the fixed docName |
| Induction.ProcessSemanticSegment | pipeline/nodes/induction.py:96-153 | every item of a segment carries the fixed docName |
| Induction.SegmentTruncated | pipeline/nodes/induction.py:101-102 | a segment call depends only on its first 15000 characters |
| Induction.FailuresGiveNothing | pipeline/nodes/induction.py:129-132 | a failed call gives no items, and so does a reply that is not JSON, which reads as `{"items": []}` |
| Induction.ValidReplyItems | pipeline/nodes/induction.py:135-147 | an `items` list of valid entries gives one item per entry, in order |
| Induction.FailingEntryEmptiesSegment | pipeline/nodes/induction.py:135-153 | one failing entry empties the whole segment, because the exception aborts it |
| Induction.EntryDefaults | pipeline/nodes/induction.py:137-142 | without `type` an entry is a KeywordHit; without `semantic_matches` its keyword list is empty |
| Induction.SegmentItems | pipeline/nodes/induction.py:174-201 | every item of the segments carries the fixed docName |
| Induction.SegmentItemsAppend | pipeline/nodes/induction.py:188-191 | segments are handled one after another: the items of `a + b` are those of `a`, then those of `b` |
| Induction.LargeSegmentsSlices | pipeline/nodes/induction.py:162-186 | both the loop as written and the corrected loop give slices of the text |
| Induction.ProcessLargeDocument | pipeline/nodes/induction.py:156-203 | `_process_large_document` as written, over the ten segments of the loop as written: every item of a long text carries the fixed docName |
| Induction.ProcessLargeDocumentCorrected | pipeline/nodes/induction.py:156-203 | the same over the corrected segments: every item carries the fixed docName |
| Induction.PrefixItems | pipeline/nodes/induction.py:188-191 | the items of a prefix of the segments are a prefix of the items, the rest being items of slices of the text |
| Induction.CorrectedItemsPrefix | pipeline/nodes/induction.py:156-203 | the corrected items come first in the items as written, followed only by the items of further slices of the text |
| Induction.AsWrittenSegmentsListed | pipeline/nodes/induction.py:171-201 | a text of 15001 to 29000 characters without '。' is segmented as written into (0,15000), (14000,n) and eight copies of (n-1000,n) |
| Induction.SegmentItemsListed | pipeline/nodes/induction.py:188-191 | the items of two segments followed by `k` copies of a third are their calls' items in that order, the third's repeated `k` times |
| Induction.LargeDocumentResendsTail | pipeline/nodes/induction.py:156-203 | for such a text, the items are those of its first 15000 characters, then those from 14000 on, then eight repeats of those of its last 1000 characters |
| Induction.ExtractWithSemanticUnderstanding | pipeline/nodes/induction.py:77-93 | every item carries the fixed docName |
| Induction.ShortTextOneCall | pipeline/nodes/induction.py:84-87 | a text of at most 15000 characters is sent whole, in a single call |
| Induction.LongTextResendsTail | pipeline/nodes/induction.py:84-88 | a text of 15001 to 29000 characters without '。' goes through the loop as written: two covering calls, then the last 1000 characters eight more times |
| Induction.LongSegmentTail | pipeline/nodes/induction.py:101-102 | of a segment longer than 15000 characters, the model never sees what lies beyond the first 15000 |
| GenerateCards.ToFloat | pipeline/nodes/generate_cards.py:34-42 | numbers are kept as they are, booleans become 1 or 0, a string gives the value `float()` reads from it stripped or 0 when that fails, and anything else gives 0 |
| GenerateCards.HeuristicQuality | pipeline/nodes/generate_cards.py:45-53 | the score is 0 without a question or an answer; otherwise it lies in [0.55, 1] |
| GenerateCards.HeuristicUnclamped | pipeline/nodes/generate_cards.py:48-52 | for a question and an answer the clamp never cuts: the score is the unclamped sum |
| GenerateCards.HeuristicMonotone | pipeline/nodes/generate_cards.py:48-52 | a longer answer never scores lower |
| GenerateCards.HeuristicExamples | pipeline/nodes/generate_cards.py:48-52 | an 80-character answer scores 0.9 without evidence, and 1 with 20 characters of evidence |
| GenerateCards.StrippedField | pipeline/nodes/generate_cards.py:76-77 | a string field is stripped, a falsy value gives "", and a truthy non-string raises |
| GenerateCards.DifficultyField | pipeline/nodes/generate_cards.py:91 | a falsy Difficulty gives "", a string is kept, and a truthy non-string fails validation |
| GenerateCards.TypeField | pipeline/nodes/generate_cards.py:85 | a missing type is basic; any value other than "basic" or "cloze" fails validation |
| GenerateCards.OrStr | pipeline/nodes/generate_cards.py:88-89 | Python's `or` on strings: the first non-empty one |
| GenerateCards.SourceLoc | pipeline/nodes/generate_cards.py:89 | the location is the first non-empty of articleNo, section and docketNo, and empty exactly when all three are |
| GenerateCards.KeywordTags | pipeline/nodes/generate_cards.py:96 | one `kw:` tag per keyword hit, in order |
| GenerateCards.ItemTags | pipeline/nodes/generate_cards.py:90-96 | the first tag is the lowercased item type, followed by the keyword tags |
| GenerateCards.CardQuality | pipeline/nodes/generate_cards.py:81-83 | a positive model quality is kept as it is; otherwise the heuristic is used |
| GenerateCards.CardFromRaw | pipeline/nodes/generate_cards.py:72-99 | an entry gives a card exactly when it is a dict with a non-blank question and answer, a valid type and a valid Difficulty; the card's type and Difficulty are the entry's validated fields, and it carries the item's provenance, tags, evidence and quality |
| GenerateCards.RawCards | pipeline/nodes/generate_cards.py:72-99 | at most one card per entry, each built from the item |
| GenerateCards.ReplyCards | pipeline/nodes/generate_cards.py:63-99 | a blank reply, or one not recovered to an object, gives no cards |
| GenerateCards.ReplyCardsOfList | pipeline/nodes/generate_cards.py:64-72 | on a reply recovered to an object, a `cards` list gives the cards of its entries, and a missing, falsy or non-list `cards` gives none |
| GenerateCards.GenerateCardsAppend | pipeline/nodes/generate_cards.py:56-100 | items are handled one after another: the cards of `a + b` are those of `a`, then those of `b` |
| GenerateCards.GeneratedCardsOfItems | pipeline/nodes/generate_cards.py:56-100 | every card is built from one of the items and carries its provenance and tags |
| GenerateCards.RawCardsAppend | pipeline/nodes/generate_cards.py:72-99 | a rejected entry never costs its siblings |
| GenerateCards.MaxCardsNotEnforced | pipeline/nodes/generate_cards.py:56-100 | the per-item maximum only reaches the request: every valid entry is kept, however many there are |
| GenerateCards.ModelQualityNotClamped | pipeline/nodes/generate_cards.py:81-83 | a model quality above 1 is taken as it is |
| GenerateCards.HeuristicPathBounded | pipeline/nodes/generate_cards.py:81-83 | on the heuristic path a card's quality lies in [0.55, 1] |
| Quality.SubTrans | pipeline/graph.py:65-66 | a subsequence of a subsequence is a subsequence, so the two stages compose |
| Quality.QualityGate | pipeline/nodes/quality.py:7-8 | a card is kept exactly when it is an input card that passes the gate |
| Quality.QualityGateSub | pipeline/nodes/quality.py:7-8 | the gate keeps the cards' order |
| Quality.QualityGateAllPass | pipeline/nodes/quality.py:7-8 | cards that all pass are let through unchanged |
| Quality.QualityGateIdempotent | pipeline/nodes/quality.py:7-8 | gating twice is gating once |
| Quality.QualityGateMonotone | pipeline/nodes/quality.py:7-8 | a stricter gate keeps exactly what it keeps of the laxer gate's output, so never more |
| Quality.QualityGateAppend | pipeline/nodes/quality.py:7-8 | the gate works card by card |
| Quality.AnyDupExists | pipeline/nodes/quality.py:15-20 | the inner loop finds a duplicate exactly when some kept card is one |
| Quality.Dedup | pipeline/nodes/quality.py:11-23 | deduplication never adds cards |
| Quality.DedupSub | pipeline/nodes/quality.py:11-23 | deduplication keeps the order of the cards it keeps |
| Quality.DedupGrows | pipeline/nodes/quality.py:12-22 | the kept list only grows: what is kept after a prefix is a prefix of the final result |
| Quality.DedupKeepsFirst | pipeline/nodes/quality.py:11-23 | the first card is always kept, and stays first |
| Quality.DedupNoLaterDup | pipeline/nodes/quality.py:11-23 | of any two kept cards, the later one's question and answer similarities to the earlier are both below the threshold |
| Quality.DedupOfNoLaterDup | pipeline/nodes/quality.py:11-23 | a list without later duplicates is its own deduplication |
| Quality.DedupIdempotent | pipeline/nodes/quality.py:11-23 | deduplicating twice is deduplicating once |
| Quality.DedupComplete | pipeline/nodes/quality.py:11-23 | every input card is kept, or duplicates a card that is kept |
| Quality.DedupDropIff | pipeline/nodes/quality.py:13-22 | a card is dropped exactly when it duplicates a card kept before it |
| Quality.FinalizeSpec | pipeline/graph.py:65-66 | the final cards are an order-preserving subsequence of the generated ones, all pass the gate, and none duplicates an earlier one |
| Exporter.AsText | anki/exporter.py:14-20 | None becomes "", a list is joined with ", ", and a string is kept |
| Exporter.NonBlankStripped | anki/exporter.py:28-30 | every surviving tag is non-empty and stripped |
| Exporter.NonBlankStrippedSingle | anki/exporter.py:28-30 | one tag survives, stripped, exactly when it is not blank |
| Exporter.NonBlankStrippedAppend | anki/exporter.py:28-30 | tags are filtered one by one in order: the survivors of a concatenation are those of each part, in turn |
| Exporter.NonBlankStrippedMember | anki/exporter.py:28-30 | a string survives exactly when it is the stripped, non-empty form of some input tag |
| Exporter.NonBlankStrippedEmpty | anki/exporter.py:28-32 | no tag survives exactly when every tag is blank |
| Exporter.TagList | anki/exporter.py:25-30 | the rendered tags, from a list or from a comma-split string, are non-empty and stripped |
| Exporter.SpansAppend | anki/exporter.py:33 | the badges of a concatenation of tags are those of each part, in turn |
| Exporter.FormatTags | anki/exporter.py:23-33 | the result is "" exactly when no tag survives; otherwise it is the surviving tags' badges, in order, joined by single spaces |
| Exporter.FormatTagsAppend | anki/exporter.py:27-33 | a tag list renders piece by piece: the rendering of a concatenation is those of its parts, one space apart when both are non-empty |
| Exporter.CommaStringLikeList | anki/exporter.py:27-30 | for tags without commas, a comma-separated string renders like the list |
| Exporter.SingleTag | anki/exporter.py:28-33 | one tag renders as one badge of its stripped text, or as nothing when blank |
| Exporter.NoneTagsRenderNone | anki/exporter.py:29-30 | `Tags` set to None renders the literal tag "None" |
| Exporter.FormatDifficulty | anki/exporter.py:36-45 | the result is "" exactly when the Difficulty is missing or falsy |
| Exporter.DifficultyPaddedWord | anki/exporter.py:37-45 | whitespace padding does not change a difficulty's class, and the badge shows the value untrimmed |
| Exporter.DifficultyEasyExample | anki/exporter.py:37-45 | " Easy " gives an easy badge labelled " Easy " |
| Exporter.NoteType | anki/exporter.py:55 | a falsy type is "basic", a non-empty string is lowercased, and a truthy non-string fails as `.lower()` raises |
| Exporter.ClozeFields | anki/exporter.py:59-69 | a cloze note has six fields: the answer first, then the tags and difficulty badges, and the evidence last |
| Exporter.BasicFields | anki/exporter.py:71-82 | a basic note has seven fields: question and answer first, then the badges, and the evidence last |
| Exporter.NoteFields | anki/exporter.py:55-82 | the type selects the cloze or the basic layout; a card fails exactly when its type is a non-empty list |
| Exporter.ExportNotes | anki/exporter.py:54-83 | a deck exports exactly when every card does, one note per card, in card order |
| Exporter.CardValuesType | anki/exporter.py:55 | a `Card`'s type reaches the exporter unchanged |
| Exporter.CardNoteLayout | anki/exporter.py:54-82 | every `Card` exports: a cloze card to six fields starting with its answer, a basic card to seven starting with its question and answer, with the evidence last |
| Seqs.FlatMapAppend | pipeline/nodes/items_from_text.py:22-31 | the per-input loop over `a + b` gives the results for `a`, then those for `b` |
| Seqs.FlatMapRepeat | pipeline/nodes/induction.py:174-191 | the per-input loop over `n` copies of one input gives `n` copies of its results |
| Seqs.AllOrNothing | pipeline/nodes/induction.py:135-153 | when a result exists it holds one value per input, in order; a result exists whenever every input succeeds |
| Seqs.AllOrNothingFails | pipeline/nodes/induction.py:135-153 | one failing input makes the whole result None |
| Text.Strip | pipeline/nodes/items_from_text.py:15 | `str.strip()`: the result is stripped, is a slice of the input with only whitespace cut on either side, and is empty exactly when the input is blank |
| Text.StripIdempotent | pipeline/nodes/normalize.py:14 | stripping twice is stripping once |
| Text.StripPadded | anki/exporter.py:38 | stripping removes exactly the whitespace padding around a stripped word |
| Text.Lower | anki/exporter.py:38 | `str.lower()` keeps the length |
| Text.FirstIndex | pipeline/utils/json_utils.py:10 | `str.find`: the position of the first occurrence, or none exactly when the character is absent |
| Text.LastIndex | pipeline/nodes/induction.py:183 | `str.rfind`: the position of the last occurrence, or none exactly when the character is absent |
| Text.Split | anki/exporter.py:30 | `str.split(c)` gives at least one piece, none containing `c` |
| Text.JoinAppend | anki/exporter.py:33 | joining two non-empty lists puts exactly one separator between their joins |
| Text.JoinSplit | anki/exporter.py:30 | joining the pieces of a split with the separator restores the string |
| Text.SplitJoin | anki/exporter.py:30 | splitting a join of pieces free of the separator gives the pieces back |
| Json.GetOr | anki/exporter.py:8-11 | `dict.get(key, default)`, also the exporter's `_get`: a present key gives its value, and a missing key gives the default |
| Json.OrElse | pipeline/nodes/extract.py:56 | Python's `or`: a truthy value is kept, and a falsy one gives the alternative |
| Quality.NotDupBothBelow | pipeline/nodes/quality.py:16-19 | a card is not a duplicate of a kept one only when both its question and its answer similarity lie below the threshold |
| Normalize.KeepLongNoDoubleSpace | pipeline/nodes/normalize.py:14 | stripping and filtering keep pieces free of double whitespace |
| Normalize.StripNoBreak | pipeline/nodes/normalize.py:14 | stripping a piece creates no mark followed by whitespace |
| Normalize.KeepLongNoBreak | pipeline/nodes/normalize.py:14 | the kept sentences of pieces without a mark followed by whitespace have none either |
| Normalize.KeepLongCut | pipeline/nodes/normalize.py:14 | the sentences of the pieces before any cut come before those after it |
| Exporter.CardValuesText | anki/exporter.py:62-80 | a `Card`'s question, answer and evidence reach the note fields verbatim |

## Left out

- The Streamlit UI (`app/streamlit_app.py`), ingestion (`pipeline/nodes/ingest.py`), the Anki templates (`anki/templates.py`) and the LLM client (`llm/client.py`) are outside the core. The model sees their effects only as parameters.
- `pipeline/graph.py` is only glue. The model covers its final two calls (`Quality.Finalize`); the try/except around each stage is not modelled.
- `export_to_apkg` writing the deck: `genanki` note and package objects, the deck id and file paths are I/O. Only the note fields are modelled.
- `generate_cards_with_intelligence` and `create_simple_card` (induction.py:13-74, 215-230) are not modelled. Both read `item.evidence`, which `ExtractedItem` does not declare. So the first item makes the prompt raise, and the fallback raises again inside the handler. A call with a non-empty list therefore always ends in an exception.
- `_build_card_prompt` (generate_cards.py:17-31): the JSON payload and `json.dumps` are not modelled. The request carries the item and the maximum, from which the payload is built.
- The system prompts and the instruction texts are constants sent to the model, so they are left out.
- Extract.UserPrompt: the body builds the whole header, the keywords joined with ", " between the label and the instruction. The contract states only that the prompt starts with the label and ends with the chunk, verbatim.
- Schemas.Ints: numeric strings are read as an optional sign and decimal digits with at most one point, and an `int` takes only zeros after the point. pydantic also reads underscores between digits, exponents and, for floats, "inf" and "nan", and it rejects integer strings longer than 4300 characters. Those forms are not modelled. The same coercion (`Coerce.LaxInt`, `Coerce.LaxFloat`) serves `pages`, `quality`, the two thresholds and `max_cards_per_item`.
- Exporter.Repr: `str()` of a list is modelled as `repr` of plain strings (quotes around the text). Strings with quotes, backslashes or unprintable characters are left out.
- Text.Lower: lowercases ASCII letters only, and its contract states only that the length is kept. The classification words are ASCII or CJK, which are unaffected.
- Floating point: numbers are exact reals. `0.8 * len` is compared as `5 * p > 4 * len`, which is exact for the segment lengths involved. The heuristic score is computed over exact reals.
- GenerateCards.ToFloat: does not model `float()` on strings such as "nan" or "inf". Those come from the `parseFloat` parameter.
- The oracles `chat`, `gen` and `parse` are functions, so the same request always gets the same reply. The real card call samples at temperature 0.2 (generate_cards.py:63), and the semantic calls may differ between calls too. The results that rest on this are GenerateCards.GenerateCardsAppend, Extract.ExtractAppend, and the eight repeats in Induction.LargeDocumentResendsTail and Induction.LongTextResendsTail: each repeat sends the same request, but a real model may answer it differently. The segment list of Induction.AsWrittenResendsTail does not depend on this.
- Quality.Dedup: `token_set_ratio` is an oracle. Its tokenisation and scoring are left out, and so the properties hold for any scoring function.
- `DeepSeekClient` has no `generate` method, so the semantic calls of induction.py raise as written. `gen` returns None for that case, and the model covers every behaviour of the callee.
- Induction.ProcessLargeDocument requires the text to be longer than 15000 characters. That is the only way the dispatcher calls it.
- Induction.ProcessLargeDocument: for texts over 50000 characters, segments are 20000 characters long, but `_process_semantic_segment` sends only their first 15000. The last 5000 of every such segment never reach the model. This is stated by `Induction.LongSegmentTail` and not corrected.
- Induction.CorrectedCoversText stops at 150500 characters, the reach of one full segment and nine more at the minimal step (14500 characters with the 20000/1500 parameters). Coverage of longer texts depends on where the '。' marks fall, and the cap at ten segments drops whatever is left.
- Chunking.Windows requires `overlap < size`. Otherwise the source loop does not advance and never ends. Every caller passes constants that satisfy this (12000/500 and 1000/100).
- GenerateCards.MaxCardsNotEnforced: `max_cards_per_item` only reaches the request, and no cap is applied to the reply. This is the source's behaviour, stated rather than corrected.

## Findings

| source | as written | input that shows it | evidently intended | confidence | as-written member | corrected member |
|---|---|---|---|---|---|---|
| pipeline/nodes/induction.py:195-201 | the segment loop only stops at the tenth segment; after a segment that reaches the end of the text, the next starts `overlap` before the end and reaches the end again | a text of 20000 characters without '。': segments (0,15000), (14000,20000), then (19000,20000) eight more times | stop after the segment that reaches the end of the text | not executed | Induction.AsWrittenResendsTail | Induction.CorrectedIsPrefix |

=== FILE: chunking.dfy ===
/**
 * Fixed-size overlapping windows over a text, shared by `_chunk_text`
 * (pipeline/nodes/extract.py) and `chunk_documents_to_items`
 * (pipeline/nodes/items_from_text.py): a window of `size` characters, the
 * next one starting `overlap` characters before the previous end, the last
 * one ending at the end of the text.
 */
module Chunking {

  /** A window `[start, end)` of a text. */
  datatype Window = Window(start: nat, end: nat)

  /**
   * The windows are a tiling of `[start, n)`: they start at `start`, each
   * lies inside the text and is at most `size` long, every window but the
   * last is exactly `size` long and ends before `n`, the next starting
   * `overlap` before the previous end, and the last ends at `n`.
   */
  predicate Tiling(ws: seq<Window>, n: nat, size: nat, overlap: nat, start: nat) {
    && |ws| > 0
    && ws[0].start == start
    && ws[|ws| - 1].end == n
    && (forall k :: 0 <= k < |ws| ==> ws[k].start <= ws[k].end <= n && ws[k].end - ws[k].start <= size)
    && (forall k :: 0 <= k < |ws| - 1 ==>
          ws[k].end < n && ws[k].end - ws[k].start == size && ws[k + 1].start + overlap == ws[k].end)
  }

  /**
   * The `while start < n` loop of both chunkers, from `start`: the window
   * `[start, min(n, start + size))`, then stop at the end of the text or
   * continue from `end - overlap` (clamped at 0, which the precondition
   * makes unreachable).
   */
  function Windows(n: nat, size: nat, overlap: nat, start: nat): (ws: seq<Window>)
    requires overlap < size && start < n
    ensures Tiling(ws, n, size, overlap, start)
    decreases n - start
  {
    var end := if start + size < n then start + size else n;
    if end == n then [Window(start, end)]
    else
      var next := end - overlap;
      var next' := if next < 0 then 0 else next;
      [Window(start, end)] + Windows(n, size, overlap, next')
  }

  /** The windows `_chunk_text` cuts: the whole text when it fits, else the loop. */
  function ChunkWindows(n: nat, size: nat, overlap: nat): (ws: seq<Window>)
    requires overlap < size
    ensures n <= size ==> ws == [Window(0, n)]
    ensures Tiling(ws, n, size, overlap, 0) || (n == 0 && ws == [Window(0, 0)])
  {
    if n <= size then [Window(0, n)] else Windows(n, size, overlap, 0)
  }

  function Slices(text: string, ws: seq<Window>): (r: seq<string>)
    requires forall k :: 0 <= k < |ws| ==> ws[k].start <= ws[k].end <= |text|
    ensures |r| == |ws|
    ensures forall k :: 0 <= k < |ws| ==> r[k] == text[ws[k].start..ws[k].end]
    decreases |ws|
  {
    if |ws| == 0 then [] else [text[ws[0].start..ws[0].end]] + Slices(text, ws[1..])
  }

  /**
   * `_chunk_text(text, size, overlap)`: with `overlap < size`, a text that
   * fits is returned whole; otherwise every chunk is a slice of at most
   * `size` characters, the first starting at 0, the last ending at the end
   * of the text, and each starting `overlap` before the previous one ends.
   */
  function ChunkText(text: string, size: nat, overlap: nat): (chunks: seq<string>)
    requires overlap < size
    ensures |text| <= size ==> chunks == [text]
    ensures |chunks| > 0
    ensures forall k :: 0 <= k < |chunks| ==> |chunks[k]| <= size
    ensures |text| > size ==>
      var ws := ChunkWindows(|text|, size, overlap);
      && |chunks| == |ws| >= 2
      && ws[0].start == 0 && ws[|ws| - 1].end == |text|
      && (forall k :: 0 <= k < |ws| ==> chunks[k] == text[ws[k].start..ws[k].end])
      && (forall k :: 0 <= k < |ws| - 1 ==> ws[k + 1].start + overlap == ws[k].end)
  {
    var ws := ChunkWindows(|text|, size, overlap);
    assert |text| <= size ==> text[0..|text|] == text;
    Slices(text, ws)
  }

  /** Dropping the first `overlap` characters of every later chunk and concatenating. */
  function Stitch(chunks: seq<string>, overlap: nat): string
    requires |chunks| > 0
  {
    chunks[0] + DropOverlaps(chunks[1..], overlap)
  }

  function DropOverlaps(chunks: seq<string>, overlap: nat): string
    decreases |chunks|
  {
    if |chunks| == 0 then ""
    else (if overlap <= |chunks[0]| then chunks[0][overlap..] else "") + DropOverlaps(chunks[1..], overlap)
  }

  lemma DropPrefixOfConcat(a: string, b: string, o: nat)
    requires o <= |a|
    ensures (a + b)[o..] == a[o..] + b
  {
  }

  lemma ConcatSlices(text: string, i: nat, j: nat)
    requires i <= j <= |text|
    ensures text[i..j] + text[j..] == text[i..]
  {
  }

  lemma StitchStep(text: string, start: nat, end: nat, next: nat, cs': seq<string>, overlap: nat)
    requires start <= end <= |text| && next + overlap == end
    requires |cs'| > 0 && |cs'[0]| >= overlap
    requires Stitch(cs', overlap) == text[next..]
    ensures text[start..end] + DropOverlaps(cs', overlap) == text[start..]
  {
    var first := cs'[0];
    var rest := DropOverlaps(cs'[1..], overlap);
    DropPrefixOfConcat(first, rest, overlap);
    assert DropOverlaps(cs', overlap) == text[next..][overlap..];
    assert text[next..][overlap..] == text[end..];
    ConcatSlices(text, start, end);
  }

  lemma {:induction false} StitchWindows(text: string, size: nat, overlap: nat, start: nat)
    requires overlap < size && start < |text|
    ensures Stitch(Slices(text, Windows(|text|, size, overlap, start)), overlap) == text[start..]
    decreases |text| - start
  {
    var n := |text|;
    var ws := Windows(n, size, overlap, start);
    var cs := Slices(text, ws);
    var end := if start + size < n then start + size else n;
    if end == n {
      assert text[start..end] == text[start..];
      assert cs[1..] == [];
    } else {
      var next := end - overlap;
      var ws' := Windows(n, size, overlap, next);
      var cs' := Slices(text, ws');
      assert ws[1..] == ws';
      assert cs[1..] == cs';
      StitchWindows(text, size, overlap, next);
      StitchStep(text, start, end, next, cs', overlap);
    }
  }

  /** The chunks with their overlaps dropped concatenate back to the text. */
  lemma ChunkTextStitches(text: string, size: nat, overlap: nat)
    requires overlap < size
    ensures Stitch(ChunkText(text, size, overlap), overlap) == text
  {
    if |text| <= size {
      assert ChunkText(text, size, overlap)[1..] == [];
    } else {
      StitchWindows(text, size, overlap, 0);
      assert text[0..] == text;
    }
  }
}

=== FILE: coerce.dfy ===
/**
 * pydantic's lax-mode coercion of a field value to `int` or `float`, the
 * conversion behind every numeric field of models/schemas.py (`pages`,
 * `pageRange`, `charSpan` and `max_cards_per_item` are ints; `quality`,
 * `dedup_threshold` and `min_quality` are floats).
 *
 * An `int` field takes a number without fractional part, a bool (True is
 * 1) or a string that, stripped of whitespace, is an optional sign and
 * decimal digits, possibly followed by a point and nothing but zeros. A
 * `float` field takes any number, a bool, or a string that, stripped, is
 * an optional sign and decimal digits with at most one point among them.
 * Decimal strings are read exactly, as JSON numbers are.
 */
module Coerce {
  import opened Wrappers
  import opened Text
  import opened Json

  // ---------------------------------------------------------------- decimal digits

  predicate IsDigit(c: char) {
    '0' <= c <= '9'
  }

  predicate AllDigits(s: string) {
    forall k :: 0 <= k < |s| ==> IsDigit(s[k])
  }

  /** The number a run of decimal digits spells, most significant first; no digits spell 0. */
  function DigitsValue(ds: string): nat
    requires AllDigits(ds)
    decreases |ds|
  {
    if |ds| == 0 then 0 else DigitsValue(ds[..|ds| - 1]) * 10 + (ds[|ds| - 1] as int - '0' as int)
  }

  /** `10 ** n` */
  function Pow10(n: nat): (r: nat)
    ensures r > 0
  {
    if n == 0 then 1 else 10 * Pow10(n - 1)
  }

  /** The decimal digits of `n`, without leading zeros: `str(n)`. */
  function NatText(n: nat): (r: string)
    ensures |r| > 0 && AllDigits(r) && DigitsValue(r) == n
    decreases n
  {
    var d := [('0' as int + n % 10) as char];
    if n < 10 then
      assert d[..0] == [];
      d
    else
      var r := NatText(n / 10) + d;
      assert r[..|r| - 1] == NatText(n / 10);
      r
  }

  /** `str(n)` for any int: a minus sign before the digits of a negative number. */
  function IntText(n: int): string {
    if n < 0 then "-" + NatText(-n) else NatText(n)
  }

  // ---------------------------------------------------------------- literals

  /** Whether `s` starts with a minus sign, and `s` without its leading sign, if any. */
  function Unsigned(s: string): (bool, string) {
    if |s| > 0 && (s[0] == '-' || s[0] == '+') then (s[0] == '-', s[1..]) else (false, s)
  }

  /** The index of the first `.` in `s`, or `|s|` when there is none. */
  function PointIndex(s: string): (r: nat)
    ensures r <= |s| && '.' !in s[..r]
    ensures r < |s| ==> s[r] == '.'
  {
    if |s| == 0 || s[0] == '.' then 0
    else
      var r := 1 + PointIndex(s[1..]);
      assert s[..r] == [s[0]] + s[1..][..r - 1];
      r
  }

  predicate AllZeros(s: string) {
    forall k :: 0 <= k < |s| ==> s[k] == '0'
  }

  /**
   * An integer string: an optional sign, at least one digit, and then
   * possibly a point followed only by zeros (`"+3"`, `"-12"`, `"3."`, `"3.00"`).
   */
  function IntLiteral(s: string): Option<int> {
    var (negative, u) := Unsigned(s);
    var i := PointIndex(u);
    if i == 0 || !AllDigits(u[..i]) || (i < |u| && !AllZeros(u[i + 1..])) then None
    else
      var x: int := DigitsValue(u[..i]);
      Some(if negative then -x else x)
  }

  /**
   * A decimal string: an optional sign and digits with at most one point,
   * at least one digit in all (`"0.5"`, `"-3"`, `"5."`, `".5"`).
   */
  function DecimalLiteral(s: string): Option<real> {
    var (negative, u) := Unsigned(s);
    var i := PointIndex(u);
    var whole := u[..i];
    var frac := if i < |u| then u[i + 1..] else "";
    if !AllDigits(whole) || !AllDigits(frac) || |whole| + |frac| == 0 then None
    else
      var x := DigitsValue(whole) as real + DigitsValue(frac) as real / Pow10(|frac|) as real;
      Some(if negative then -x else x)
  }

  // ---------------------------------------------------------------- field coercion

  /** The value an `int` field takes from `v`, or None when validation fails. */
  function LaxInt(v: Json): (r: Option<int>)
    ensures v.JNum? ==> (r.Some? <==> IsWhole(v.n)) && (r.Some? ==> r.value as real == v.n)
    ensures v.JBool? ==> r == Some(if v.b then 1 else 0)
    ensures v.JStr? ==> r == IntLiteral(Strip(v.s))
    ensures v.JNull? || v.JArr? || v.JObj? ==> r == None
  {
    match v
    case JNum(n) => if IsWhole(n) then Some(n.Floor) else None
    case JBool(b) => Some(if b then 1 else 0)
    case JStr(s) => IntLiteral(Strip(s))
    case _ => None
  }

  /** The value a `float` field takes from `v`, or None when validation fails. */
  function LaxFloat(v: Json): (r: Option<real>)
    ensures v.JNum? ==> r == Some(v.n)
    ensures v.JBool? ==> r == Some(if v.b then 1.0 else 0.0)
    ensures v.JStr? ==> r == DecimalLiteral(Strip(v.s))
    ensures v.JNull? || v.JArr? || v.JObj? ==> r == None
  {
    match v
    case JNum(n) => Some(n)
    case JBool(b) => Some(if b then 1.0 else 0.0)
    case JStr(s) => DecimalLiteral(Strip(s))
    case _ => None
  }

  // ---------------------------------------------------------------- properties

  /** No digit run is whitespace at either end. */
  lemma IntTextStripped(n: int)
    ensures IsStripped(IntText(n))
  {
    var t := NatText(if n < 0 then -n else n);
    assert !IsSpace(t[0]) && !IsSpace(t[|t| - 1]);
  }

  /** The digits of a nat read back as that nat, as an integer and as a decimal. */
  lemma NatTextReads(n: nat)
    ensures IntLiteral(NatText(n)) == Some(n)
    ensures DecimalLiteral(NatText(n)) == Some(n as real)
  {
    var t := NatText(n);
    assert Unsigned(t) == (false, t);
    PointIndexOfDigits(t);
    assert t[..|t|] == t;
  }

  /** `str(n)` read back as an integer or a decimal string gives `n`. */
  lemma IntTextReads(n: int)
    ensures IntLiteral(IntText(n)) == Some(n)
    ensures DecimalLiteral(IntText(n)) == Some(n as real)
  {
    if n < 0 {
      var t := NatText(-n);
      assert Unsigned("-" + t) == (true, t);
      PointIndexOfDigits(t);
      assert t[..|t|] == t;
    } else {
      NatTextReads(n);
    }
  }

  /** A run of digits holds no point. */
  lemma PointIndexOfDigits(s: string)
    requires AllDigits(s)
    ensures PointIndex(s) == |s|
  {
    if |s| > 0 {
      assert AllDigits(s[1..]);
      PointIndexOfDigits(s[1..]);
    }
  }

  /** A run of zeros spells 0. */
  lemma {:induction false} ZerosValue(s: string)
    requires AllZeros(s)
    ensures AllDigits(s) && DigitsValue(s) == 0
    decreases |s|
  {
    if |s| > 0 {
      assert AllZeros(s[..|s| - 1]);
      ZerosValue(s[..|s| - 1]);
    }
  }

  /**
   * Every string an `int` field accepts, a `float` field accepts too, with
   * the same value: an integer literal is a decimal one.
   */
  lemma IntLiteralIsDecimal(s: string)
    requires IntLiteral(s).Some?
    ensures DecimalLiteral(s) == Some(IntLiteral(s).value as real)
  {
    var (negative, u) := Unsigned(s);
    var i := PointIndex(u);
    var frac := if i < |u| then u[i + 1..] else "";
    assert AllZeros(frac);
    ZerosValue(frac);
  }

  /** Every value an `int` field accepts, a `float` field accepts with the same value. */
  lemma LaxIntIsFloat(v: Json)
    requires LaxInt(v).Some?
    ensures LaxFloat(v) == Some(LaxInt(v).value as real)
  {
    if v.JStr? {
      IntLiteralIsDecimal(Strip(v.s));
    }
  }

  /** An int, as a number or as its text padded with whitespace, is accepted as itself. */
  lemma LaxIntOfInt(n: int, p: string, q: string)
    requires AllSpace(p) && AllSpace(q)
    ensures LaxInt(JNum(n as real)) == Some(n)
    ensures LaxInt(JStr(p + IntText(n) + q)) == Some(n)
    ensures LaxFloat(JStr(p + IntText(n) + q)) == Some(n as real)
  {
    IntTextStripped(n);
    StripPadded(p, IntText(n), q);
    IntTextReads(n);
  }

  /** A fractional part is rejected by an `int` field, as a number and as text. */
  lemma LaxIntRejectsFraction()
    ensures LaxInt(JNum(2.5)) == None
    ensures LaxInt(JStr("2.5")) == None
    ensures LaxFloat(JStr("2.5")) == Some(2.5)
  {
    StripStripped("2.5");
    assert Unsigned("2.5") == (false, "2.5");
    assert PointIndex("2.5") == 1 by {
      assert "2.5"[1..] == ".5";
    }
    assert "2.5"[..1] == "2" && "2.5"[2..] == "5";
    assert DigitsValue("2") == 2 by { assert "2"[..0] == ""; }
    assert DigitsValue("5") == 5 by { assert "5"[..0] == ""; }
  }
}

=== FILE: exporter.dfy ===
/**
 * The pure helpers of the Anki exporter (anki/exporter.py): rendering a
 * card's fields as the strings of an Anki note. A card reaches the exporter
 * either as a `Card` or as its dumped dict, so it is modelled as a map from
 * field names to values; writing the deck and the package is not modelled.
 */
module Exporter {
  import opened Wrappers
  import opened Text
  import opened Schemas
  import opened Seqs
  import Json

  /** The field values a card can hold: None, a string or a list of strings. */
  datatype Value = VNone | VStr(s: string) | VList(items: seq<string>)

  type CardFields = map<string, Value>

  /** Python truthiness of a field value. */
  predicate Truthy(v: Value) {
    match v
    case VNone => false
    case VStr(s) => s != ""
    case VList(xs) => |xs| > 0
  }

  /**
   * `repr(s)` for a string without quotes, backslashes or unprintable
   * characters; only reached when a list is formatted with `str`.
   */
  function Repr(s: string): string {
    "'" + s + "'"
  }

  function Reprs(xs: seq<string>): (r: seq<string>)
    ensures |r| == |xs|
  {
    if |xs| == 0 then [] else [Repr(xs[0])] + Reprs(xs[1..])
  }

  /** `str(value)`. */
  function Str(v: Value): string {
    match v
    case VNone => "None"
    case VStr(s) => s
    case VList(xs) => "[" + Join(Reprs(xs), ", ") + "]"
  }

  /** `_as_text(value)`: None as empty, a list joined with ", ", anything else through `str`. */
  function AsText(v: Value): (r: string)
    ensures v.VNone? ==> r == ""
    ensures v.VList? ==> r == Join(v.items, ", ")
    ensures v.VStr? ==> r == v.s
  {
    match v
    case VNone => ""
    case VList(xs) => Join(xs, ", ")
    case VStr(s) => s
  }

  // ---------------------------------------------------------------- tags

  /** `[t.strip() for t in ts if t.strip()]`. */
  function NonBlankStripped(ts: seq<string>): (r: seq<string>)
    ensures |r| <= |ts|
    ensures forall k :: 0 <= k < |r| ==> r[k] != "" && IsStripped(r[k])
  {
    if |ts| == 0 then []
    else
      var rest := NonBlankStripped(ts[1..]);
      if Strip(ts[0]) != "" then [Strip(ts[0])] + rest else rest
  }

  /** No tag survives exactly when every tag is blank. */
  lemma {:induction false} NonBlankStrippedEmpty(ts: seq<string>)
    ensures NonBlankStripped(ts) == [] <==> forall k :: 0 <= k < |ts| ==> AllSpace(ts[k])
    decreases |ts|
  {
    if |ts| > 0 {
      NonBlankStrippedEmpty(ts[1..]);
      assert forall k :: 1 <= k < |ts| ==> ts[k] == ts[1..][k - 1];
    }
  }

  /** One tag survives, stripped, exactly when it is not blank. */
  lemma NonBlankStrippedSingle(t: string)
    ensures NonBlankStripped([t]) == if Strip(t) == "" then [] else [Strip(t)]
  {
    assert [t][1..] == [];
  }

  /** Tags are filtered one by one, in order: the survivors of `a + b` are those of `a`, then those of `b`. */
  lemma {:induction false} NonBlankStrippedAppend(a: seq<string>, b: seq<string>)
    ensures NonBlankStripped(a + b) == NonBlankStripped(a) + NonBlankStripped(b)
    decreases |a|
  {
    if |a| > 0 {
      assert (a + b)[0] == a[0] && (a + b)[1..] == a[1..] + b;
      NonBlankStrippedAppend(a[1..], b);
    } else {
      assert a + b == b;
    }
  }

  /** A tag survives exactly when it is the stripped, non-empty form of some input tag. */
  lemma {:induction false} NonBlankStrippedMember(ts: seq<string>, s: string)
    ensures s in NonBlankStripped(ts) <==> exists k :: 0 <= k < |ts| && s == Strip(ts[k]) && s != ""
    decreases |ts|
  {
    if |ts| > 0 {
      NonBlankStrippedMember(ts[1..], s);
      assert forall k :: 0 <= k < |ts[1..]| ==> ts[1..][k] == ts[k + 1];
      if s in NonBlankStripped(ts[1..]) {
        var k :| 0 <= k < |ts[1..]| && s == Strip(ts[1..][k]) && s != "";
        assert s == Strip(ts[k + 1]);
      }
    }
  }

  /** The tags `_format_tags` renders: from a list, or from `str(value)` split on commas. */
  function TagList(v: Value): (r: seq<string>)
    ensures forall k :: 0 <= k < |r| ==> r[k] != "" && IsStripped(r[k])
  {
    match v
    case VList(xs) => NonBlankStripped(xs)
    case _ => NonBlankStripped(Split(Str(v), ','))
  }

  /** One tag badge. */
  function Span(t: string): string {
    "<span class='tag'>" + t + "</span>"
  }

  function Spans(ts: seq<string>): (r: seq<string>)
    ensures |r| == |ts|
    ensures forall k :: 0 <= k < |ts| ==> r[k] == Span(ts[k])
  {
    if |ts| == 0 then [] else [Span(ts[0])] + Spans(ts[1..])
  }

  /** The badges of `a + b` are those of `a`, then those of `b`. */
  lemma SpansAppend(a: seq<string>, b: seq<string>)
    ensures Spans(a + b) == Spans(a) + Spans(b)
  {
    assert forall k :: 0 <= k < |a + b| ==> Spans(a + b)[k] == (Spans(a) + Spans(b))[k];
  }

  /** Two renderings placed one after the other, a single space apart when both are non-empty. */
  function SpaceApart(x: string, y: string): string {
    if x == "" then y else if y == "" then x else x + " " + y
  }

  /**
   * `_format_tags(card)`: "" when no tag survives stripping, otherwise one
   * badge per surviving tag, in order, separated by single spaces.
   */
  function FormatTags(card: CardFields): (r: string)
    ensures TagList(Json.GetOr(card, "Tags", VList([]))) == [] <==> r == ""
    ensures r != "" ==> r == Join(Spans(TagList(Json.GetOr(card, "Tags", VList([])))), " ")
  {
    var tags := TagList(Json.GetOr(card, "Tags", VList([])));
    if tags == [] then ""
    else
      assert |Spans(tags)| > 0;
      JoinNonEmpty(Spans(tags), " ");
      Join(Spans(tags), " ")
  }

  /** A join of non-empty strings is non-empty. */
  lemma JoinNonEmpty(xs: seq<string>, sep: string)
    requires |xs| > 0 && xs[0] != ""
    ensures Join(xs, sep) != ""
  {
    if |xs| > 1 {
      assert |Join(xs, sep)| >= |xs[0]|;
    }
  }

  /**
   * A comma-separated `Tags` string renders like the list of its pieces:
   * for tags without commas, the joined string and the list give the same
   * badges.
   */
  lemma CommaStringLikeList(card: CardFields, tags: seq<string>)
    requires forall k :: 0 <= k < |tags| ==> ',' !in tags[k]
    ensures FormatTags(card["Tags" := VStr(Join(tags, ","))]) == FormatTags(card["Tags" := VList(tags)])
  {
    if |tags| == 0 {
      assert Split("", ',') == [""];
      assert AllSpace("");
    } else {
      SplitJoin(tags, ',');
    }
  }

  /**
   * Tag lists render piece by piece: the badges of `a + b` are those of `a`
   * and then those of `b`, one space apart. With `SingleTag` this gives one
   * badge per surviving tag, in order, separated by single spaces.
   */
  lemma FormatTagsAppend(card: CardFields, a: seq<string>, b: seq<string>)
    ensures FormatTags(card["Tags" := VList(a + b)])
         == SpaceApart(FormatTags(card["Tags" := VList(a)]), FormatTags(card["Tags" := VList(b)]))
  {
    var ta, tb := NonBlankStripped(a), NonBlankStripped(b);
    NonBlankStrippedAppend(a, b);
    SpansAppend(ta, tb);
    if ta != [] && tb != [] {
      JoinAppend(Spans(ta), Spans(tb), " ");
    } else if ta == [] {
      assert ta + tb == tb;
    } else {
      assert ta + tb == ta;
    }
  }

  /** A single tag renders as its stripped text in one badge, or as nothing when blank. */
  lemma SingleTag(card: CardFields, t: string)
    ensures FormatTags(card["Tags" := VList([t])]) == (if Strip(t) == "" then "" else Span(Strip(t)))
  {
    assert [t][1..] == [];
  }

  /** `Tags` set to None renders the literal tag "None", since `str(None)` is split. */
  lemma NoneTagsRenderNone(card: CardFields)
    ensures FormatTags(card["Tags" := VNone]) == Span("None")
  {
    assert FirstIndex("None", ',').None?;
    assert Split("None", ',') == ["None"];
    StripStripped("None");
  }

  // ---------------------------------------------------------------- difficulty

  /** The badge class of a trimmed, lowercased difficulty. */
  function DifficultyClass(d: string): string {
    if d in {"easy", "简单", "易"} then "diff-easy"
    else if d in {"medium", "中等", "中"} then "diff-medium"
    else if d in {"hard", "困难", "难"} then "diff-hard"
    else "diff-unknown"
  }

  /**
   * `_format_difficulty(card)`: "" for a missing or falsy Difficulty;
   * otherwise a badge whose class comes from the trimmed, lowercased value
   * and whose label is the value as it was.
   */
  function FormatDifficulty(card: CardFields): (r: string)
    ensures !Truthy(Json.GetOr(card, "Difficulty", VStr(""))) <==> r == ""
  {
    var diff := Json.GetOr(card, "Difficulty", VStr(""));
    if !Truthy(diff) then "" else Badge(DifficultyClass(Lower(Strip(Str(diff)))), Str(diff))
  }

  /** A difficulty badge of class `cls` showing `caption`. */
  function Badge(cls: string, caption: string): (r: string)
    ensures r != ""
  {
    "<span class='badge " + cls + "'>" + caption + "</span>"
  }

  /**
   * Padding and ASCII case do not change the class: a difficulty word
   * surrounded by whitespace and in any ASCII case is classified like the
   * word itself, and the badge shows it untrimmed.
   */
  lemma DifficultyPaddedWord(card: CardFields, pre: string, word: string, post: string)
    requires AllSpace(pre) && AllSpace(post) && IsStripped(word) && pre + word + post != ""
    ensures FormatDifficulty(card["Difficulty" := VStr(pre + word + post)])
         == Badge(DifficultyClass(Lower(word)), pre + word + post)
  {
    StripPadded(pre, word, post);
  }

  lemma LowerEasy()
    ensures Lower("Easy") == "easy"
  {
    assert "Easy"[1..] == "asy";
    assert Lower("asy") == "asy";
  }

  /** The easy words, for instance, in any spacing: " Easy " is an easy badge labelled " Easy ". */
  lemma DifficultyEasyExample(card: CardFields)
    ensures FormatDifficulty(card["Difficulty" := VStr(" Easy ")]) == Badge("diff-easy", " Easy ")
  {
    var shown := " " + "Easy" + " ";
    assert shown == " Easy ";
    DifficultyPaddedWord(card, " ", "Easy", " ");
    LowerEasy();
    assert DifficultyClass("easy") == "diff-easy";
  }

  // ---------------------------------------------------------------- notes

  /** `(_get(c, "type", "basic") or "basic").lower()`; None when `.lower()` would raise on a list. */
  function NoteType(card: CardFields): (r: Option<string>)
    ensures !Truthy(Json.GetOr(card, "type", VStr("basic"))) ==> r == Some("basic")
    ensures "type" in card && card["type"].VStr? && card["type"].s != "" ==> r == Some(Lower(card["type"].s))
    ensures Truthy(Json.GetOr(card, "type", VStr("basic"))) && !Json.GetOr(card, "type", VStr("basic")).VStr? ==> r.None?
  {
    var v := Json.GetOr(card, "type", VStr("basic"));
    if !Truthy(v) then Some("basic")
    else match v
      case VStr(s) => Some(Lower(s))
      case _ => None
  }

  function TextField(card: CardFields, key: string): string {
    AsText(Json.GetOr(card, key, VStr("")))
  }

  /** The fields of a cloze note: text (the answer), source, location, tags, difficulty, evidence. */
  function ClozeFields(card: CardFields): (r: seq<string>)
    ensures |r| == 6 && r[0] == TextField(card, "Answer") && r[5] == TextField(card, "Evidence")
    ensures r[3] == FormatTags(card) && r[4] == FormatDifficulty(card)
  {
    [TextField(card, "Answer"), TextField(card, "SourceDoc"), TextField(card, "SourceLoc"),
     FormatTags(card), FormatDifficulty(card), TextField(card, "Evidence")]
  }

  /** The fields of a basic note: question, answer, source, location, tags, difficulty, evidence. */
  function BasicFields(card: CardFields): (r: seq<string>)
    ensures |r| == 7 && r[0] == TextField(card, "Question") && r[1] == TextField(card, "Answer")
    ensures r[4] == FormatTags(card) && r[5] == FormatDifficulty(card) && r[6] == TextField(card, "Evidence")
  {
    [TextField(card, "Question"), TextField(card, "Answer"), TextField(card, "SourceDoc"),
     TextField(card, "SourceLoc"), FormatTags(card), FormatDifficulty(card), TextField(card, "Evidence")]
  }

  /**
   * The fields of the note `export_to_apkg` builds for a card: a cloze
   * note when the lowercased type is "cloze", a basic note otherwise;
   * None when the type is a non-empty list, on which `.lower()` raises.
   */
  function NoteFields(card: CardFields): (r: Option<seq<string>>)
    ensures r.None? <==> NoteType(card).None?
    ensures r.Some? && NoteType(card) == Some("cloze") ==> r.value == ClozeFields(card)
    ensures r.Some? && NoteType(card) != Some("cloze") ==> r.value == BasicFields(card)
    ensures "type" in card && card["type"].VList? && |card["type"].items| > 0 ==> r.None?
    ensures !("type" in card && card["type"].VList? && |card["type"].items| > 0) ==> r.Some?
  {
    match NoteType(card)
    case None => None
    case Some(t) => if t == "cloze" then Some(ClozeFields(card)) else Some(BasicFields(card))
  }

  /**
   * The notes of a deck, in card order: every card must export, since one
   * failing card aborts the whole export.
   */
  function ExportNotes(cards: seq<CardFields>): (r: Option<seq<seq<string>>>)
    ensures r.Some? <==> forall k :: 0 <= k < |cards| ==> NoteFields(cards[k]).Some?
    ensures r.Some? ==> |r.value| == |cards| && forall k :: 0 <= k < |cards| ==> r.value[k] == NoteFields(cards[k]).value
  {
    AllOrNothing(NoteFields, cards)
  }

  // ---------------------------------------------------------------- cards

  function OptValue(v: Option<string>): Value {
    match v
    case None => VNone
    case Some(s) => VStr(s)
  }

  /** The fields of a `Card` as the exporter reads them. */
  function CardValues(c: Card): CardFields {
    map[
      "type" := VStr(CardTypeName(c.kind)),
      "Question" := VStr(c.question),
      "Answer" := VStr(c.answer),
      "SourceDoc" := VStr(c.sourceDoc),
      "SourceLoc" := VStr(c.sourceLoc),
      "Tags" := VList(c.tags),
      "Difficulty" := OptValue(c.difficulty),
      "Evidence" := OptValue(c.evidence)
    ]
  }

  lemma CardValuesText(c: Card)
    ensures TextField(CardValues(c), "Question") == c.question
    ensures TextField(CardValues(c), "Answer") == c.answer
    ensures TextField(CardValues(c), "Evidence") == c.evidence.GetOr("")
  {
    var m := CardValues(c);
    assert m["Question"] == VStr(c.question);
    assert m["Answer"] == VStr(c.answer);
    assert m["Evidence"] == OptValue(c.evidence);
  }

  lemma CardValuesType(c: Card)
    ensures NoteType(CardValues(c)) == Some(CardTypeName(c.kind))
  {
    var m := CardValues(c);
    assert m["type"] == VStr(CardTypeName(c.kind));
    assert Lower("cloze") == "cloze";
    assert Lower("basic") == "basic";
  }

  /**
   * Every `Card` can be exported: a cloze card becomes a six-field note
   * starting with its answer, a basic card a seven-field note starting with
   * its question and answer; the evidence is the last field.
   */
  lemma CardNoteLayout(c: Card)
    ensures var r := NoteFields(CardValues(c));
      && r.Some?
      && (c.kind == Cloze ==> |r.value| == 6 && r.value[0] == c.answer)
      && (c.kind == Basic ==> |r.value| == 7 && r.value[0] == c.question && r.value[1] == c.answer)
      && r.value[|r.value| - 1] == c.evidence.GetOr("")
  {
    CardValuesText(c);
    CardValuesType(c);
  }
}

=== FILE: extract.dfy ===
/**
 * `extract_from_documents` (pipeline/nodes/extract.py): every document is
 * cut by `_chunk_text`, every chunk is sent to the chat model, and the
 * entries of the recovered `items` list are validated as `ExtractedItem`s
 * stamped with the document's name. Malformed replies and entries are
 * skipped, never raised.
 *
 * The chat model is the oracle `chat`, from the user prompt to the reply
 * (`""` when the call failed); `json.loads` and the fence regex are the
 * oracles `parse` and `fence` of `SafeJsonLoadsAny`.
 */
module Extract {
  import opened Wrappers
  import opened Text
  import opened Json
  import opened Schemas
  import opened JsonRecovery
  import opened Chunking
  import opened Seqs

  /** The default chunk size and overlap of `_chunk_text`. */
  const ExtractChunkSize: nat := 12000
  const ExtractOverlap: nat := 500

  const PromptKeywordsLabel := "关键词："
  const PromptInstruction := "\n请对下列原文做结构化抽取：\n"

  /** `_build_user_prompt(text, keywords)`: a header naming the keywords, then the chunk verbatim. */
  function UserPrompt(text: string, keywords: seq<string>): (r: string)
    ensures |r| >= |PromptKeywordsLabel| + |text|
    ensures r[|r| - |text|..] == text
    ensures r[..|PromptKeywordsLabel|] == PromptKeywordsLabel
  {
    PromptKeywordsLabel + Join(keywords, ", ") + PromptInstruction + text
  }

  /**
   * The handling of one entry of the `items` list: a dict gets its
   * `docName` overwritten with the document's name and is validated; any
   * other value, or a dict that fails validation, gives nothing.
   */
  function EntryItem(entry: Json, docName: string): (r: Option<ExtractedItem>)
    ensures r.Some? <==> entry.JObj? && ItemShape(entry.fields["docName" := JStr(docName)])
    ensures r.Some? ==> r.value.docName == Some(docName)
    ensures r.Some? ==> ItemStrFieldsHold(entry.fields["docName" := JStr(docName)], r.value)
  {
    match entry
    case JObj(m) => ItemFromJson(m["docName" := JStr(docName)])
    case _ => None
  }

  /** The item of one entry, as a list: empty when the entry is dropped. */
  function EntryPass(docName: string): Json -> seq<ExtractedItem> {
    entry => match EntryItem(entry, docName) case Some(it) => [it] case None => []
  }

  /** The items of a list of entries: each entry in turn, the invalid ones dropped. */
  function StampedItems(entries: seq<Json>, docName: string): (r: seq<ExtractedItem>)
    ensures |r| <= |entries|
    ensures forall it :: it in r ==> it.docName == Some(docName)
  {
    StampedItemsNamed(entries, docName);
    FlatMapLength(EntryPass(docName), entries);
    FlatMap(EntryPass(docName), entries)
  }

  lemma StampedItemsNamed(entries: seq<Json>, docName: string)
    ensures forall it :: it in FlatMap(EntryPass(docName), entries) ==> it.docName == Some(docName)
  {
    var f := EntryPass(docName);
    forall it: ExtractedItem | it in FlatMap(f, entries) ensures it.docName == Some(docName) {
      FlatMapMember(f, entries, it);
      var i :| 0 <= i < |entries| && it in f(entries[i]);
    }
  }

  /** `data.get("items") or data.get("Items") or []`. */
  function ItemsValue(m: map<string, Json>): Json {
    OrElse(GetOr(m, "items", JNull), OrElse(GetOr(m, "Items", JNull), JArr([])))
  }

  /**
   * The items recovered from one reply: nothing for a blank reply, a reply
   * whose recovered JSON is not an object, or an object whose items value
   * is not a list; otherwise the stamped entries of that list.
   */
  function ReplyItems(reply: string, docName: string, parse: string -> Option<Json>,
                      fence: string -> Option<string>): (r: seq<ExtractedItem>)
    ensures AllSpace(reply) ==> r == []
    ensures (match SafeJsonLoadsAny(reply, parse, fence) case Some(JObj(_)) => false case _ => true) ==> r == []
    ensures forall it :: it in r ==> it.docName == Some(docName)
  {
    if Strip(reply) == "" then []
    else
      match SafeJsonLoadsAny(reply, parse, fence)
      case Some(JObj(m)) =>
        (match ItemsValue(m)
         case JArr(entries) => StampedItems(entries, docName)
         case _ => [])
      case _ => []
  }

  /** One pass of the chunk loop: the chunk's prompt goes to the chat model, and the reply's items come back. */
  function ChunkPass(keywords: seq<string>, docName: string, chat: string -> string,
                     parse: string -> Option<Json>, fence: string -> Option<string>): string -> seq<ExtractedItem> {
    chunk => ReplyItems(chat(UserPrompt(chunk, keywords)), docName, parse, fence)
  }

  /** The items of the chunks of one document, in chunk order. */
  function ChunkItems(chunks: seq<string>, keywords: seq<string>, docName: string, chat: string -> string,
                      parse: string -> Option<Json>, fence: string -> Option<string>): (r: seq<ExtractedItem>)
    ensures forall it :: it in r ==> it.docName == Some(docName)
  {
    ChunkItemsNamed(chunks, keywords, docName, chat, parse, fence);
    FlatMap(ChunkPass(keywords, docName, chat, parse, fence), chunks)
  }

  lemma ChunkItemsNamed(chunks: seq<string>, keywords: seq<string>, docName: string, chat: string -> string,
                        parse: string -> Option<Json>, fence: string -> Option<string>)
    ensures forall it :: it in FlatMap(ChunkPass(keywords, docName, chat, parse, fence), chunks) ==> it.docName == Some(docName)
  {
    var f := ChunkPass(keywords, docName, chat, parse, fence);
    forall it: ExtractedItem | it in FlatMap(f, chunks) ensures it.docName == Some(docName) {
      FlatMapMember(f, chunks, it);
      var i :| 0 <= i < |chunks| && it in f(chunks[i]);
      assert f(chunks[i]) == ReplyItems(chat(UserPrompt(chunks[i], keywords)), docName, parse, fence);
    }
  }

  /** The items of one document: its `_chunk_text` chunks, each sent once. */
  function DocumentItems(doc: Document, keywords: seq<string>, chat: string -> string,
                         parse: string -> Option<Json>, fence: string -> Option<string>): (r: seq<ExtractedItem>)
    ensures forall it :: it in r ==> it.docName == Some(doc.name)
  {
    ChunkItems(ChunkText(doc.text, ExtractChunkSize, ExtractOverlap), keywords, doc.name, chat, parse, fence)
  }

  /** `extract_from_documents(documents, keywords, client, model)`. */
  function ExtractFromDocuments(docs: seq<Document>, keywords: seq<string>, chat: string -> string,
                                parse: string -> Option<Json>, fence: string -> Option<string>): seq<ExtractedItem>
    decreases |docs|
  {
    if |docs| == 0 then []
    else DocumentItems(docs[0], keywords, chat, parse, fence)
         + ExtractFromDocuments(docs[1..], keywords, chat, parse, fence)
  }

  // ---------------------------------------------------------------- properties

  /** The `docName` an entry brings is irrelevant: it is overwritten before validation. */
  lemma SuppliedDocNameIgnored(m: map<string, Json>, supplied: Json, docName: string)
    ensures EntryItem(JObj(m["docName" := supplied]), docName) == EntryItem(JObj(m), docName)
  {
    assert m["docName" := supplied]["docName" := JStr(docName)] == m["docName" := JStr(docName)];
  }

  /** Entries are handled independently: the items of `a + b` are those of `a`, then those of `b`. */
  lemma StampedItemsAppend(a: seq<Json>, b: seq<Json>, docName: string)
    ensures StampedItems(a + b, docName) == StampedItems(a, docName) + StampedItems(b, docName)
  {
    FlatMapAppend(EntryPass(docName), a, b);
  }

  lemma StampedSingle(e: Json, docName: string)
    ensures StampedItems([e], docName) == (match EntryItem(e, docName) case Some(it) => [it] case None => [])
  {
    FlatMapSingle(EntryPass(docName), e);
  }

  /** An entry that fails (not a dict, or invalid) is dropped without losing its siblings. */
  lemma DroppedEntryKeepsSiblings(a: seq<Json>, bad: Json, b: seq<Json>, docName: string)
    requires EntryItem(bad, docName).None?
    ensures StampedItems(a + [bad] + b, docName) == StampedItems(a, docName) + StampedItems(b, docName)
  {
    StampedItemsAppend(a + [bad], b, docName);
    StampedItemsAppend(a, [bad], docName);
    StampedSingle(bad, docName);
  }

  /** A valid entry contributes exactly its own item, in place. */
  lemma ValidEntryKept(a: seq<Json>, good: Json, b: seq<Json>, docName: string)
    requires EntryItem(good, docName).Some?
    ensures StampedItems(a + [good] + b, docName)
         == StampedItems(a, docName) + [EntryItem(good, docName).value] + StampedItems(b, docName)
  {
    StampedItemsAppend(a + [good], b, docName);
    StampedItemsAppend(a, [good], docName);
    StampedSingle(good, docName);
  }

  /** Chunk order: the items of `a + b` are those of the chunks `a`, then those of `b`. */
  lemma ChunkItemsAppend(a: seq<string>, b: seq<string>, keywords: seq<string>, docName: string,
                                            chat: string -> string, parse: string -> Option<Json>,
                                            fence: string -> Option<string>)
    ensures ChunkItems(a + b, keywords, docName, chat, parse, fence)
         == ChunkItems(a, keywords, docName, chat, parse, fence) + ChunkItems(b, keywords, docName, chat, parse, fence)
  {
    FlatMapAppend(ChunkPass(keywords, docName, chat, parse, fence), a, b);
  }

  /** Document order: the items of `a + b` are those of the documents `a`, then those of `b`. */
  lemma {:induction false} ExtractAppend(a: seq<Document>, b: seq<Document>, keywords: seq<string>,
                                         chat: string -> string, parse: string -> Option<Json>,
                                         fence: string -> Option<string>)
    ensures ExtractFromDocuments(a + b, keywords, chat, parse, fence)
         == ExtractFromDocuments(a, keywords, chat, parse, fence) + ExtractFromDocuments(b, keywords, chat, parse, fence)
    decreases |a|
  {
    if |a| > 0 {
      assert (a + b)[1..] == a[1..] + b;
      ExtractAppend(a[1..], b, keywords, chat, parse, fence);
    } else {
      assert a + b == b;
    }
  }

  /** Every extracted item names the document it was extracted from. */
  lemma {:induction false} ExtractedDocNames(docs: seq<Document>, keywords: seq<string>, chat: string -> string,
                                             parse: string -> Option<Json>, fence: string -> Option<string>)
    ensures forall it :: it in ExtractFromDocuments(docs, keywords, chat, parse, fence) ==>
      exists i :: 0 <= i < |docs| && it.docName == Some(docs[i].name)
    decreases |docs|
  {
    if |docs| > 0 {
      var here := DocumentItems(docs[0], keywords, chat, parse, fence);
      var rest := ExtractFromDocuments(docs[1..], keywords, chat, parse, fence);
      ExtractedDocNames(docs[1..], keywords, chat, parse, fence);
      forall it: ExtractedItem | it in here + rest ensures exists i :: 0 <= i < |docs| && it.docName == Some(docs[i].name) {
        if it in here {
          assert it.docName == Some(docs[0].name);
        } else {
          var i :| 0 <= i < |docs[1..]| && it.docName == Some(docs[1..][i].name);
          assert docs[1..][i] == docs[i + 1];
        }
      }
    }
  }

  /**
   * A reply whose JSON object has an `items` list validates exactly its
   * entries; an empty or missing `items` falls back to `Items`.
   */
  lemma ReplyItemsOfList(reply: string, docName: string, parse: string -> Option<Json>,
                         fence: string -> Option<string>, m: map<string, Json>)
    requires !AllSpace(reply) && SafeJsonLoadsAny(reply, parse, fence) == Some(JObj(m))
    ensures "items" in m && m["items"].JArr? && |m["items"].elems| > 0 ==>
      ReplyItems(reply, docName, parse, fence) == StampedItems(m["items"].elems, docName)
    ensures ("items" !in m || !Truthy(m["items"])) && "Items" in m && m["Items"].JArr? ==>
      ReplyItems(reply, docName, parse, fence) == StampedItems(m["Items"].elems, docName)
    ensures "items" in m && Truthy(m["items"]) && !m["items"].JArr? ==> ReplyItems(reply, docName, parse, fence) == []
    ensures ("items" !in m || !Truthy(m["items"])) && ("Items" !in m || !Truthy(m["Items"])) ==>
      ReplyItems(reply, docName, parse, fence) == []
    ensures ("items" !in m || !Truthy(m["items"])) && "Items" in m && Truthy(m["Items"]) && !m["Items"].JArr? ==>
      ReplyItems(reply, docName, parse, fence) == []
  {
    assert Strip(reply) != "";
    assert ReplyItems(reply, docName, parse, fence)
        == (match ItemsValue(m) case JArr(entries) => StampedItems(entries, docName) case _ => []);
  }
}

=== FILE: generate_cards.dfy ===
/**
 * `generate_cards` (pipeline/nodes/generate_cards.py): every extracted item
 * is sent to the chat model, the `cards` list of the recovered JSON is read
 * and every entry with a non-blank question and answer becomes a `Card`
 * carrying the item's provenance, tags and evidence.
 *
 * The chat model is the oracle `chat` from a `CardRequest` to the reply
 * (`""` when the call failed). The request is abstract: the JSON payload
 * `_build_card_prompt` serialises is not modelled, only what it is built
 * from. `float(s)` on a string is the oracle `parseFloat` (None when it
 * raises).
 */
module GenerateCards {
  import opened Wrappers
  import opened Text
  import opened Json
  import opened Schemas
  import opened JsonRecovery
  import opened Seqs

  /** What one chat call is built from: the item and the requested maximum number of cards. */
  datatype CardRequest = CardRequest(item: ExtractedItem, maxCards: int)

  /** The oracles one run of `generate_cards` depends on. */
  datatype Oracles = Oracles(
    chat: CardRequest -> string,
    parse: string -> Option<Json>,
    fence: string -> Option<string>,
    parseFloat: string -> Option<real>)

  // ---------------------------------------------------------------- scores

  /**
   * `_to_float(value)`: numbers as they are (booleans as 1 and 0), strings
   * through `float(value.strip())`, and 0 for anything else or when the
   * conversion raises.
   */
  function ToFloat(v: Json, parseFloat: string -> Option<real>): (r: real)
    ensures v.JNum? ==> r == v.n
    ensures v.JBool? ==> r == (if v.b then 1.0 else 0.0)
    ensures v.JStr? && parseFloat(Strip(v.s)).Some? ==> r == parseFloat(Strip(v.s)).value
    ensures v.JStr? && parseFloat(Strip(v.s)).None? ==> r == 0.0
    ensures v.JNull? || v.JArr? || v.JObj? ==> r == 0.0
  {
    match v
    case JBool(b) => if b then 1.0 else 0.0
    case JNum(n) => n
    case JStr(s) => parseFloat(Strip(s)).GetOr(0.0)
    case _ => 0.0
  }

  function Min(a: real, b: real): real {
    if a <= b then a else b
  }

  function Max(a: real, b: real): real {
    if a >= b then a else b
  }

  /** The evidence bonus: 0.1 when the evidence has at least 20 characters. */
  function EvidenceBonus(evidence: string): real {
    if evidence != "" && |evidence| >= 20 then 0.1 else 0.0
  }

  /**
   * `_heuristic_quality(question, answer, evidence)` over exact reals:
   * 0 without a question or an answer, otherwise 0.55, plus up to 0.35 for
   * an answer of up to 80 characters, plus the evidence bonus, clamped to
   * `[0, 1]`.
   */
  function HeuristicQuality(question: string, answer: string, evidence: string): (r: real)
    ensures question == "" || answer == "" ==> r == 0.0
    ensures 0.0 <= r <= 1.0
    ensures question != "" && answer != "" ==> r >= 0.55
  {
    if question == "" || answer == "" then 0.0
    else
      var cov := Min(|answer| as real / 80.0, 1.0);
      Max(0.0, Min(1.0, 0.55 + 0.35 * cov + EvidenceBonus(evidence)))
  }

  /** The clamp never cuts: for a question and an answer the score is the unclamped sum. */
  lemma HeuristicUnclamped(question: string, answer: string, evidence: string)
    requires question != "" && answer != ""
    ensures HeuristicQuality(question, answer, evidence)
         == 0.55 + 0.35 * (if |answer| >= 80 then 1.0 else |answer| as real / 80.0) + EvidenceBonus(evidence)
  {
  }

  /** A longer answer never scores lower. */
  lemma HeuristicMonotone(question: string, a1: string, a2: string, evidence: string)
    requires |a1| <= |a2|
    ensures HeuristicQuality(question, a1, evidence) <= HeuristicQuality(question, a2, evidence)
  {
  }

  /** An 80-character answer without evidence scores 0.90; with 20 characters of evidence, 1. */
  lemma HeuristicExamples(question: string, answer: string, evidence: string)
    requires question != "" && |answer| == 80
    ensures HeuristicQuality(question, answer, "") == 0.9
    ensures |evidence| >= 20 ==> HeuristicQuality(question, answer, evidence) == 1.0
  {
  }

  // ---------------------------------------------------------------- one card

  /** `(v or "").strip()` on a string field; None when `strip` would raise (a truthy non-string). */
  function StrippedField(v: Json): (r: Option<string>)
    ensures r.Some? ==> IsStripped(r.value)
    ensures v.JStr? ==> r == Some(Strip(v.s))
    ensures !Truthy(v) ==> r == Some("")
    ensures Truthy(v) && !v.JStr? ==> r.None?
  {
    if !Truthy(v) then Some("")
    else match v
      case JStr(s) => Some(Strip(s))
      case _ => None
  }

  /** `rc.get("Difficulty", "") or ""`, as `Optional[str]` validates it. */
  function DifficultyField(rc: map<string, Json>): (r: Option<string>)
    ensures !Truthy(GetOr(rc, "Difficulty", JNull)) ==> r == Some("")
    ensures "Difficulty" in rc && rc["Difficulty"].JStr? ==> r == Some(rc["Difficulty"].s)
    ensures "Difficulty" in rc && Truthy(rc["Difficulty"]) && !rc["Difficulty"].JStr? ==> r.None?
  {
    var v := GetOr(rc, "Difficulty", JStr(""));
    if !Truthy(v) then Some("")
    else match v
      case JStr(s) => Some(s)
      case _ => None
  }

  /** `rc.get("type", "basic")`, as `Literal["basic", "cloze"]` validates it. */
  function TypeField(rc: map<string, Json>): (r: Option<CardType>)
    ensures "type" !in rc ==> r == Some(Basic)
    ensures r.Some? && "type" in rc ==> rc["type"] == JStr(CardTypeName(r.value))
    ensures "type" in rc && rc["type"] != JStr("basic") && rc["type"] != JStr("cloze") ==> r.None?
  {
    if "type" !in rc then Some(Basic)
    else match rc["type"]
      case JStr(s) => CardTypeFromName(s)
      case _ => None
  }

  /** `a or b`: the first non-empty string. */
  function OrStr(a: Option<string>, b: string): (r: string)
    ensures a.Some? && a.value != "" ==> r == a.value
    ensures (a.None? || a.value == "") ==> r == b
  {
    match a
    case Some(s) => if s != "" then s else b
    case None => b
  }

  /** `it.articleNo or it.section or it.docketNo or ""`. */
  function SourceLoc(it: ExtractedItem): (r: string)
    ensures it.articleNo.GetOr("") != "" ==> r == it.articleNo.value
    ensures it.articleNo.GetOr("") == "" && it.section.GetOr("") != "" ==> r == it.section.value
    ensures it.articleNo.GetOr("") == "" && it.section.GetOr("") == "" ==> r == it.docketNo.GetOr("")
    ensures r == "" <==> it.articleNo.GetOr("") == "" && it.section.GetOr("") == "" && it.docketNo.GetOr("") == ""
  {
    OrStr(it.articleNo, OrStr(it.section, OrStr(it.docketNo, "")))
  }

  /** `"kw:" + k` for every keyword hit, in order. */
  function KeywordTags(ks: seq<string>): (r: seq<string>)
    ensures |r| == |ks|
    ensures forall j :: 0 <= j < |ks| ==> r[j] == "kw:" + ks[j]
  {
    if |ks| == 0 then [] else ["kw:" + ks[0]] + KeywordTags(ks[1..])
  }

  /** `[it.type.lower()]`, extended with the keyword tags when the item has keyword hits. */
  function ItemTags(it: ExtractedItem): (r: seq<string>)
    ensures |r| >= 1 && r[0] == Lower(ItemTypeName(it.kind))
    ensures r[1..] == KeywordTags(it.keywordsHit.GetOr([]))
  {
    [Lower(ItemTypeName(it.kind))] + KeywordTags(it.keywordsHit.GetOr([]))
  }

  /** The stripped evidence `(it.text or "").strip()`. */
  function ItemEvidence(it: ExtractedItem): string {
    Strip(it.text.GetOr(""))
  }

  /** The quality a raw card ends up with: the model's value when positive, else the heuristic. */
  function CardQuality(rc: map<string, Json>, q: string, a: string, evidence: string,
                       parseFloat: string -> Option<real>): (r: real)
    ensures ToFloat(GetOr(rc, "quality", JNull), parseFloat) > 0.0 ==> r == ToFloat(GetOr(rc, "quality", JNull), parseFloat)
    ensures ToFloat(GetOr(rc, "quality", JNull), parseFloat) <= 0.0 ==> r == HeuristicQuality(q, a, evidence)
  {
    var qual := ToFloat(GetOr(rc, "quality", JNull), parseFloat);
    if qual <= 0.0 then HeuristicQuality(q, a, evidence) else qual
  }

  /** What every card built from the item `it` satisfies. */
  predicate CardOfItem(c: Card, it: ExtractedItem) {
    && c.question != "" && IsStripped(c.question)
    && c.answer != "" && IsStripped(c.answer)
    && c.sourceDoc == it.docName.GetOr("")
    && c.sourceLoc == SourceLoc(it)
    && c.tags == ItemTags(it)
    && c.evidence == Some(ItemEvidence(it))
    && c.difficulty.Some?
  }

  /**
   * One entry of the `cards` list: kept when it is a dict whose Question and
   * Answer are non-blank strings, whose type is basic or cloze (or absent)
   * and whose Difficulty is a string or falsy.
   */
  function CardFromRaw(rc: Json, it: ExtractedItem, parseFloat: string -> Option<real>): (r: Option<Card>)
    ensures r.Some? <==>
      && rc.JObj?
      && StrippedField(GetOr(rc.fields, "Question", JNull)) != Some("")
      && StrippedField(GetOr(rc.fields, "Question", JNull)).Some?
      && StrippedField(GetOr(rc.fields, "Answer", JNull)) != Some("")
      && StrippedField(GetOr(rc.fields, "Answer", JNull)).Some?
      && TypeField(rc.fields).Some? && DifficultyField(rc.fields).Some?
    ensures r.Some? ==> CardOfItem(r.value, it)
    ensures r.Some? ==> TypeField(rc.fields) == Some(r.value.kind) && DifficultyField(rc.fields) == r.value.difficulty
    ensures r.Some? ==> Some(r.value.question) == StrippedField(GetOr(rc.fields, "Question", JNull))
    ensures r.Some? ==> Some(r.value.answer) == StrippedField(GetOr(rc.fields, "Answer", JNull))
    ensures r.Some? ==> r.value.quality == CardQuality(rc.fields, r.value.question, r.value.answer, ItemEvidence(it), parseFloat)
  {
    match rc
    case JObj(m) =>
      (match (StrippedField(GetOr(m, "Question", JNull)), StrippedField(GetOr(m, "Answer", JNull)),
              TypeField(m), DifficultyField(m))
       case (Some(q), Some(a), Some(kind), Some(diff)) =>
         if q == "" || a == "" then None
         else
           var evidence := ItemEvidence(it);
           Some(Card(kind, q, a, it.docName.GetOr(""), SourceLoc(it), ItemTags(it), Some(diff), Some(evidence),
                     CardQuality(m, q, a, evidence, parseFloat)))
       case _ => None)
    case _ => None
  }

  // ---------------------------------------------------------------- the loop

  /** The card of one raw entry, as a list: empty when the entry is rejected. */
  function CardPass(it: ExtractedItem, parseFloat: string -> Option<real>): Json -> seq<Card> {
    rc => match CardFromRaw(rc, it, parseFloat) case Some(c) => [c] case None => []
  }

  /** The cards of a list of raw entries, the rejected ones skipped. */
  function RawCards(entries: seq<Json>, it: ExtractedItem, parseFloat: string -> Option<real>): (r: seq<Card>)
    ensures |r| <= |entries|
    ensures forall c :: c in r ==> CardOfItem(c, it)
  {
    RawCardsOfItem(entries, it, parseFloat);
    FlatMapLength(CardPass(it, parseFloat), entries);
    FlatMap(CardPass(it, parseFloat), entries)
  }

  lemma RawCardsOfItem(entries: seq<Json>, it: ExtractedItem, parseFloat: string -> Option<real>)
    ensures forall c :: c in FlatMap(CardPass(it, parseFloat), entries) ==> CardOfItem(c, it)
  {
    var f := CardPass(it, parseFloat);
    forall c: Card | c in FlatMap(f, entries) ensures CardOfItem(c, it) {
      FlatMapMember(f, entries, c);
      var i :| 0 <= i < |entries| && c in f(entries[i]);
    }
  }

  /** The cards of one reply: nothing unless it recovers to an object whose `cards` is a list. */
  function ReplyCards(reply: string, it: ExtractedItem, o: Oracles): (r: seq<Card>)
    ensures AllSpace(reply) ==> r == []
    ensures (match SafeJsonLoadsAny(reply, o.parse, o.fence) case Some(JObj(_)) => false case _ => true) ==> r == []
    ensures forall c :: c in r ==> CardOfItem(c, it)
  {
    if Strip(reply) == "" then []
    else
      match SafeJsonLoadsAny(reply, o.parse, o.fence)
      case Some(JObj(m)) =>
        (match OrElse(GetOr(m, "cards", JNull), JArr([]))
         case JArr(entries) => RawCards(entries, it, o.parseFloat)
         case _ => [])
      case _ => []
  }

  /**
   * The partner of `ReplyCards` on replies that recover to an object: a
   * list under `cards` gives its entries' cards, a missing or falsy `cards`
   * gives none, and a truthy `cards` that is not a list gives none.
   */
  lemma ReplyCardsOfList(reply: string, it: ExtractedItem, o: Oracles, m: map<string, Json>)
    requires !AllSpace(reply) && SafeJsonLoadsAny(reply, o.parse, o.fence) == Some(JObj(m))
    ensures "cards" in m && m["cards"].JArr? ==> ReplyCards(reply, it, o) == RawCards(m["cards"].elems, it, o.parseFloat)
    ensures ("cards" !in m || !Truthy(m["cards"])) ==> ReplyCards(reply, it, o) == []
    ensures "cards" in m && Truthy(m["cards"]) && !m["cards"].JArr? ==> ReplyCards(reply, it, o) == []
  {
    assert Strip(reply) != "";
    assert ReplyCards(reply, it, o)
        == (match OrElse(GetOr(m, "cards", JNull), JArr([]))
            case JArr(entries) => RawCards(entries, it, o.parseFloat)
            case _ => []);
  }

  /** `generate_cards(items, client, model, max_cards_per_item)`. */
  function GenerateCards(items: seq<ExtractedItem>, maxCards: int, o: Oracles): seq<Card>
    decreases |items|
  {
    if |items| == 0 then []
    else ReplyCards(o.chat(CardRequest(items[0], maxCards)), items[0], o) + GenerateCards(items[1..], maxCards, o)
  }

  // ---------------------------------------------------------------- properties

  /** Items are handled one after another: the cards of `a + b` are those of `a`, then those of `b`. */
  lemma {:induction false} GenerateCardsAppend(a: seq<ExtractedItem>, b: seq<ExtractedItem>, maxCards: int, o: Oracles)
    ensures GenerateCards(a + b, maxCards, o) == GenerateCards(a, maxCards, o) + GenerateCards(b, maxCards, o)
    decreases |a|
  {
    if |a| > 0 {
      assert (a + b)[1..] == a[1..] + b;
      GenerateCardsAppend(a[1..], b, maxCards, o);
    } else {
      assert a + b == b;
    }
  }

  /** Every generated card is built from one of the items and carries its provenance and tags. */
  lemma {:induction false} GeneratedCardsOfItems(items: seq<ExtractedItem>, maxCards: int, o: Oracles)
    ensures forall c :: c in GenerateCards(items, maxCards, o) ==> exists i :: 0 <= i < |items| && CardOfItem(c, items[i])
    decreases |items|
  {
    if |items| > 0 {
      var here := ReplyCards(o.chat(CardRequest(items[0], maxCards)), items[0], o);
      var rest := GenerateCards(items[1..], maxCards, o);
      GeneratedCardsOfItems(items[1..], maxCards, o);
      forall c: Card | c in here + rest ensures exists i :: 0 <= i < |items| && CardOfItem(c, items[i]) {
        if c in here {
          assert CardOfItem(c, items[0]);
        } else {
          var i :| 0 <= i < |items[1..]| && CardOfItem(c, items[1..][i]);
          assert items[1..][i] == items[i + 1];
        }
      }
    }
  }

  /** Raw entries are handled independently: a rejected entry never costs its siblings. */
  lemma RawCardsAppend(a: seq<Json>, b: seq<Json>, it: ExtractedItem, parseFloat: string -> Option<real>)
    ensures RawCards(a + b, it, parseFloat) == RawCards(a, it, parseFloat) + RawCards(b, it, parseFloat)
  {
    FlatMapAppend(CardPass(it, parseFloat), a, b);
  }

  /**
   * `max_cards_per_item` only reaches the request: when every entry of the
   * reply's `cards` list is a valid card, all of them are kept, however
   * many there are.
   */
  lemma MaxCardsNotEnforced(entries: seq<Json>, it: ExtractedItem, parseFloat: string -> Option<real>)
    requires forall k :: 0 <= k < |entries| ==> CardFromRaw(entries[k], it, parseFloat).Some?
    ensures |RawCards(entries, it, parseFloat)| == |entries|
  {
    var f := CardPass(it, parseFloat);
    assert forall k :: 0 <= k < |entries| ==> |f(entries[k])| == 1;
    FlatMapLength(f, entries);
  }

  /** A positive model-supplied quality is taken as it is, even above 1. */
  lemma ModelQualityNotClamped(rc: map<string, Json>, q: string, a: string, evidence: string,
                               parseFloat: string -> Option<real>, v: real)
    requires "quality" in rc && rc["quality"] == JNum(v) && v > 1.0
    ensures CardQuality(rc, q, a, evidence, parseFloat) == v
  {
  }

  /** On the heuristic path (no usable model quality) a card's quality lies in `[0.55, 1]`. */
  lemma HeuristicPathBounded(rc: Json, it: ExtractedItem, parseFloat: string -> Option<real>)
    requires rc.JObj? && ToFloat(GetOr(rc.fields, "quality", JNull), parseFloat) <= 0.0
    requires CardFromRaw(rc, it, parseFloat).Some?
    ensures 0.55 <= CardFromRaw(rc, it, parseFloat).value.quality <= 1.0
  {
  }
}

=== FILE: induction.dfy ===
/**
 * The semantic-extraction path of pipeline/nodes/induction.py:
 * `extract_with_semantic_understanding` sends a short text to the model in
 * one call and cuts a long one into overlapping, sentence-aware segments
 * (`_process_large_document`); each call (`_process_semantic_segment`)
 * sees at most 15000 characters and turns the reply's `items` into
 * `ExtractedItem`s, all or nothing.
 *
 * The model call is the oracle `gen`, from the request to the reply, or
 * `None` when the call raised; `json.loads` is the oracle `parse`.
 *
 * The segmenter as written never stops at the end of the text (see
 * `SegmentsAsWritten`); the dispatcher follows that loop as written, and
 * `ProcessLargeDocumentCorrected` is the variant over the corrected
 * `SegmentsCorrected`.
 */
module Induction {
  import opened Wrappers
  import opened Text
  import opened Json
  import opened Schemas
  import opened Seqs

  /** Texts up to this length take the single-call path; one call sees at most this many characters. */
  const SingleSegmentLimit: nat := 15000
  /** Texts up to this length use the smaller segment size. */
  const MediumDocumentLimit: nat := 50000
  /** The cap on the number of segments processed. */
  const MaxSegments: nat := 10
  /** The `docName` of every semantically extracted item. */
  const SemanticDocName := "语义抽取结果"

  // ---------------------------------------------------------------- segmentation

  datatype Segment = Segment(start: nat, end: nat)

  datatype SegmentParams = SegmentParams(size: nat, overlap: nat)

  /** Sizes under which every step moves forward: a cut keeps more than 80% of a segment, more than the overlap. */
  predicate ValidParams(p: SegmentParams) {
    0 < p.overlap && 5 * p.overlap < 4 * p.size
  }

  /** The segment size and overlap chosen from the text length. */
  function ParamsFor(n: nat): SegmentParams {
    if n <= MediumDocumentLimit then SegmentParams(15000, 1000) else SegmentParams(20000, 1500)
  }

  lemma ParamsForValid(n: nat)
    ensures ValidParams(ParamsFor(n)) && ParamsFor(n).size >= SingleSegmentLimit
    ensures n <= MediumDocumentLimit <==> ParamsFor(n).size == 15000
    ensures ParamsFor(n).overlap == if n <= MediumDocumentLimit then 1000 else 1500
  {
  }

  /**
   * `text[lo:hi].rfind('。')`, as a position of `text`: the last '。' in
   * `[lo, hi)`, if any.
   */
  function LastMark(text: string, lo: nat, hi: nat): (r: Option<nat>)
    requires lo <= hi <= |text|
    ensures r.Some? ==> lo <= r.value < hi && text[r.value] == '。'
    decreases hi - lo
  {
    if hi == lo then None
    else if text[hi - 1] == '。' then Some(hi - 1)
    else LastMark(text, lo, hi - 1)
  }

  /** The mark found is the last one: none follows it, and none is found only when there is none. */
  lemma {:induction false} LastMarkSpec(text: string, lo: nat, hi: nat)
    requires lo <= hi <= |text|
    ensures LastMark(text, lo, hi).Some? ==> forall q :: LastMark(text, lo, hi).value < q < hi ==> text[q] != '。'
    ensures LastMark(text, lo, hi).None? ==> forall q :: lo <= q < hi ==> text[q] != '。'
    decreases hi - lo
  {
    if hi > lo && text[hi - 1] != '。' {
      LastMarkSpec(text, lo, hi - 1);
    }
  }

  /**
   * The end of a full window `[start, start + size)` whose last '。' is at
   * `m`: just after the mark when it lies beyond 80% of the window.
   */
  function CutAfterMark(m: Option<nat>, start: nat, size: nat): (end: nat)
    requires size > 0 && (m.Some? ==> start <= m.value < start + size)
    ensures start < end <= start + size
    ensures end == start + size || (m == Some(end - 1) && 5 * (end - 1 - start) > 4 * size)
  {
    match m
    case Some(q) => if 5 * (q - start) > 4 * size then q + 1 else start + size
    case None => start + size
  }

  /**
   * The end of the segment starting at `start`: `start + size` clipped to
   * the text; a segment that does not reach the end is cut just after its
   * last '。' when that mark lies beyond 80% of the segment.
   */
  function CutEnd(text: string, start: nat, size: nat): (end: nat)
    requires start < |text| && size > 0
    ensures start < end <= |text| && end - start <= size
    ensures end == |text| <==> start + size >= |text|
    ensures end == start + size || end == |text| || 5 * (end - 1 - start) > 4 * size
  {
    if start + size >= |text| then |text|
    else CutAfterMark(LastMark(text, start, start + size), start, size)
  }

  /**
   * A cut segment ends after the last '。' of its window, and a segment
   * that is not cut has no '。' beyond 80% except possibly as its last
   * character.
   */
  lemma CutEndSpec(text: string, start: nat, size: nat)
    requires start < |text| && size > 0 && start + size < |text|
    ensures var end := CutEnd(text, start, size);
      && (end < start + size ==> text[end - 1] == '。' && forall q :: end <= q < start + size ==> text[q] != '。')
      && (end == start + size && text[start + size - 1] != '。' ==>
            forall q :: start <= q < start + size && text[q] == '。' ==> 5 * (q - start) <= 4 * size)
  {
    LastMarkSpec(text, start, start + size);
  }

  /**
   * The segments of `_process_large_document` AS WRITTEN, from segment
   * `idx` at `start`. The loop only stops at the tenth segment: when a
   * segment reaches the end of the text the next one starts `overlap`
   * before it and reaches the end again, so there are always ten.
   */
  function SegmentsAsWritten(text: string, p: SegmentParams, start: nat, idx: nat): (r: seq<Segment>)
    requires ValidParams(p) && p.overlap < |text| && start < |text| && idx < MaxSegments
    ensures |r| == MaxSegments - idx
    ensures r[0] == Segment(start, CutEnd(text, start, p.size))
    decreases MaxSegments - idx
  {
    var end := CutEnd(text, start, p.size);
    var next := NextStart(text, p, start);
    if idx + 1 >= MaxSegments || next >= |text| then [Segment(start, end)]
    else [Segment(start, end)] + SegmentsAsWritten(text, p, next, idx + 1)
  }

  /** Once a segment reaches the end of the text, every later one is the tail `(n - overlap, n)`. */
  lemma {:induction false} TailRepeats(text: string, p: SegmentParams, start: nat, idx: nat)
    requires ValidParams(p) && p.overlap < |text| && start < |text| && idx < MaxSegments
    requires CutEnd(text, start, p.size) == |text|
    ensures forall k :: 1 <= k < |SegmentsAsWritten(text, p, start, idx)| ==>
      SegmentsAsWritten(text, p, start, idx)[k] == Segment(|text| - p.overlap, |text|)
    decreases MaxSegments - idx
  {
    var n := |text|;
    if idx + 1 < MaxSegments {
      var rest := SegmentsAsWritten(text, p, n - p.overlap, idx + 1);
      assert CutEnd(text, n - p.overlap, p.size) == n;
      TailRepeats(text, p, n - p.overlap, idx + 1);
      var r := [Segment(start, n)] + rest;
      assert SegmentsAsWritten(text, p, start, idx) == r;
      assert rest[0] == Segment(n - p.overlap, n);
      assert forall k :: 1 <= k < |rest| ==> rest[k] == Segment(n - p.overlap, n);
      assert forall k :: 1 <= k < |r| ==> r[k] == rest[k - 1];
    }
  }

  /**
   * The discrepancy on a concrete shape of input: a text of 15001 to 29000
   * characters without '。' is covered by two segments, yet the segmenter
   * as written sends the 1000-character tail eight more times.
   */
  lemma AsWrittenResendsTail(text: string)
    requires SingleSegmentLimit < |text| <= 29000 && '。' !in text
    ensures var r := SegmentsAsWritten(text, ParamsFor(|text|), 0, 0);
      && |r| == MaxSegments
      && r[0] == Segment(0, 15000) && r[1] == Segment(14000, |text|)
      && forall k :: 2 <= k < |r| ==> r[k] == Segment(|text| - 1000, |text|)
  {
    var p := ParamsFor(|text|);
    assert p == SegmentParams(15000, 1000);
    assert '。' !in text[0..15000];
    assert CutEnd(text, 0, 15000) == 15000;
    var rest := SegmentsAsWritten(text, p, 14000, 1);
    assert SegmentsAsWritten(text, p, 0, 0) == [Segment(0, 15000)] + rest;
    TailRepeats(text, p, 14000, 1);
  }

  /** Well-formed segments: non-empty slices of the text, no longer than the segment size. */
  predicate SegmentsInText(text: string, size: nat, r: seq<Segment>)
    decreases |r|
  {
    |r| == 0 || (r[0].start < r[0].end <= |text| && r[0].end - r[0].start <= size && SegmentsInText(text, size, r[1..]))
  }

  lemma {:induction false} InTextBounds(text: string, size: nat, r: seq<Segment>)
    requires SegmentsInText(text, size, r)
    ensures forall k :: 0 <= k < |r| ==> r[k].start < r[k].end <= |text| && r[k].end - r[k].start <= size
    decreases |r|
  {
    if |r| > 0 {
      InTextBounds(text, size, r[1..]);
      assert forall k :: 1 <= k < |r| ==> r[k] == r[1..][k - 1];
    }
  }

  /** The segments as written are non-empty slices of the text no longer than the segment size. */
  lemma {:induction false} AsWrittenInText(text: string, p: SegmentParams, start: nat, idx: nat)
    requires ValidParams(p) && p.overlap < |text| && start < |text| && idx < MaxSegments
    ensures SegmentsInText(text, p.size, SegmentsAsWritten(text, p, start, idx))
    decreases MaxSegments - idx
  {
    var end := CutEnd(text, start, p.size);
    if idx + 1 < MaxSegments {
      var next := NextStart(text, p, start);
      var rest := SegmentsAsWritten(text, p, next, idx + 1);
      AsWrittenInText(text, p, next, idx + 1);
      assert start < end <= |text| && end - start <= p.size;
      var r := [Segment(start, end)] + rest;
      assert SegmentsAsWritten(text, p, start, idx) == r;
      assert r[1..] == rest;
    }
  }

  /** Each segment starts `overlap` before the previous end, and only the last may reach the end of the text. */
  predicate Chained(text: string, overlap: nat, r: seq<Segment>)
    decreases |r|
  {
    |r| <= 1 || (r[0].end < |text| && r[1].start + overlap == r[0].end && Chained(text, overlap, r[1..]))
  }

  /**
   * Where the segment after the one at `start` begins: `overlap` before
   * its end, and at least `Step(p)` further on when that end is not the
   * end of the text.
   */
  function NextStart(text: string, p: SegmentParams, start: nat): (next: nat)
    requires ValidParams(p) && p.overlap < |text| && start < |text|
    ensures next < |text| && next + p.overlap == CutEnd(text, start, p.size)
    ensures CutEnd(text, start, p.size) < |text| ==> start + Step(p) <= next
  {
    CutEnd(text, start, p.size) - p.overlap
  }

  /**
   * The corrected segmenter: as written, but stopping after the segment
   * that reaches the end of the text. At most ten segments; fewer only when
   * the last one reaches the end.
   */
  function SegmentsCorrected(text: string, p: SegmentParams, start: nat, idx: nat): (r: seq<Segment>)
    requires ValidParams(p) && p.overlap < |text| && start < |text| && idx < MaxSegments
    ensures 1 <= |r| <= MaxSegments - idx
    ensures r[0] == Segment(start, CutEnd(text, start, p.size))
    decreases MaxSegments - idx
  {
    var end := CutEnd(text, start, p.size);
    if end >= |text| || idx + 1 >= MaxSegments then [Segment(start, end)]
    else [Segment(start, end)] + SegmentsCorrected(text, p, NextStart(text, p, start), idx + 1)
  }

  /** The corrected segments are non-empty slices of the text no longer than the segment size. */
  lemma {:induction false} CorrectedInText(text: string, p: SegmentParams, start: nat, idx: nat)
    requires ValidParams(p) && p.overlap < |text| && start < |text| && idx < MaxSegments
    ensures SegmentsInText(text, p.size, SegmentsCorrected(text, p, start, idx))
    decreases MaxSegments - idx
  {
    var end := CutEnd(text, start, p.size);
    if end < |text| && idx + 1 < MaxSegments {
      var rest := SegmentsCorrected(text, p, NextStart(text, p, start), idx + 1);
      CorrectedInText(text, p, NextStart(text, p, start), idx + 1);
      assert start < end <= |text| && end - start <= p.size;
      var r := [Segment(start, end)] + rest;
      assert SegmentsCorrected(text, p, start, idx) == r;
      assert r[1..] == rest;
    }
  }

  /** Each corrected segment starts `overlap` before the previous end, which lies inside the text. */
  lemma {:induction false} CorrectedChained(text: string, p: SegmentParams, start: nat, idx: nat)
    requires ValidParams(p) && p.overlap < |text| && start < |text| && idx < MaxSegments
    ensures Chained(text, p.overlap, SegmentsCorrected(text, p, start, idx))
    decreases MaxSegments - idx
  {
    var end := CutEnd(text, start, p.size);
    if end < |text| && idx + 1 < MaxSegments {
      var rest := SegmentsCorrected(text, p, NextStart(text, p, start), idx + 1);
      CorrectedChained(text, p, NextStart(text, p, start), idx + 1);
      var r := [Segment(start, end)] + rest;
      assert SegmentsCorrected(text, p, start, idx) == r;
      assert r[1..] == rest;
    }
  }

  /** There are fewer corrected segments than the remaining cap only when the last one reaches the end of the text. */
  lemma {:induction false} CorrectedStopsAtEnd(text: string, p: SegmentParams, start: nat, idx: nat)
    requires ValidParams(p) && p.overlap < |text| && start < |text| && idx < MaxSegments
    requires |SegmentsCorrected(text, p, start, idx)| < MaxSegments - idx
    ensures SegmentsCorrected(text, p, start, idx)[|SegmentsCorrected(text, p, start, idx)| - 1].end == |text|
    decreases MaxSegments - idx
  {
    var end := CutEnd(text, start, p.size);
    if end < |text| && idx + 1 < MaxSegments {
      var next := NextStart(text, p, start);
      var rest := SegmentsCorrected(text, p, next, idx + 1);
      var r := [Segment(start, end)] + rest;
      assert SegmentsCorrected(text, p, start, idx) == r;
      CorrectedStopsAtEnd(text, p, next, idx + 1);
      assert r[|r| - 1] == rest[|rest| - 1];
    } else {
      assert SegmentsCorrected(text, p, start, idx) == [Segment(start, end)];
    }
  }

  /** The corrected segments are the segments as written, up to the first one that reaches the end. */
  lemma {:induction false} CorrectedIsPrefix(text: string, p: SegmentParams, start: nat, idx: nat)
    requires ValidParams(p) && p.overlap < |text| && start < |text| && idx < MaxSegments
    ensures SegmentsCorrected(text, p, start, idx)
         == SegmentsAsWritten(text, p, start, idx)[..|SegmentsCorrected(text, p, start, idx)|]
    decreases MaxSegments - idx
  {
    var end := CutEnd(text, start, p.size);
    if end < |text| && idx + 1 < MaxSegments {
      var c := SegmentsCorrected(text, p, NextStart(text, p, start), idx + 1);
      var w := SegmentsAsWritten(text, p, NextStart(text, p, start), idx + 1);
      CorrectedIsPrefix(text, p, NextStart(text, p, start), idx + 1);
      assert SegmentsCorrected(text, p, start, idx) == [Segment(start, end)] + c;
      assert SegmentsAsWritten(text, p, start, idx) == [Segment(start, end)] + w;
      PrefixCons(Segment(start, end), c, w);
    }
  }

  lemma PrefixCons<T>(x: T, c: seq<T>, w: seq<T>)
    requires |c| <= |w| && c == w[..|c|]
    ensures [x] + c == ([x] + w)[..|c| + 1]
  {
    assert ([x] + w)[..|c| + 1] == [x] + w[..|c|];
  }

  /** How far each segment that does not reach the end moves the start forward, at least. */
  function Step(p: SegmentParams): nat
    requires ValidParams(p)
  {
    (4 * p.size - 5 * p.overlap) / 5
  }

  /** How much text `m` further segments after one full segment are sure to cover. */
  function Reach(p: SegmentParams, m: nat): nat
    requires ValidParams(p)
  {
    if m == 0 then p.size else Step(p) + Reach(p, m - 1)
  }

  /**
   * The corrected segmenter reaches the end of the text whenever the
   * remaining segments can cover it at the minimal step.
   */
  lemma {:induction false} CorrectedReachesEnd(text: string, p: SegmentParams, start: nat, idx: nat)
    requires ValidParams(p) && p.overlap < |text| && start < |text| && idx < MaxSegments
    requires |text| - start <= Reach(p, MaxSegments - 1 - idx)
    ensures SegmentsCorrected(text, p, start, idx)[|SegmentsCorrected(text, p, start, idx)| - 1].end == |text|
    decreases MaxSegments - idx
  {
    var end := CutEnd(text, start, p.size);
    assert idx + 1 >= MaxSegments ==> Reach(p, MaxSegments - 1 - idx) == p.size && end == |text|;
    if end < |text| && idx + 1 < MaxSegments {
      var next := NextStart(text, p, start);
      assert next >= start + Step(p);
      assert Reach(p, MaxSegments - 1 - idx) == Step(p) + Reach(p, MaxSegments - 1 - (idx + 1));
      CorrectedReachesEnd(text, p, next, idx + 1);
      var rest := SegmentsCorrected(text, p, next, idx + 1);
      var r := [Segment(start, end)] + rest;
      assert SegmentsCorrected(text, p, start, idx) == r;
      assert r[|r| - 1] == rest[|rest| - 1];
    } else {
      assert SegmentsCorrected(text, p, start, idx) == [Segment(start, end)];
    }
  }

  /**
   * Every text the large-document path accepts up to 150500 characters is
   * segmented to its end: ten segments at the minimal step (11000 up to
   * 50000 characters, 14500 beyond) reach that far.
   */
  lemma CorrectedCoversText(text: string)
    requires SingleSegmentLimit < |text| <= 150500
    ensures var r := SegmentsCorrected(text, ParamsFor(|text|), 0, 0); r[|r| - 1].end == |text|
  {
    var p := ParamsFor(|text|);
    if |text| <= MediumDocumentLimit {
      assert Step(p) == 11000;
      assert Reach(p, 9) == 114000 by {
        assert Reach(p, 0) == 15000;
        assert Reach(p, 1) == 26000;
        assert Reach(p, 2) == 37000;
        assert Reach(p, 3) == 48000;
        assert Reach(p, 4) == 59000;
        assert Reach(p, 5) == 70000;
        assert Reach(p, 6) == 81000;
        assert Reach(p, 7) == 92000;
        assert Reach(p, 8) == 103000;
      }
    } else {
      assert Step(p) == 14500;
      assert Reach(p, 9) == 150500 by {
        assert Reach(p, 0) == 20000;
        assert Reach(p, 1) == 34500;
        assert Reach(p, 2) == 49000;
        assert Reach(p, 3) == 63500;
        assert Reach(p, 4) == 78000;
        assert Reach(p, 5) == 92500;
        assert Reach(p, 6) == 107000;
        assert Reach(p, 7) == 121500;
        assert Reach(p, 8) == 136000;
      }
    }
    CorrectedReachesEnd(text, p, 0, 0);
  }

  // ---------------------------------------------------------------- one segment

  /** What one semantic call is given: the truncated content and the keywords. */
  datatype SemanticRequest = SemanticRequest(content: string, keywords: seq<string>)

  /** `parse_json_response`: the parsed reply, or `{"items": []}` when it is not JSON. */
  function ParseJsonResponse(response: string, parse: string -> Option<Json>): Json {
    match parse(response)
    case Some(v) => v
    case None => JObj(map["items" := JArr([])])
  }

  /** The keyword arguments `_process_semantic_segment` builds from one entry of `items`. */
  function SemanticFields(d: map<string, Json>): map<string, Json> {
    map["type" := GetOr(d, "type", JStr("KeywordHit")),
        "title" := GetOr(d, "title", JNull),
        "text" := GetOr(d, "content", JNull),
        "docName" := JStr(SemanticDocName),
        "keywordsHit" := GetOr(d, "semantic_matches", JArr([]))]
  }

  /** One entry: a dict whose fields validate as an item; anything else raises. */
  function SemanticEntry(entry: Json): Option<ExtractedItem> {
    match entry
    case JObj(d) => ItemFromJson(SemanticFields(d))
    case _ => None
  }

  /**
   * An entry is accepted exactly when it is a dict whose built fields
   * validate; the item carries those fields and the fixed `docName`.
   */
  lemma SemanticEntrySpec(entry: Json)
    ensures SemanticEntry(entry).Some? <==> entry.JObj? && ItemShape(SemanticFields(entry.fields))
    ensures SemanticEntry(entry).Some? ==> SemanticEntry(entry).value.docName == Some(SemanticDocName)
    ensures SemanticEntry(entry).Some? ==> ItemStrFieldsHold(SemanticFields(entry.fields), SemanticEntry(entry).value)
  {
    if entry.JObj? {
      assert SemanticFields(entry.fields)["docName"] == JStr(SemanticDocName);
    }
  }

  /** The entries of one reply, all or nothing: one failing entry aborts the segment. */
  function SemanticEntries(entries: seq<Json>): Option<seq<ExtractedItem>> {
    AllOrNothing(SemanticEntry, entries)
  }

  /** The items of a parsed reply: an object whose `items` (default `[]`) is a list of valid entries. */
  function ReplySemanticItems(result: Json): (r: seq<ExtractedItem>)
    ensures !result.JObj? || !GetOr(result.fields, "items", JArr([])).JArr? ==> r == []
  {
    match result
    case JObj(m) =>
      (match GetOr(m, "items", JArr([]))
       case JArr(entries) => SemanticEntries(entries).GetOr([])
       case _ => [])
    case _ => []
  }

  lemma ReplyItemsNamed(result: Json)
    ensures forall it :: it in ReplySemanticItems(result) ==> it.docName == Some(SemanticDocName)
  {
    if result.JObj? && GetOr(result.fields, "items", JArr([])).JArr? {
      var entries := GetOr(result.fields, "items", JArr([])).elems;
      if SemanticEntries(entries).Some? {
        var xs := SemanticEntries(entries).value;
        forall it | it in xs ensures it.docName == Some(SemanticDocName) {
          var k :| 0 <= k < |xs| && xs[k] == it;
          SemanticEntrySpec(entries[k]);
        }
      }
    }
  }

  /**
   * `_process_semantic_segment`: only the first 15000 characters go to
   * the model; a failed call, a non-object reply, a non-list `items` or a
   * failing entry gives nothing.
   */
  function ProcessSemanticSegment(seg: string, keywords: seq<string>, gen: SemanticRequest -> Option<string>,
                                  parse: string -> Option<Json>): (r: seq<ExtractedItem>)
    ensures forall it :: it in r ==> it.docName == Some(SemanticDocName)
  {
    var content := seg[..if |seg| < SingleSegmentLimit then |seg| else SingleSegmentLimit];
    match gen(SemanticRequest(content, keywords))
    case None => []
    case Some(response) =>
      var items := ReplySemanticItems(ParseJsonResponse(response, parse));
      ReplyItemsNamed(ParseJsonResponse(response, parse));
      items
  }

  /** A segment call depends on its first 15000 characters only. */
  lemma SegmentTruncated(seg: string, keywords: seq<string>, gen: SemanticRequest -> Option<string>,
                         parse: string -> Option<Json>)
    requires |seg| > SingleSegmentLimit
    ensures ProcessSemanticSegment(seg, keywords, gen, parse)
         == ProcessSemanticSegment(seg[..SingleSegmentLimit], keywords, gen, parse)
  {
    assert seg[..SingleSegmentLimit][..SingleSegmentLimit] == seg[..SingleSegmentLimit];
  }

  /** A reply that is not JSON reads as `{"items": []}` and gives no items, as does a failed call. */
  lemma FailuresGiveNothing(seg: string, keywords: seq<string>, gen: SemanticRequest -> Option<string>,
                            parse: string -> Option<Json>)
    ensures var req := SemanticRequest(seg[..if |seg| < SingleSegmentLimit then |seg| else SingleSegmentLimit], keywords);
      (gen(req).None? || parse(gen(req).value).None?) ==> ProcessSemanticSegment(seg, keywords, gen, parse) == []
  {
    var m := map["items" := JArr([])];
    assert GetOr(m, "items", JArr([])) == JArr([]);
  }

  /** With a reply whose `items` list validates, the segment yields one item per entry, in order. */
  lemma ValidReplyItems(result: Json, entries: seq<Json>)
    requires result.JObj? && "items" in result.fields && result.fields["items"] == JArr(entries)
    requires forall k :: 0 <= k < |entries| ==> SemanticEntry(entries[k]).Some?
    ensures var r := ReplySemanticItems(result);
      |r| == |entries| && forall k :: 0 <= k < |entries| ==> Some(r[k]) == SemanticEntry(entries[k])
  {
  }

  /** One entry that fails validation (or is not a dict) empties the whole segment. */
  lemma FailingEntryEmptiesSegment(result: Json, entries: seq<Json>, k: nat)
    requires result.JObj? && "items" in result.fields && result.fields["items"] == JArr(entries)
    requires k < |entries| && SemanticEntry(entries[k]).None?
    ensures ReplySemanticItems(result) == []
  {
    AllOrNothingFails(SemanticEntry, entries, k);
  }

  /** An entry without `type` is a `KeywordHit`; without `semantic_matches` its keywordsHit is `[]`. */
  lemma EntryDefaults(d: map<string, Json>)
    requires SemanticEntry(JObj(d)).Some?
    ensures "type" !in d ==> SemanticEntry(JObj(d)).value.kind == KeywordHit
    ensures "semantic_matches" !in d ==> SemanticEntry(JObj(d)).value.keywordsHit == Some([])
  {
    var f := SemanticFields(d);
    assert f["type"] == GetOr(d, "type", JStr("KeywordHit"));
    assert f["keywordsHit"] == GetOr(d, "semantic_matches", JArr([]));
  }

  // ---------------------------------------------------------------- dispatch

  /** One pass of the segment loop: the segment's text goes to `_process_semantic_segment`. */
  function SegmentPass(text: string, keywords: seq<string>, gen: SemanticRequest -> Option<string>,
                       parse: string -> Option<Json>): Segment --> seq<ExtractedItem> {
    (s: Segment) requires s.start <= s.end <= |text| => ProcessSemanticSegment(text[s.start..s.end], keywords, gen, parse)
  }

  /** Segments that are slices of `text`. */
  predicate SlicesOf(text: string, segs: seq<Segment>) {
    forall k :: 0 <= k < |segs| ==> segs[k].start <= segs[k].end <= |text|
  }

  /** The items of a list of segments, in segment order. */
  function SegmentItems(text: string, segs: seq<Segment>, keywords: seq<string>,
                        gen: SemanticRequest -> Option<string>, parse: string -> Option<Json>): (r: seq<ExtractedItem>)
    requires SlicesOf(text, segs)
    ensures forall it :: it in r ==> it.docName == Some(SemanticDocName)
  {
    SegmentItemsNamed(text, segs, keywords, gen, parse);
    FlatMap(SegmentPass(text, keywords, gen, parse), segs)
  }

  lemma SegmentItemsNamed(text: string, segs: seq<Segment>, keywords: seq<string>,
                          gen: SemanticRequest -> Option<string>, parse: string -> Option<Json>)
    requires SlicesOf(text, segs)
    ensures forall it :: it in FlatMap(SegmentPass(text, keywords, gen, parse), segs) ==> it.docName == Some(SemanticDocName)
  {
    var f := SegmentPass(text, keywords, gen, parse);
    forall it: ExtractedItem | it in FlatMap(f, segs) ensures it.docName == Some(SemanticDocName) {
      FlatMapMember(f, segs, it);
      var k :| 0 <= k < |segs| && it in f(segs[k]);
      assert f(segs[k]) == ProcessSemanticSegment(text[segs[k].start..segs[k].end], keywords, gen, parse);
    }
  }

  /** Segments are processed one after another: the items of `a + b` are those of `a`, then those of `b`. */
  lemma SegmentItemsAppend(text: string, a: seq<Segment>, b: seq<Segment>, keywords: seq<string>,
                           gen: SemanticRequest -> Option<string>, parse: string -> Option<Json>)
    requires SlicesOf(text, a) && SlicesOf(text, b)
    ensures SlicesOf(text, a + b)
    ensures SegmentItems(text, a + b, keywords, gen, parse)
         == SegmentItems(text, a, keywords, gen, parse) + SegmentItems(text, b, keywords, gen, parse)
  {
    FlatMapAppend(SegmentPass(text, keywords, gen, parse), a, b);
  }

  /** The segments of a long text, as written or corrected, are slices of it. */
  lemma LargeSegmentsSlices(text: string)
    requires |text| > SingleSegmentLimit
    ensures SlicesOf(text, SegmentsAsWritten(text, ParamsFor(|text|), 0, 0))
    ensures SlicesOf(text, SegmentsCorrected(text, ParamsFor(|text|), 0, 0))
  {
    var p := ParamsFor(|text|);
    ParamsForValid(|text|);
    AsWrittenInText(text, p, 0, 0);
    InTextBounds(text, p.size, SegmentsAsWritten(text, p, 0, 0));
    CorrectedInText(text, p, 0, 0);
    InTextBounds(text, p.size, SegmentsCorrected(text, p, 0, 0));
  }

  /** `_process_large_document` as written: ten segments, the tail re-sent once the end of the text is reached. */
  function ProcessLargeDocument(text: string, keywords: seq<string>, gen: SemanticRequest -> Option<string>,
                                parse: string -> Option<Json>): (r: seq<ExtractedItem>)
    requires |text| > SingleSegmentLimit
    ensures forall it :: it in r ==> it.docName == Some(SemanticDocName)
  {
    ParamsForValid(|text|);
    LargeSegmentsSlices(text);
    SegmentItems(text, SegmentsAsWritten(text, ParamsFor(|text|), 0, 0), keywords, gen, parse)
  }

  /** `_process_large_document` with the corrected segmenter, which stops at the end of the text. */
  function ProcessLargeDocumentCorrected(text: string, keywords: seq<string>, gen: SemanticRequest -> Option<string>,
                                         parse: string -> Option<Json>): (r: seq<ExtractedItem>)
    requires |text| > SingleSegmentLimit
    ensures forall it :: it in r ==> it.docName == Some(SemanticDocName)
  {
    ParamsForValid(|text|);
    LargeSegmentsSlices(text);
    SegmentItems(text, SegmentsCorrected(text, ParamsFor(|text|), 0, 0), keywords, gen, parse)
  }

  /**
   * The corrected loop's items come first in the items as written, followed
   * by the items of the segments it leaves out.
   */
  lemma CorrectedItemsPrefix(text: string, keywords: seq<string>, gen: SemanticRequest -> Option<string>,
                             parse: string -> Option<Json>)
    requires |text| > SingleSegmentLimit
    ensures exists extra: seq<Segment> :: (SlicesOf(text, extra)
      && ProcessLargeDocument(text, keywords, gen, parse)
         == ProcessLargeDocumentCorrected(text, keywords, gen, parse) + SegmentItems(text, extra, keywords, gen, parse))
  {
    var p := ParamsFor(|text|);
    ParamsForValid(|text|);
    LargeSegmentsSlices(text);
    CorrectedIsPrefix(text, p, 0, 0);
    PrefixItems(text, SegmentsCorrected(text, p, 0, 0), SegmentsAsWritten(text, p, 0, 0), keywords, gen, parse);
  }

  /** The items of a prefix of a segment list come first in the items of the whole list. */
  lemma PrefixItems(text: string, c: seq<Segment>, w: seq<Segment>, keywords: seq<string>,
                    gen: SemanticRequest -> Option<string>, parse: string -> Option<Json>)
    requires SlicesOf(text, c) && SlicesOf(text, w) && |c| <= |w| && c == w[..|c|]
    ensures exists extra: seq<Segment> :: (SlicesOf(text, extra)
      && SegmentItems(text, w, keywords, gen, parse) == SegmentItems(text, c, keywords, gen, parse) + SegmentItems(text, extra, keywords, gen, parse))
  {
    var extra := w[|c|..];
    assert w == c + extra;
    SegmentItemsAppend(text, c, extra, keywords, gen, parse);
  }

  /**
   * The discrepancy at the level of items: a text of 15001 to 29000
   * characters without '。' is answered from its two segments, then from its
   * 1000-character tail eight more times.
   */
  lemma LargeDocumentResendsTail(text: string, keywords: seq<string>, gen: SemanticRequest -> Option<string>,
                                 parse: string -> Option<Json>)
    requires SingleSegmentLimit < |text| <= 29000 && '。' !in text
    ensures ProcessLargeDocument(text, keywords, gen, parse)
         == ProcessSemanticSegment(text[..15000], keywords, gen, parse)
            + ProcessSemanticSegment(text[14000..], keywords, gen, parse)
            + Repeat(ProcessSemanticSegment(text[|text| - 1000..], keywords, gen, parse), 8)
  {
    var n := |text|;
    AsWrittenSegmentsListed(text);
    LargeSegmentsSlices(text);
    SegmentItemsListed(text, Segment(0, 15000), Segment(14000, n), Segment(n - 1000, n), 8, keywords, gen, parse);
    assert text[0..15000] == text[..15000];
    assert text[14000..n] == text[14000..];
    assert text[n - 1000..n] == text[n - 1000..];
  }

  /** The items of two segments followed by `k` copies of a third. */
  lemma SegmentItemsListed(text: string, a: Segment, b: Segment, t: Segment, k: nat, keywords: seq<string>,
                           gen: SemanticRequest -> Option<string>, parse: string -> Option<Json>)
    requires a.start <= a.end <= |text| && b.start <= b.end <= |text| && t.start <= t.end <= |text|
    ensures SlicesOf(text, [a, b] + Copies(t, k))
    ensures SegmentItems(text, [a, b] + Copies(t, k), keywords, gen, parse)
         == ProcessSemanticSegment(text[a.start..a.end], keywords, gen, parse)
            + ProcessSemanticSegment(text[b.start..b.end], keywords, gen, parse)
            + Repeat(ProcessSemanticSegment(text[t.start..t.end], keywords, gen, parse), k)
  {
    var f := SegmentPass(text, keywords, gen, parse);
    SegmentItemsAppend(text, [a], [b], keywords, gen, parse);
    SegmentItemsAppend(text, [a, b], Copies(t, k), keywords, gen, parse);
    FlatMapSingle(f, a);
    FlatMapSingle(f, b);
    FlatMapRepeat(f, t, k);
  }

  /** The segments as written of such a text, listed. */
  lemma AsWrittenSegmentsListed(text: string)
    requires SingleSegmentLimit < |text| <= 29000 && '。' !in text
    ensures SegmentsAsWritten(text, ParamsFor(|text|), 0, 0)
         == [Segment(0, 15000), Segment(14000, |text|)] + Copies(Segment(|text| - 1000, |text|), 8)
  {
    AsWrittenResendsTail(text);
  }

  /** `extract_with_semantic_understanding`: one call for a short text, segments for a long one. */
  function ExtractWithSemanticUnderstanding(text: string, keywords: seq<string>,
                                            gen: SemanticRequest -> Option<string>,
                                            parse: string -> Option<Json>): (r: seq<ExtractedItem>)
    ensures forall it :: it in r ==> it.docName == Some(SemanticDocName)
  {
    if |text| <= SingleSegmentLimit then ProcessSemanticSegment(text, keywords, gen, parse)
    else ProcessLargeDocument(text, keywords, gen, parse)
  }

  /** A short text is sent whole, in a single call. */
  lemma ShortTextOneCall(text: string, keywords: seq<string>, gen: SemanticRequest -> Option<string>,
                         parse: string -> Option<Json>)
    requires |text| <= SingleSegmentLimit
    ensures ExtractWithSemanticUnderstanding(text, keywords, gen, parse)
         == (match gen(SemanticRequest(text, keywords))
             case None => []
             case Some(response) => ReplySemanticItems(ParseJsonResponse(response, parse)))
  {
    assert text[..|text|] == text;
  }

  /**
   * A long text goes through the segment loop as written: a text of 15001
   * to 29000 characters without '。' costs two covering calls and then
   * eight more calls on its last 1000 characters.
   */
  lemma LongTextResendsTail(text: string, keywords: seq<string>, gen: SemanticRequest -> Option<string>,
                            parse: string -> Option<Json>)
    requires SingleSegmentLimit < |text| <= 29000 && '。' !in text
    ensures ExtractWithSemanticUnderstanding(text, keywords, gen, parse)
         == ProcessSemanticSegment(text[..15000], keywords, gen, parse)
            + ProcessSemanticSegment(text[14000..], keywords, gen, parse)
            + Repeat(ProcessSemanticSegment(text[|text| - 1000..], keywords, gen, parse), 8)
  {
    LargeDocumentResendsTail(text, keywords, gen, parse);
  }

  /** Of a segment longer than 15000 characters, the model never sees the part beyond the first 15000. */
  lemma LongSegmentTail(text: string, s: Segment, keywords: seq<string>,
                        gen: SemanticRequest -> Option<string>, parse: string -> Option<Json>)
    requires s.start <= s.end <= |text| && s.end - s.start > SingleSegmentLimit
    ensures ProcessSemanticSegment(text[s.start..s.end], keywords, gen, parse)
         == ProcessSemanticSegment(text[s.start..s.start + SingleSegmentLimit], keywords, gen, parse)
  {
    SegmentTruncated(text[s.start..s.end], keywords, gen, parse);
    assert text[s.start..s.end][..SingleSegmentLimit] == text[s.start..s.start + SingleSegmentLimit];
  }
}

=== FILE: items_from_text.dfy ===
/**
 * `chunk_documents_to_items` (pipeline/nodes/items_from_text.py): every
 * document is cut into overlapping windows and every window that is not
 * blank after stripping becomes a `RawText` item carrying the stripped text
 * and the document's name.
 */
module ItemsFromText {
  import opened Wrappers
  import opened Text
  import opened Schemas
  import opened Chunking
  import opened Seqs

  /** The default window size and overlap of `chunk_documents_to_items`. */
  const ChunkChars: nat := 1000
  const ChunkOverlap: nat := 100

  /** The item built for one window: type RawText, its text and the document name, nothing else. */
  function RawTextItem(text: string, docName: string): ExtractedItem {
    BareItem(RawText).(text := Some(text), docName := Some(docName))
  }

  /** `it` is a raw-text item of document `name` whose text is non-empty and stripped. */
  predicate IsRawTextOf(it: ExtractedItem, name: string) {
    && it.text.Some? && it.text.value != "" && IsStripped(it.text.value)
    && it == RawTextItem(it.text.value, name)
  }

  predicate InText(text: string, ws: seq<Window>) {
    forall k :: 0 <= k < |ws| ==> ws[k].start <= ws[k].end <= |text|
  }

  /** The window text `text[w.start:w.end].strip()`. */
  function WindowText(text: string, w: Window): string
    requires w.start <= w.end <= |text|
  {
    Strip(text[w.start..w.end])
  }

  /** One pass of the `while` loop: the window's stripped text as an item, or nothing when it is blank. */
  function WindowItem(text: string, name: string, w: Window): seq<ExtractedItem>
    requires w.start <= w.end <= |text|
  {
    var chunk := WindowText(text, w);
    if chunk != "" then [RawTextItem(chunk, name)] else []
  }

  /** The loop body for the windows of `text`, as a function of the window. */
  function WindowPass(text: string, name: string): Window --> seq<ExtractedItem> {
    (w: Window) requires w.start <= w.end <= |text| => WindowItem(text, name, w)
  }

  /** The loop over the windows `ws`, one pass per window. */
  function WindowItems(text: string, name: string, ws: seq<Window>): (r: seq<ExtractedItem>)
    requires InText(text, ws)
  {
    FlatMap(WindowPass(text, name), ws)
  }

  /** A pass yields at most one item: the raw-text item of the window's stripped text. */
  lemma WindowItemSpec(text: string, name: string, w: Window)
    requires w.start <= w.end <= |text|
    ensures |WindowItem(text, name, w)| <= 1
    ensures forall it :: it in WindowItem(text, name, w) ==> IsRawTextOf(it, name) && it.text == Some(WindowText(text, w))
  {
  }

  /** Every item is a raw-text item of `name` whose text is the stripped text of one of the windows. */
  lemma WindowItemsSpec(text: string, name: string, ws: seq<Window>)
    requires InText(text, ws)
    ensures forall it :: it in WindowItems(text, name, ws) ==>
      IsRawTextOf(it, name) && exists k :: 0 <= k < |ws| && it.text == Some(WindowText(text, ws[k]))
  {
    var f := WindowPass(text, name);
    forall it | it in WindowItems(text, name, ws)
      ensures IsRawTextOf(it, name) && exists k :: 0 <= k < |ws| && it.text == Some(WindowText(text, ws[k]))
    {
      FlatMapMember(f, ws, it);
      var k :| 0 <= k < |ws| && it in f(ws[k]);
      assert f(ws[k]) == WindowItem(text, name, ws[k]);
      WindowItemSpec(text, name, ws[k]);
    }
  }

  /**
   * There are at most as many items as windows; blank windows add nothing
   * and non-blank windows add one item each.
   */
  lemma WindowItemsCount(text: string, name: string, ws: seq<Window>)
    requires InText(text, ws)
    ensures |WindowItems(text, name, ws)| <= |ws|
    ensures (forall k :: 0 <= k < |ws| ==> AllSpace(text[ws[k].start..ws[k].end])) ==> WindowItems(text, name, ws) == []
    ensures (forall k :: 0 <= k < |ws| ==> !AllSpace(text[ws[k].start..ws[k].end])) ==> |WindowItems(text, name, ws)| == |ws|
  {
    var f := WindowPass(text, name);
    assert forall k :: 0 <= k < |ws| ==> f(ws[k]) == WindowItem(text, name, ws[k]);
    FlatMapLength(f, ws);
  }

  /** The windows of a document: those of the `while start < n` loop, none for an empty text. */
  function DocumentWindows(text: string, chunkChars: nat, overlap: nat): (ws: seq<Window>)
    requires overlap < chunkChars
    ensures InText(text, ws)
    ensures |text| == 0 ==> ws == []
    ensures |text| > 0 ==> Tiling(ws, |text|, chunkChars, overlap, 0)
  {
    if |text| == 0 then [] else Windows(|text|, chunkChars, overlap, 0)
  }

  /** The items of one document. */
  function DocumentItems(doc: Document, chunkChars: nat, overlap: nat): seq<ExtractedItem>
    requires overlap < chunkChars
  {
    WindowItems(doc.text, doc.name, DocumentWindows(doc.text, chunkChars, overlap))
  }

  /** The loop body for one document, as a function of the document. */
  function DocumentPass(chunkChars: nat, overlap: nat): Document -> seq<ExtractedItem>
    requires overlap < chunkChars
  {
    (d: Document) => DocumentItems(d, chunkChars, overlap)
  }

  /**
   * `chunk_documents_to_items(documents, chunk_chars, overlap)`; the loop
   * ends only when `overlap < chunk_chars`, which is therefore required.
   */
  function ChunkDocumentsToItems(docs: seq<Document>, chunkChars: nat, overlap: nat): seq<ExtractedItem>
    requires overlap < chunkChars
  {
    FlatMap(DocumentPass(chunkChars, overlap), docs)
  }

  /** `it` is a raw-text item of one of the documents `docs`. */
  predicate FromSomeDocument(it: ExtractedItem, docs: seq<Document>) {
    exists i :: 0 <= i < |docs| && IsRawTextOf(it, docs[i].name)
  }

  /** Every item comes from one of the documents and carries that document's name. */
  lemma ChunkDocumentsNames(docs: seq<Document>, chunkChars: nat, overlap: nat)
    requires overlap < chunkChars
    ensures forall it :: it in ChunkDocumentsToItems(docs, chunkChars, overlap) ==> FromSomeDocument(it, docs)
  {
    var f := DocumentPass(chunkChars, overlap);
    forall it | it in ChunkDocumentsToItems(docs, chunkChars, overlap) ensures FromSomeDocument(it, docs) {
      FlatMapMember(f, docs, it);
      var i :| 0 <= i < |docs| && it in f(docs[i]);
      WindowItemsSpec(docs[i].text, docs[i].name, DocumentWindows(docs[i].text, chunkChars, overlap));
    }
  }

  /** The items of a window list split in two are the items of each part, in order. */
  lemma WindowItemsAppend(text: string, name: string, a: seq<Window>, b: seq<Window>)
    requires InText(text, a) && InText(text, b)
    ensures InText(text, a + b)
    ensures WindowItems(text, name, a + b) == WindowItems(text, name, a) + WindowItems(text, name, b)
  {
    FlatMapAppend(WindowPass(text, name), a, b);
  }

  /** Items keep document order: the items of `a + b` are those of `a` followed by those of `b`. */
  lemma ChunkDocumentsAppend(a: seq<Document>, b: seq<Document>, chunkChars: nat, overlap: nat)
    requires overlap < chunkChars
    ensures ChunkDocumentsToItems(a + b, chunkChars, overlap)
         == ChunkDocumentsToItems(a, chunkChars, overlap) + ChunkDocumentsToItems(b, chunkChars, overlap)
  {
    FlatMapAppend(DocumentPass(chunkChars, overlap), a, b);
  }

  /**
   * One document's items: each is a raw-text item of the document whose
   * text is the stripped text of a window at most `chunkChars` long.
   */
  lemma DocumentItemsSpec(doc: Document, chunkChars: nat, overlap: nat)
    requires overlap < chunkChars
    ensures forall j :: 0 <= j < |DocumentItems(doc, chunkChars, overlap)| ==>
      IsRawTextOf(DocumentItems(doc, chunkChars, overlap)[j], doc.name)
    ensures forall j :: 0 <= j < |DocumentItems(doc, chunkChars, overlap)| ==>
      exists i, e :: 0 <= i <= e <= |doc.text| && e - i <= chunkChars
        && DocumentItems(doc, chunkChars, overlap)[j].text == Some(Strip(doc.text[i..e]))
  {
    var ws := DocumentWindows(doc.text, chunkChars, overlap);
    var r := DocumentItems(doc, chunkChars, overlap);
    WindowItemsSpec(doc.text, doc.name, ws);
    forall j | 0 <= j < |r|
      ensures IsRawTextOf(r[j], doc.name)
      ensures exists i, e :: 0 <= i <= e <= |doc.text| && e - i <= chunkChars && r[j].text == Some(Strip(doc.text[i..e]))
    {
      assert r[j] in r;
      var k :| 0 <= k < |ws| && r[j].text == Some(WindowText(doc.text, ws[k]));
      assert ws[k].end - ws[k].start <= chunkChars;
    }
  }

  /** An empty document gives no item, and a document that fits one window at most one. */
  lemma DocumentItemsCount(doc: Document, chunkChars: nat, overlap: nat)
    requires overlap < chunkChars
    ensures |doc.text| == 0 ==> DocumentItems(doc, chunkChars, overlap) == []
    ensures |doc.text| <= chunkChars ==> |DocumentItems(doc, chunkChars, overlap)| <= 1
  {
    WindowItemsCount(doc.text, doc.name, DocumentWindows(doc.text, chunkChars, overlap));
  }

  /** A single document whose text is not blank gives at least one item. */
  lemma NonBlankDocumentHasItem(doc: Document, chunkChars: nat, overlap: nat)
    requires overlap < chunkChars && |doc.text| <= chunkChars && !AllSpace(doc.text)
    ensures DocumentItems(doc, chunkChars, overlap) == [RawTextItem(Strip(doc.text), doc.name)]
  {
    var ws := DocumentWindows(doc.text, chunkChars, overlap);
    assert ws == [Window(0, |doc.text|)];
    assert doc.text[0..|doc.text|] == doc.text;
    FlatMapSingle(WindowPass(doc.text, doc.name), Window(0, |doc.text|));
    assert !AllSpace(doc.text[0..|doc.text|]);
  }
}

=== FILE: json.dfy ===
/**
 * JSON values as `json.loads` hands them to Python code: dicts, lists,
 * strings, numbers, booleans and None. Numbers are exact reals (the int /
 * float distinction and floating-point rounding are not modelled).
 */
module Json {
  import opened Wrappers

  datatype Json =
    | JNull
    | JBool(b: bool)
    | JNum(n: real)
    | JStr(s: string)
    | JArr(elems: seq<Json>)
    | JObj(fields: map<string, Json>)

  /** Python truthiness of a decoded JSON value (`if v:` / `v or default`). */
  predicate Truthy(v: Json) {
    match v
    case JNull => false
    case JBool(b) => b
    case JNum(n) => n != 0.0
    case JStr(s) => s != ""
    case JArr(xs) => |xs| > 0
    case JObj(m) => |m| > 0
  }

  /** `d.get(key, default)` on a decoded dict. */
  function GetOr<V>(m: map<string, V>, key: string, default: V): (r: V)
    ensures key in m ==> r == m[key]
    ensures key !in m ==> r == default
  {
    if key in m then m[key] else default
  }

  /** `v or default`: Python's `or` on a JSON value. */
  function OrElse(v: Json, default: Json): (r: Json)
    ensures Truthy(v) ==> r == v
    ensures !Truthy(v) ==> r == default
  {
    if Truthy(v) then v else default
  }

  /** A JSON number is a Python int value when it has no fractional part. */
  predicate IsWhole(n: real) {
    n.Floor as real == n
  }
}

=== FILE: json_recovery.dfy ===
/**
 * Recovering one JSON value from free model text
 * (pipeline/utils/json_utils.py): the balanced-bracket scanner
 * `_find_balanced` and the strategy chain `safe_json_loads_any`.
 *
 * `json.loads` is the parameter `parse` (None where it raises) and the
 * code-fence regex is the parameter `fence` (the first fenced block's
 * inner text, or None when the regex finds no match).
 */
module JsonRecovery {
  import opened Wrappers
  import opened Text
  import opened Json

  // ---------------------------------------------------------------- the scanner

  /** The scanner's three variables: bracket depth, inside a string, after a backslash. */
  datatype ScanState = ScanState(depth: int, inString: bool, escaped: bool)

  const Initial := ScanState(0, false, false)

  /** One character of the scan loop of `_find_balanced`. */
  function Step(st: ScanState, ch: char, open: char, close: char): (r: ScanState)
    ensures st.inString ==> r.depth == st.depth
    ensures st.inString && st.escaped ==> r.inString && !r.escaped
    ensures !st.inString && ch == '"' ==> r.inString && r.depth == st.depth
    ensures !st.inString && ch != '"' && ch != open && ch != close ==> r == st
  {
    if st.inString then
      if st.escaped then ScanState(st.depth, true, false)
      else if ch == '\\' then ScanState(st.depth, true, true)
      else if ch == '"' then ScanState(st.depth, false, false)
      else st
    else if ch == '"' then ScanState(st.depth, true, st.escaped)
    else if ch == open then ScanState(st.depth + 1, false, st.escaped)
    else if ch == close then ScanState(st.depth - 1, false, st.escaped)
    else st
  }

  /** The character that brings the depth back to zero, where the scan returns. */
  predicate Closes(st: ScanState, ch: char, open: char, close: char) {
    !st.inString && ch != '"' && ch != open && ch == close && st.depth - 1 == 0
  }

  /** The scanner state after reading all of `s` from the initial state. */
  function Run(s: string, open: char, close: char): ScanState
    decreases |s|
  {
    if |s| == 0 then Initial else Step(Run(s[..|s| - 1], open, close), s[|s| - 1], open, close)
  }

  /** The depth after scanning `text[start..k]`. */
  function Depth(text: string, open: char, close: char, start: nat, k: nat): int
    requires start <= k <= |text|
  {
    Run(text[start..k], open, close).depth
  }

  /** The loop of `_find_balanced` from index `i` in state `st`: the index it returns at, if any. */
  function ScanFrom(text: string, open: char, close: char, i: nat, st: ScanState): (r: Option<nat>)
    requires i <= |text|
    ensures r.Some? ==> i <= r.value < |text| && text[r.value] == close
    decreases |text| - i
  {
    if i == |text| then None
    else if Closes(st, text[i], open, close) then Some(i)
    else ScanFrom(text, open, close, i + 1, Step(st, text[i], open, close))
  }

  /** The index of the closing character `_find_balanced` stops at, if any. */
  function FindBalancedEnd(text: string, open: char, close: char): (r: Option<nat>)
    ensures open !in text ==> r.None?
    ensures r.Some? ==> open in text && FirstIndex(text, open).value < r.value < |text| && text[r.value] == close
  {
    match FirstIndex(text, open)
    case None => None
    case Some(start) =>
      if Closes(Initial, text[start], open, close) then None
      else ScanFrom(text, open, close, start + 1, Step(Initial, text[start], open, close))
  }

  /**
   * `_find_balanced(text, open, close)`: the slice from the first `open`
   * through the closing character at which the scan stops.
   */
  function FindBalanced(text: string, open: char, close: char): (r: Option<string>)
    ensures open !in text ==> r.None?
    ensures r.Some? ==> open in text
    ensures r.Some? ==>
      var start := FirstIndex(text, open).value;
      exists e :: start < e < |text| && r.value == text[start..e + 1] && text[e] == close
    ensures r.Some? ==> |r.value| >= 2 && r.value[0] == open && r.value[|r.value| - 1] == close
  {
    match FindBalancedEnd(text, open, close)
    case None => None
    case Some(e) => Some(text[FirstIndex(text, open).value..e + 1])
  }

  lemma RunSnoc(text: string, open: char, close: char, start: nat, i: nat)
    requires start <= i < |text|
    ensures Run(text[start..i + 1], open, close) == Step(Run(text[start..i], open, close), text[i], open, close)
  {
    assert text[start..i + 1][..i - start] == text[start..i];
  }

  /** The loop invariant of the scan: the depth is positive from the opening character on. */
  lemma {:induction false} ScanFromSpec(text: string, open: char, close: char, start: nat, i: nat)
    requires start < i <= |text|
    requires forall k :: start < k <= i ==> Depth(text, open, close, start, k) > 0
    ensures match ScanFrom(text, open, close, i, Run(text[start..i], open, close))
      case Some(e) =>
        && Depth(text, open, close, start, e + 1) == 0
        && forall k :: start < k <= e ==> Depth(text, open, close, start, k) > 0
      case None => forall k :: start < k <= |text| ==> Depth(text, open, close, start, k) > 0
    decreases |text| - i
  {
    if i < |text| {
      var st := Run(text[start..i], open, close);
      RunSnoc(text, open, close, start, i);
      assert Depth(text, open, close, start, i) == st.depth > 0;
      assert Depth(text, open, close, start, i + 1) == Step(st, text[i], open, close).depth;
      if !Closes(st, text[i], open, close) {
        assert Depth(text, open, close, start, i + 1) > 0;
        ScanFromSpec(text, open, close, start, i + 1);
      }
    }
  }

  /**
   * With an opening character other than the quote: the returned slice ends
   * at the first position where the depth is back to zero, the depth being
   * positive at every earlier position of the slice; no slice is returned
   * exactly when the depth stays positive to the end of the text.
   */
  lemma FindBalancedFirstZero(text: string, open: char, close: char)
    requires open != '"' && open in text
    ensures var start := FirstIndex(text, open).value;
      match FindBalancedEnd(text, open, close)
      case Some(e) =>
        && Depth(text, open, close, start, e + 1) == 0
        && forall k :: start < k <= e ==> Depth(text, open, close, start, k) > 0
      case None => forall k :: start < k <= |text| ==> Depth(text, open, close, start, k) > 0
  {
    var start := FirstIndex(text, open).value;
    RunSnoc(text, open, close, start, start);
    assert text[start..start] == [];
    assert Depth(text, open, close, start, start + 1) == 1;
    ScanFromSpec(text, open, close, start, start + 1);
  }

  /** Brackets inside a string, also after a backslash escape, leave the depth unchanged. */
  lemma QuotedBracketsIgnored(text: string, open: char, close: char, start: nat, k: nat)
    requires start <= k < |text|
    requires Run(text[start..k], open, close).inString
    ensures Depth(text, open, close, start, k + 1) == Depth(text, open, close, start, k)
    ensures Run(text[start..k], open, close).escaped ==> Run(text[start..k + 1], open, close).inString
  {
    RunSnoc(text, open, close, start, k);
  }

  /** The scan written as the source's loop; it computes `FindBalanced`. */
  method FindBalancedScan(text: string, open: char, close: char) returns (r: Option<string>)
    ensures r == FindBalanced(text, open, close)
  {
    var found := FirstIndex(text, open);
    if found.None? {
      return None;
    }
    var start := found.value;
    var i := start;
    var depth := 0;
    var inStr := false;
    var escape := false;
    while i < |text|
      invariant start <= i <= |text|
      invariant i == start ==> ScanState(depth, inStr, escape) == Initial
      invariant i > start ==>
        ScanFrom(text, open, close, i, ScanState(depth, inStr, escape)) == FindBalancedEnd(text, open, close)
      decreases |text| - i
    {
      var ch := text[i];
      if inStr {
        if escape {
          escape := false;
        } else if ch == '\\' {
          escape := true;
        } else if ch == '"' {
          inStr := false;
        }
      } else {
        if ch == '"' {
          inStr := true;
        } else if ch == open {
          depth := depth + 1;
        } else if ch == close {
          depth := depth - 1;
          if depth == 0 {
            return Some(text[start..i + 1]);
          }
        }
      }
      i := i + 1;
    }
    return None;
  }

  // ---------------------------------------------------------------- the strategy chain

  /** `t.startswith(a) and t.endswith(b)` for one-character affixes. */
  predicate Brackets(t: string, a: char, b: char) {
    |t| > 0 && t[0] == a && t[|t| - 1] == b
  }

  /** Parsing the candidate of a strategy, None when the strategy offers no candidate. */
  function TryParse(candidate: Option<string>, parse: string -> Option<Json>): Option<Json> {
    match candidate
    case None => None
    case Some(c) => parse(c)
  }

  /**
   * `safe_json_loads_any(text)`: the fenced block, then the first balanced
   * object, then the first balanced array, then the whole stripped text
   * when it is bracketed; the first candidate that parses wins. (A slice
   * from `FindBalanced` is never empty, so the source's truthiness test on
   * it is the same as its presence.)
   */
  function SafeJsonLoadsAny(text: string, parse: string -> Option<Json>, fence: string -> Option<string>): (r: Option<Json>)
    ensures text == "" ==> r.None?
    ensures text != "" && fence(text).Some? && parse(Strip(fence(text).value)).Some? ==>
      r == parse(Strip(fence(text).value))
    ensures '{' !in text && '[' !in text && fence(text).None? ==> r.None?
  {
    if text == "" then None
    else
      var fenced := TryParse(match fence(text) case Some(m) => Some(Strip(m)) case None => None, parse);
      if fenced.Some? then fenced else LoadsBracketed(text, parse)
  }

  /** Strategies 2 to 4: the first balanced object, the first balanced array, the whole stripped text. */
  function LoadsBracketed(text: string, parse: string -> Option<Json>): (r: Option<Json>)
    ensures '{' !in text && '[' !in text ==> r.None?
  {
    var obj := TryParse(FindBalanced(text, '{', '}'), parse);
    if obj.Some? then obj
    else
      var arr := TryParse(FindBalanced(text, '[', ']'), parse);
      if arr.Some? then arr else LoadsWhole(text, parse)
  }

  /** Strategy 4: the stripped text, when it starts and ends with matching brackets. */
  function LoadsWhole(text: string, parse: string -> Option<Json>): (r: Option<Json>)
    ensures '{' !in text && '[' !in text ==> r.None?
  {
    var t := Strip(text);
    assert Brackets(t, '{', '}') ==> '{' in text;
    assert Brackets(t, '[', ']') ==> '[' in text;
    var whole := if Brackets(t, '{', '}') then parse(t) else None;
    if whole.Some? then whole
    else if Brackets(t, '[', ']') then parse(t)
    else None
  }

  /** The candidate strings of the four strategies, in the order they are tried. */
  function Candidates(text: string, fence: string -> Option<string>): seq<string> {
    (match fence(text) case Some(m) => [Strip(m)] case None => []) + BracketedCandidates(text)
  }

  /** The first candidate that parses, tried in order. */
  function FirstSuccess(cands: seq<string>, parse: string -> Option<Json>): Option<Json>
    decreases |cands|
  {
    if |cands| == 0 then None
    else if parse(cands[0]).Some? then parse(cands[0])
    else FirstSuccess(cands[1..], parse)
  }

  /**
   * First success: a result exactly when some candidate parses, and then
   * it is the parse of a candidate that every earlier candidate failed.
   */
  lemma {:induction false} FirstSuccessSpec(cands: seq<string>, parse: string -> Option<Json>)
    ensures FirstSuccess(cands, parse).Some? <==> exists k :: 0 <= k < |cands| && parse(cands[k]).Some?
    ensures FirstSuccess(cands, parse).Some? ==>
      exists k :: 0 <= k < |cands| && FirstSuccess(cands, parse) == parse(cands[k])
        && forall j :: 0 <= j < k ==> parse(cands[j]).None?
    decreases |cands|
  {
    if |cands| > 0 && parse(cands[0]).None? {
      FirstSuccessSpec(cands[1..], parse);
      assert forall k :: 1 <= k < |cands| ==> cands[k] == cands[1..][k - 1];
      if FirstSuccess(cands, parse).Some? {
        var k :| 0 <= k < |cands[1..]| && FirstSuccess(cands[1..], parse) == parse(cands[1..][k])
          && forall j :: 0 <= j < k ==> parse(cands[1..][j]).None?;
        assert FirstSuccess(cands, parse) == parse(cands[k + 1]);
      }
    }
  }

  lemma {:induction false} FirstSuccessAppend(a: seq<string>, b: seq<string>, parse: string -> Option<Json>)
    ensures FirstSuccess(a + b, parse) == if FirstSuccess(a, parse).Some? then FirstSuccess(a, parse) else FirstSuccess(b, parse)
    decreases |a|
  {
    if |a| > 0 {
      assert (a + b)[0] == a[0];
      assert (a + b)[1..] == a[1..] + b;
      FirstSuccessAppend(a[1..], b, parse);
    } else {
      assert a + b == b;
    }
  }

  lemma FirstSuccessSingle(c: seq<string>, parse: string -> Option<Json>)
    requires |c| <= 1
    ensures FirstSuccess(c, parse) == if |c| == 0 then None else parse(c[0])
  {
  }

  /**
   * The source's nested chain is exactly "first success over the ordered
   * candidates": fence, object, array, whole-if-object, whole-if-array.
   */
  lemma SafeLoadsIsFirstSuccess(text: string, parse: string -> Option<Json>, fence: string -> Option<string>)
    requires text != ""
    ensures SafeJsonLoadsAny(text, parse, fence) == FirstSuccess(Candidates(text, fence), parse)
  {
    var c1 := match fence(text) case Some(m) => [Strip(m)] case None => [];
    var rest := BracketedCandidates(text);
    assert Candidates(text, fence) == c1 + rest;
    FirstSuccessSingle(c1, parse);
    FirstSuccessAppend(c1, rest, parse);
    BracketedIsFirstSuccess(text, parse);
  }

  function BracketedCandidates(text: string): seq<string> {
    (match FindBalanced(text, '{', '}') case Some(o) => [o] case None => [])
    + ((match FindBalanced(text, '[', ']') case Some(a) => [a] case None => [])
    + WholeCandidates(text))
  }

  function WholeCandidates(text: string): seq<string> {
    var t := Strip(text);
    (if Brackets(t, '{', '}') then [t] else []) + (if Brackets(t, '[', ']') then [t] else [])
  }

  lemma BracketedIsFirstSuccess(text: string, parse: string -> Option<Json>)
    ensures LoadsBracketed(text, parse) == FirstSuccess(BracketedCandidates(text), parse)
  {
    var c2 := match FindBalanced(text, '{', '}') case Some(o) => [o] case None => [];
    var c3 := match FindBalanced(text, '[', ']') case Some(a) => [a] case None => [];
    FirstSuccessSingle(c2, parse);
    FirstSuccessSingle(c3, parse);
    FirstSuccessAppend(c2, c3 + WholeCandidates(text), parse);
    FirstSuccessAppend(c3, WholeCandidates(text), parse);
    WholeIsFirstSuccess(text, parse);
  }

  lemma WholeIsFirstSuccess(text: string, parse: string -> Option<Json>)
    ensures LoadsWhole(text, parse) == FirstSuccess(WholeCandidates(text), parse)
  {
    var t := Strip(text);
    var c4: seq<string> := if Brackets(t, '{', '}') then [t] else [];
    var c5: seq<string> := if Brackets(t, '[', ']') then [t] else [];
    FirstSuccessSingle(c4, parse);
    FirstSuccessSingle(c5, parse);
    FirstSuccessAppend(c4, c5, parse);
  }

  /** Recovery fails exactly when no strategy's candidate parses. */
  lemma SafeLoadsNoneIffAllFail(text: string, parse: string -> Option<Json>, fence: string -> Option<string>)
    requires text != ""
    ensures SafeJsonLoadsAny(text, parse, fence).None? <==>
      forall k :: 0 <= k < |Candidates(text, fence)| ==> parse(Candidates(text, fence)[k]).None?
  {
    SafeLoadsIsFirstSuccess(text, parse, fence);
    FirstSuccessSpec(Candidates(text, fence), parse);
  }
}

=== FILE: normalize.dfy ===
/**
 * `normalize_and_segment` (pipeline/nodes/normalize.py): non-breaking
 * spaces become spaces, every whitespace run collapses to one space, the
 * text is split at the whitespace after a Chinese sentence mark (。！？；)
 * and the stripped sentences longer than five characters are kept.
 *
 * The two regular-expression substitutions and the split are written out
 * as the scans they perform.
 */
module Normalize {
  import opened Wrappers
  import opened Text
  import opened Schemas

  /** The sentence marks of the split's look-behind class. */
  predicate IsMark(c: char) {
    c == '。' || c == '！' || c == '？' || c == '；'
  }

  /** `s` is a finished sentence: its last character is a mark. */
  predicate EndsWithMark(s: string) {
    |s| > 0 && IsMark(s[|s| - 1])
  }

  /** No two adjacent characters are both whitespace. */
  predicate NoDoubleSpace(s: string) {
    forall k :: 0 <= k < |s| - 1 ==> !(IsSpace(s[k]) && IsSpace(s[k + 1]))
  }

  /** No mark in `s` is followed by whitespace: the split's pattern matches nowhere in it. */
  predicate NoBreak(s: string) {
    forall i :: 1 <= i < |s| ==> !(IsMark(s[i - 1]) && IsSpace(s[i]))
  }

  /** What a whitespace collapse leaves: single plain spaces only. */
  predicate Collapsed(s: string) {
    NoDoubleSpace(s) && forall k :: 0 <= k < |s| ==> IsSpace(s[k]) ==> s[k] == ' '
  }

  /** The non-whitespace characters of `s`, in order. */
  function Visible(s: string): string
    decreases |s|
  {
    if |s| == 0 then "" else (if IsSpace(s[0]) then "" else [s[0]]) + Visible(s[1..])
  }

  // ---------------------------------------------------------------- substitutions

  /** The first substitution: every U+00A0 becomes a plain space. */
  function ReplaceNbsp(s: string): (r: string)
    ensures |r| == |s|
    ensures forall k :: 0 <= k < |s| ==> r[k] == (if s[k] == '\U{00A0}' then ' ' else s[k])
  {
    if |s| == 0 then "" else [if s[0] == '\U{00A0}' then ' ' else s[0]] + ReplaceNbsp(s[1..])
  }

  /**
   * `re.sub(r"\s+", " ", text)`: each maximal whitespace run becomes one
   * space; the result starts with whitespace exactly when the text does.
   */
  function Collapse(s: string): (r: string)
    ensures |r| <= |s|
    ensures |s| > 0 ==> |r| > 0 && (IsSpace(r[0]) <==> IsSpace(s[0]))
    ensures Collapsed(r)
    decreases |s|
  {
    if |s| == 0 then ""
    else if IsSpace(s[0]) then
      var j := SkipSpaceRight(s, 0);
      var rest := Collapse(s[j..]);
      assert j < |s| ==> s[j..][0] == s[j];
      " " + rest
    else
      var rest := Collapse(s[1..]);
      [s[0]] + rest
  }

  lemma {:induction false} VisibleAppend(a: string, b: string)
    ensures Visible(a + b) == Visible(a) + Visible(b)
    decreases |a|
  {
    if |a| > 0 {
      assert (a + b)[1..] == a[1..] + b;
      VisibleAppend(a[1..], b);
    } else {
      assert a + b == b;
    }
  }

  lemma {:induction false} VisibleOfSpaces(s: string)
    requires AllSpace(s)
    ensures Visible(s) == ""
    decreases |s|
  {
    if |s| > 0 {
      VisibleOfSpaces(s[1..]);
    }
  }

  /** The collapse keeps every non-whitespace character, in order. */
  lemma {:induction false} CollapseKeepsVisible(s: string)
    ensures Visible(Collapse(s)) == Visible(s)
    decreases |s|
  {
    if |s| > 0 {
      if IsSpace(s[0]) {
        var j := SkipSpaceRight(s, 0);
        CollapseKeepsVisible(s[j..]);
        VisibleAppend(" ", Collapse(s[j..]));
        assert s == s[..j] + s[j..];
        VisibleAppend(s[..j], s[j..]);
        VisibleOfSpaces(s[..j]);
        assert Visible(" ") == "";
      } else {
        CollapseKeepsVisible(s[1..]);
        VisibleAppend([s[0]], Collapse(s[1..]));
      }
    }
  }

  /** A collapsed text is its own collapse, so collapsing is idempotent. */
  lemma {:induction false} CollapseFixpoint(s: string)
    requires Collapsed(s)
    ensures Collapse(s) == s
    decreases |s|
  {
    if |s| > 0 {
      if IsSpace(s[0]) {
        var j := SkipSpaceRight(s, 0);
        assert |s| > 1 ==> !IsSpace(s[1]);
        assert j == 1;
        CollapseFixpoint(s[1..]);
        assert s == " " + s[1..];
      } else {
        CollapseFixpoint(s[1..]);
      }
    }
  }

  /** A whitespace run at or after `i` that starts a text ends where the run ends, whatever follows it. */
  lemma {:induction false} SkipSpaceRun(w: string, b: string, i: nat)
    requires i <= |w| && AllSpace(w) && (b == "" || !IsSpace(b[0]))
    ensures SkipSpaceRight(w + b, i) == |w|
    decreases |w| - i
  {
    if i < |w| {
      SkipSpaceRun(w, b, i + 1);
    } else if b != "" {
      assert (w + b)[|w|] == b[0];
    }
  }

  /** A leading whitespace run skips to the same place when more text follows the first visible character. */
  lemma {:induction false} SkipSpacePrefix(a: string, b: string, i: nat)
    requires i < |a| && !IsSpace(a[|a| - 1])
    ensures SkipSpaceRight(a + b, i) == SkipSpaceRight(a, i) < |a|
    decreases |a| - i
  {
    assert (a + b)[i] == a[i];
    if IsSpace(a[i]) {
      SkipSpacePrefix(a, b, i + 1);
    }
  }

  /**
   * The collapse works run by run: a text cut after a visible character
   * collapses as its two parts do.
   */
  lemma {:induction false} CollapseAppend(a: string, b: string)
    requires |a| > 0 && !IsSpace(a[|a| - 1])
    ensures Collapse(a + b) == Collapse(a) + Collapse(b)
    decreases |a|
  {
    assert (a + b)[0] == a[0];
    if IsSpace(a[0]) {
      var j := SkipSpaceRight(a, 0);
      SkipSpacePrefix(a, b, 0);
      assert (a + b)[j..] == a[j..] + b;
      CollapseAppend(a[j..], b);
    } else if |a| == 1 {
      assert (a + b)[1..] == b;
      assert a[1..] == "";
    } else {
      assert (a + b)[1..] == a[1..] + b;
      CollapseAppend(a[1..], b);
    }
  }

  /** A whole whitespace run, of any length, becomes one space in place. */
  lemma CollapseRun(w: string, b: string)
    requires |w| > 0 && AllSpace(w) && (b == "" || !IsSpace(b[0]))
    ensures Collapse(w + b) == " " + Collapse(b)
  {
    assert (w + b)[0] == w[0];
    SkipSpaceRun(w, b, 0);
    assert (w + b)[|w|..] == b;
  }

  lemma CollapseIdempotent(s: string)
    ensures Collapse(Collapse(s)) == Collapse(s)
  {
    CollapseFixpoint(Collapse(s));
  }

  /** Texts with whitespace at the same positions skip the same whitespace run. */
  lemma {:induction false} SkipSameSpaces(s: string, t: string, i: nat)
    requires |s| == |t| && i <= |s|
    requires forall k :: 0 <= k < |s| ==> (IsSpace(t[k]) <==> IsSpace(s[k]))
    ensures SkipSpaceRight(t, i) == SkipSpaceRight(s, i)
    decreases |s| - i
  {
    if i < |s| && IsSpace(s[i]) {
      SkipSameSpaces(s, t, i + 1);
    }
  }

  /** The non-breaking-space substitution is subsumed: `\s` already matches U+00A0. */
  lemma {:induction false} NbspSubsumed(s: string)
    ensures Collapse(ReplaceNbsp(s)) == Collapse(s)
    decreases |s|
  {
    if |s| > 0 {
      var t := ReplaceNbsp(s);
      assert forall k :: 0 <= k < |s| ==> (IsSpace(t[k]) <==> IsSpace(s[k]));
      if IsSpace(s[0]) {
        var j := SkipSpaceRight(s, 0);
        SkipSameSpaces(s, t, 0);
        assert t[j..] == ReplaceNbsp(s[j..]);
        NbspSubsumed(s[j..]);
        assert Collapse(t) == " " + Collapse(t[j..]);
      } else {
        assert t[1..] == ReplaceNbsp(s[1..]);
        NbspSubsumed(s[1..]);
        assert Collapse(t) == [t[0]] + Collapse(t[1..]);
      }
    }
  }

  // ---------------------------------------------------------------- the split

  /** The first position at or after `i` where the split's pattern matches: whitespace right after a mark. */
  function FirstBreak(t: string, i: nat): (r: Option<nat>)
    requires 1 <= i
    ensures r.Some? ==> i <= r.value < |t| && IsMark(t[r.value - 1]) && IsSpace(t[r.value])
    ensures r.None? ==> forall k :: i <= k < |t| ==> !(IsMark(t[k - 1]) && IsSpace(t[k]))
    ensures r.Some? ==> forall k :: i <= k < r.value ==> !(IsMark(t[k - 1]) && IsSpace(t[k]))
    decreases |t| - i
  {
    if i >= |t| then None
    else if IsMark(t[i - 1]) && IsSpace(t[i]) then Some(i)
    else FirstBreak(t, i + 1)
  }

  /**
   * `re.split(r"(?<=[。！？；])\s+", text)`: the pieces between the
   * whitespace runs that follow a mark; every piece but the last ends with
   * a mark.
   */
  function SplitAtMarks(t: string): (r: seq<string>)
    ensures |r| > 0
    ensures forall k :: 0 <= k < |r| - 1 ==> EndsWithMark(r[k])
    ensures forall k :: 0 <= k < |r| ==> NoBreak(r[k])
    decreases |t|
  {
    match FirstBreak(t, 1)
    case None => [t]
    case Some(k) =>
      var j := SkipSpaceRight(t, k);
      var rest := SplitAtMarks(t[j..]);
      assert NoBreak(t[..k]) by {
        assert forall m :: 0 <= m < k ==> t[..k][m] == t[m];
      }
      assert forall m :: 1 <= m < |rest| + 1 ==> ([t[..k]] + rest)[m] == rest[m - 1];
      [t[..k]] + rest
  }

  /** On a collapsed text every separator is one space, so joining the pieces with spaces restores it. */
  lemma {:induction false} SplitAtMarksJoin(t: string)
    requires Collapsed(t)
    ensures Join(SplitAtMarks(t), " ") == t
    decreases |t|
  {
    match FirstBreak(t, 1)
    case None =>
    case Some(k) =>
      var j := SkipSpaceRight(t, k);
      assert t[k] == ' ';
      assert k + 1 < |t| ==> !IsSpace(t[k + 1]);
      assert j == k + 1;
      var rest := SplitAtMarks(t[j..]);
      assert Collapsed(t[j..]) by {
        assert forall m :: 0 <= m < |t[j..]| ==> t[j..][m] == t[j + m];
      }
      SplitAtMarksJoin(t[j..]);
      assert SplitAtMarks(t) == [t[..k]] + rest;
      assert ([t[..k]] + rest)[1..] == rest;
      assert t == t[..k] + " " + t[j..];
  }

  /** The pieces of a text without double whitespace have none either. */
  lemma {:induction false} SplitAtMarksNoDoubleSpace(t: string)
    requires NoDoubleSpace(t)
    ensures forall k :: 0 <= k < |SplitAtMarks(t)| ==> NoDoubleSpace(SplitAtMarks(t)[k])
    decreases |t|
  {
    match FirstBreak(t, 1)
    case None =>
    case Some(k) =>
      var j := SkipSpaceRight(t, k);
      var rest := SplitAtMarks(t[j..]);
      assert NoDoubleSpace(t[..k]) by {
        assert forall m :: 0 <= m < k ==> t[..k][m] == t[m];
      }
      assert NoDoubleSpace(t[j..]) by {
        assert forall m :: 0 <= m < |t[j..]| ==> t[j..][m] == t[j + m];
      }
      SplitAtMarksNoDoubleSpace(t[j..]);
      assert SplitAtMarks(t) == [t[..k]] + rest;
  }

  // ---------------------------------------------------------------- sentences

  /** `[s.strip() for s in sentences if len(s.strip()) > 5]`. */
  function KeepLong(pieces: seq<string>): (r: seq<string>)
    ensures |r| <= |pieces|
    ensures forall k :: 0 <= k < |r| ==> IsStripped(r[k]) && |r[k]| > 5
    decreases |pieces|
  {
    if |pieces| == 0 then []
    else
      var s := Strip(pieces[0]);
      (if |s| > 5 then [s] else []) + KeepLong(pieces[1..])
  }

  /** The sentences of the pieces before any cut come before those after it. */
  lemma KeepLongCut(pieces: seq<string>, i: nat)
    requires i <= |pieces|
    ensures KeepLong(pieces) == KeepLong(pieces[..i]) + KeepLong(pieces[i..])
  {
    assert pieces == pieces[..i] + pieces[i..];
    KeepLongAppend(pieces[..i], pieces[i..]);
  }

  /** One piece is kept, stripped, exactly when its stripped form is longer than five characters. */
  lemma KeepLongSingle(p: string)
    ensures KeepLong([p]) == if |Strip(p)| > 5 then [Strip(p)] else []
  {
    assert [p][1..] == [];
  }

  /** Pieces are filtered one by one, in order: the sentences of `a + b` are those of `a`, then those of `b`. */
  lemma {:induction false} KeepLongAppend(a: seq<string>, b: seq<string>)
    ensures KeepLong(a + b) == KeepLong(a) + KeepLong(b)
    decreases |a|
  {
    if |a| > 0 {
      assert (a + b)[0] == a[0];
      assert (a + b)[1..] == a[1..] + b;
      KeepLongAppend(a[1..], b);
    } else {
      assert a + b == b;
    }
  }

  /** A sentence is kept exactly when it is the stripped form, longer than five characters, of some piece. */
  lemma {:induction false} KeepLongMember(pieces: seq<string>, s: string)
    ensures s in KeepLong(pieces) <==> exists k :: 0 <= k < |pieces| && s == Strip(pieces[k]) && |s| > 5
    decreases |pieces|
  {
    if |pieces| > 0 {
      KeepLongMember(pieces[1..], s);
      assert forall k :: 0 <= k < |pieces[1..]| ==> pieces[1..][k] == pieces[k + 1];
      assert KeepLong(pieces) == (if |Strip(pieces[0])| > 5 then [Strip(pieces[0])] else []) + KeepLong(pieces[1..]);
      if s in KeepLong(pieces[1..]) {
        var k :| 0 <= k < |pieces[1..]| && s == Strip(pieces[1..][k]) && |s| > 5;
        assert s == Strip(pieces[k + 1]);
      }
    }
  }

  /** Stripping keeps a last character that is not whitespace. */
  lemma StripKeepsLast(s: string)
    requires |s| > 0 && !IsSpace(s[|s| - 1])
    ensures |Strip(s)| > 0 && Strip(s)[|Strip(s)| - 1] == s[|s| - 1]
  {
    var i := SkipSpaceRight(s, 0);
    assert i <= |s| - 1;
    assert SkipSpaceLeft(s, i, |s|) == |s|;
    assert Strip(s) == s[i..|s|];
  }

  /** A text without double whitespace keeps that property when stripped. */
  lemma StripNoDoubleSpace(s: string)
    requires NoDoubleSpace(s)
    ensures NoDoubleSpace(Strip(s))
  {
    var r := Strip(s);
    var i, j :| 0 <= i <= j <= |s| && r == s[i..j] && AllSpace(s[..i]) && AllSpace(s[j..]);
    assert forall m :: 0 <= m < |r| ==> r[m] == s[i + m];
  }

  /** Only the last kept sentence can come from the last piece, so the others end with a mark. */
  lemma {:induction false} KeepLongMarks(pieces: seq<string>)
    requires forall k :: 0 <= k < |pieces| - 1 ==> EndsWithMark(pieces[k])
    ensures forall k :: 0 <= k < |KeepLong(pieces)| - 1 ==> EndsWithMark(KeepLong(pieces)[k])
    decreases |pieces|
  {
    if |pieces| > 0 {
      var s := Strip(pieces[0]);
      var rest := KeepLong(pieces[1..]);
      assert forall k :: 0 <= k < |pieces[1..]| - 1 ==> pieces[1..][k] == pieces[k + 1];
      KeepLongMarks(pieces[1..]);
      if |s| > 5 {
        var r := [s] + rest;
        assert KeepLong(pieces) == r;
        if |rest| > 0 {
          assert |rest| <= |pieces| - 1;
          var p := pieces[0];
          assert EndsWithMark(p);
          StripKeepsLast(p);
          assert EndsWithMark(r[0]);
        }
        assert forall k :: 1 <= k < |r| ==> r[k] == rest[k - 1];
      } else {
        assert KeepLong(pieces) == rest;
      }
    }
  }

  /** Stripping cuts whitespace off the ends only, so it creates no mark followed by whitespace. */
  lemma StripNoBreak(s: string)
    requires NoBreak(s)
    ensures NoBreak(Strip(s))
  {
    var r := Strip(s);
    var i, j :| 0 <= i <= j <= |s| && r == s[i..j] && AllSpace(s[..i]) && AllSpace(s[j..]);
    assert forall m :: 0 <= m < |r| ==> r[m] == s[i + m];
  }

  lemma {:induction false} KeepLongNoBreak(pieces: seq<string>)
    requires forall k :: 0 <= k < |pieces| ==> NoBreak(pieces[k])
    ensures forall k :: 0 <= k < |KeepLong(pieces)| ==> NoBreak(KeepLong(pieces)[k])
    decreases |pieces|
  {
    if |pieces| > 0 {
      StripNoBreak(pieces[0]);
      assert forall k :: 0 <= k < |pieces[1..]| ==> pieces[1..][k] == pieces[k + 1];
      KeepLongNoBreak(pieces[1..]);
    }
  }

  lemma {:induction false} KeepLongNoDoubleSpace(pieces: seq<string>)
    requires forall k :: 0 <= k < |pieces| ==> NoDoubleSpace(pieces[k])
    ensures forall k :: 0 <= k < |KeepLong(pieces)| ==> NoDoubleSpace(KeepLong(pieces)[k])
    decreases |pieces|
  {
    if |pieces| > 0 {
      StripNoDoubleSpace(pieces[0]);
      assert forall k :: 0 <= k < |pieces[1..]| ==> pieces[1..][k] == pieces[k + 1];
      KeepLongNoDoubleSpace(pieces[1..]);
    }
  }

  /** `normalize_and_segment(doc)`. */
  function NormalizeAndSegment(doc: Document): seq<string> {
    KeepLong(SplitAtMarks(Collapse(ReplaceNbsp(doc.text))))
  }

  /**
   * Every sentence is stripped, longer than five characters, free of
   * double whitespace and split at every mark followed by whitespace, so no
   * mark inside it is followed by whitespace; every sentence but the last
   * ends with a mark.
   */
  lemma NormalizeAndSegmentSpec(doc: Document)
    ensures var r := NormalizeAndSegment(doc);
      && (forall k :: 0 <= k < |r| ==> IsStripped(r[k]) && |r[k]| > 5 && NoDoubleSpace(r[k]))
      && (forall k :: 0 <= k < |r| ==> NoBreak(r[k]))
      && (forall k :: 0 <= k < |r| - 1 ==> EndsWithMark(r[k]))
  {
    var t := Collapse(ReplaceNbsp(doc.text));
    var pieces := SplitAtMarks(t);
    SplitAtMarksNoDoubleSpace(t);
    KeepLongNoDoubleSpace(pieces);
    KeepLongNoBreak(pieces);
    KeepLongMarks(pieces);
  }

  /**
   * No sentence is lost or invented: a sentence is returned exactly when it
   * is the stripped form, longer than five characters, of a piece of the
   * collapsed text.
   */
  lemma NormalizeAndSegmentKeeps(doc: Document)
    ensures var pieces := SplitAtMarks(Collapse(doc.text));
      forall s :: s in NormalizeAndSegment(doc) <==> exists k :: 0 <= k < |pieces| && s == Strip(pieces[k]) && |s| > 5
  {
    NbspSubsumed(doc.text);
    var pieces := SplitAtMarks(Collapse(doc.text));
    forall s ensures s in NormalizeAndSegment(doc) <==> exists k :: 0 <= k < |pieces| && s == Strip(pieces[k]) && |s| > 5 {
      KeepLongMember(pieces, s);
    }
  }

  /**
   * Sentences keep source order: for every cut of the pieces of the
   * collapsed text, the sentences of the pieces before the cut come first.
   */
  lemma NormalizeAndSegmentOrder(doc: Document, i: nat)
    requires i <= |SplitAtMarks(Collapse(doc.text))|
    ensures var pieces := SplitAtMarks(Collapse(doc.text));
      NormalizeAndSegment(doc) == KeepLong(pieces[..i]) + KeepLong(pieces[i..])
  {
    NbspSubsumed(doc.text);
    KeepLongCut(SplitAtMarks(Collapse(doc.text)), i);
  }

  /** The pieces before filtering are the collapsed text, in order: joined with spaces they give it back. */
  lemma PiecesRestoreText(doc: Document)
    ensures Join(SplitAtMarks(Collapse(ReplaceNbsp(doc.text))), " ") == Collapse(doc.text)
  {
    NbspSubsumed(doc.text);
    SplitAtMarksJoin(Collapse(doc.text));
  }
}

=== FILE: quality.dfy ===
/**
 * The last two stages of the pipeline (pipeline/nodes/quality.py): the
 * quality gate keeps the cards that score high enough and have both a
 * question and an answer, and the greedy deduplication keeps a card unless
 * it is too similar to a card already kept. The orchestrator applies them
 * in that order (pipeline/graph.py).
 *
 * `fuzz.token_set_ratio` is the oracle `sim`, a deterministic score in
 * `[0, 100]`; nothing else is assumed about it (not even symmetry).
 */
module Quality {
  import opened Schemas

  /** The range of `token_set_ratio`. */
  type Ratio = r: real | 0.0 <= r <= 100.0

  // ---------------------------------------------------------------- subsequences

  /** `a` is an order-preserving subsequence of `b`, matched from the end. */
  predicate Sub<T(==)>(a: seq<T>, b: seq<T>)
    decreases |b|
  {
    if |a| == 0 then true
    else if |b| == 0 then false
    else (a[|a| - 1] == b[|b| - 1] && Sub(a[..|a| - 1], b[..|b| - 1])) || Sub(a, b[..|b| - 1])
  }

  lemma {:induction false} SubRefl<T>(a: seq<T>)
    ensures Sub(a, a)
    decreases |a|
  {
    if |a| > 0 {
      SubRefl(a[..|a| - 1]);
    }
  }

  lemma {:induction false} SubLength<T>(a: seq<T>, b: seq<T>)
    requires Sub(a, b)
    ensures |a| <= |b|
    decreases |b|
  {
    if |a| > 0 {
      if a[|a| - 1] == b[|b| - 1] && Sub(a[..|a| - 1], b[..|b| - 1]) {
        SubLength(a[..|a| - 1], b[..|b| - 1]);
      } else {
        SubLength(a, b[..|b| - 1]);
      }
    }
  }

  /** Every element of a subsequence is an element of the sequence. */
  lemma {:induction false} SubMembers<T>(a: seq<T>, b: seq<T>)
    requires Sub(a, b)
    ensures forall x :: x in a ==> x in b
    decreases |b|
  {
    if |a| > 0 {
      if a[|a| - 1] == b[|b| - 1] && Sub(a[..|a| - 1], b[..|b| - 1]) {
        SubMembers(a[..|a| - 1], b[..|b| - 1]);
        assert forall x :: x in a ==> x in a[..|a| - 1] || x == a[|a| - 1];
      } else {
        SubMembers(a, b[..|b| - 1]);
      }
    }
  }

  /** A subsequence of a subsequence is a subsequence. */
  lemma {:induction false} SubTrans<T>(a: seq<T>, b: seq<T>, c: seq<T>)
    requires Sub(a, b) && Sub(b, c)
    ensures Sub(a, c)
    decreases |c|
  {
    if |a| > 0 {
      SubLength(a, b);
      SubLength(b, c);
      var c' := c[..|c| - 1];
      if b[|b| - 1] == c[|c| - 1] && Sub(b[..|b| - 1], c') {
        var b' := b[..|b| - 1];
        if a[|a| - 1] == b[|b| - 1] && Sub(a[..|a| - 1], b') {
          SubTrans(a[..|a| - 1], b', c');
        } else {
          SubTrans(a, b', c');
        }
      } else {
        SubTrans(a, b, c');
      }
    }
  }

  // ---------------------------------------------------------------- the quality gate

  /** The condition of the comprehension in `quality_gate`. */
  predicate Passes(c: Card, minQuality: real) {
    c.quality >= minQuality && c.question != "" && c.answer != ""
  }

  /** `quality_gate(cards, min_quality)`: the cards that pass, in order. */
  function QualityGate(cards: seq<Card>, minQuality: real): (r: seq<Card>)
    ensures forall c :: c in r <==> c in cards && Passes(c, minQuality)
    ensures |r| <= |cards|
    decreases |cards|
  {
    if |cards| == 0 then []
    else
      var prefix := cards[..|cards| - 1];
      var c := cards[|cards| - 1];
      assert forall x :: x in cards <==> x in prefix || x == c;
      QualityGate(prefix, minQuality) + (if Passes(c, minQuality) then [c] else [])
  }

  /** The gate keeps the order of the cards it lets through. */
  lemma {:induction false} QualityGateSub(cards: seq<Card>, minQuality: real)
    ensures Sub(QualityGate(cards, minQuality), cards)
    decreases |cards|
  {
    if |cards| > 0 {
      var prefix := cards[..|cards| - 1];
      var g := QualityGate(prefix, minQuality);
      QualityGateSub(prefix, minQuality);
      var c := cards[|cards| - 1];
      if Passes(c, minQuality) {
        var r := g + [c];
        assert r[|r| - 1] == c && r[..|r| - 1] == g;
      } else {
        assert g + [] == g;
      }
    }
  }

  /** The gate lets everything through that already passed it. */
  lemma {:induction false} QualityGateAllPass(cards: seq<Card>, minQuality: real)
    requires forall k :: 0 <= k < |cards| ==> Passes(cards[k], minQuality)
    ensures QualityGate(cards, minQuality) == cards
    decreases |cards|
  {
    if |cards| > 0 {
      QualityGateAllPass(cards[..|cards| - 1], minQuality);
    }
  }

  /** Gating twice with the same threshold is gating once. */
  lemma QualityGateIdempotent(cards: seq<Card>, minQuality: real)
    ensures QualityGate(QualityGate(cards, minQuality), minQuality) == QualityGate(cards, minQuality)
  {
    var g := QualityGate(cards, minQuality);
    assert forall k :: 0 <= k < |g| ==> g[k] in g;
    QualityGateAllPass(g, minQuality);
  }

  /** A stricter gate keeps exactly what it keeps of the laxer gate's output, so never more. */
  lemma {:induction false} QualityGateMonotone(cards: seq<Card>, lax: real, strict: real)
    requires lax <= strict
    ensures QualityGate(QualityGate(cards, lax), strict) == QualityGate(cards, strict)
    ensures |QualityGate(cards, strict)| <= |QualityGate(cards, lax)|
    decreases |cards|
  {
    if |cards| > 0 {
      var prefix := cards[..|cards| - 1];
      var c := cards[|cards| - 1];
      var g := QualityGate(prefix, lax);
      QualityGateMonotone(prefix, lax, strict);
      var tail := if Passes(c, lax) then [c] else [];
      assert QualityGate(cards, lax) == g + tail;
      QualityGateAppend(g, tail, strict);
      if Passes(c, lax) {
        QualityGateAppend([], [c], strict);
      }
    }
  }

  /** The gate works card by card: gating `a + b` gates `a`, then `b`. */
  lemma {:induction false} QualityGateAppend(a: seq<Card>, b: seq<Card>, minQuality: real)
    ensures QualityGate(a + b, minQuality) == QualityGate(a, minQuality) + QualityGate(b, minQuality)
    decreases |b|
  {
    if |b| == 0 {
      assert a + b == a;
    } else {
      var b' := b[..|b| - 1];
      assert (a + b)[..|a + b| - 1] == a + b';
      QualityGateAppend(a, b', minQuality);
    }
  }

  // ---------------------------------------------------------------- greedy deduplication

  /** `max(q_sim, a_sim) >= threshold`: `c` duplicates the kept card `k`. */
  predicate IsDup(c: Card, k: Card, threshold: real, sim: (string, string) -> Ratio) {
    var qSim := sim(c.question, k.question) / 100.0;
    var aSim := sim(c.answer, k.answer) / 100.0;
    (if qSim >= aSim then qSim else aSim) >= threshold
  }

  /** The inner loop: some kept card is duplicated by `c` (the `break` stops at the first). */
  predicate AnyDup(c: Card, kept: seq<Card>, threshold: real, sim: (string, string) -> Ratio)
    decreases |kept|
  {
    |kept| > 0 && (IsDup(c, kept[0], threshold, sim) || AnyDup(c, kept[1..], threshold, sim))
  }

  /** The inner loop finds a duplicate exactly when one exists. */
  lemma {:induction false} AnyDupExists(c: Card, kept: seq<Card>, threshold: real, sim: (string, string) -> Ratio)
    ensures AnyDup(c, kept, threshold, sim) <==> exists j :: 0 <= j < |kept| && IsDup(c, kept[j], threshold, sim)
    decreases |kept|
  {
    if |kept| > 0 {
      AnyDupExists(c, kept[1..], threshold, sim);
      if exists j :: 0 <= j < |kept| && IsDup(c, kept[j], threshold, sim) {
        var j :| 0 <= j < |kept| && IsDup(c, kept[j], threshold, sim);
        if j > 0 {
          assert kept[1..][j - 1] == kept[j];
        }
      }
      if AnyDup(c, kept[1..], threshold, sim) {
        var j :| 0 <= j < |kept[1..]| && IsDup(c, kept[1..][j], threshold, sim);
        assert kept[1..][j] == kept[j + 1];
      }
    }
  }

  /**
   * `deduplicate_cards(cards, threshold)`: `kept` after the loop has seen
   * `cards`; the last card is appended unless it duplicates a kept card.
   */
  function Dedup(cards: seq<Card>, threshold: real, sim: (string, string) -> Ratio): (r: seq<Card>)
    ensures |r| <= |cards|
    decreases |cards|
  {
    if |cards| == 0 then []
    else
      var kept := Dedup(cards[..|cards| - 1], threshold, sim);
      var c := cards[|cards| - 1];
      if AnyDup(c, kept, threshold, sim) then kept else kept + [c]
  }

  /** No card of `s` duplicates a card before it. */
  predicate NoLaterDup(s: seq<Card>, threshold: real, sim: (string, string) -> Ratio) {
    forall i, j :: 0 <= i < j < |s| ==> !IsDup(s[j], s[i], threshold, sim)
  }

  /** Deduplication keeps the order of the cards it keeps. */
  lemma {:induction false} DedupSub(cards: seq<Card>, threshold: real, sim: (string, string) -> Ratio)
    ensures Sub(Dedup(cards, threshold, sim), cards)
    decreases |cards|
  {
    if |cards| > 0 {
      var prefix := cards[..|cards| - 1];
      var kept := Dedup(prefix, threshold, sim);
      DedupSub(prefix, threshold, sim);
      if !AnyDup(cards[|cards| - 1], kept, threshold, sim) {
        assert (kept + [cards[|cards| - 1]])[..|kept|] == kept;
      }
    }
  }

  /** The kept list only grows: what is kept after a prefix is a prefix of the final result. */
  lemma {:induction false} DedupGrows(cards: seq<Card>, n: nat, threshold: real, sim: (string, string) -> Ratio)
    requires n <= |cards|
    ensures var early := Dedup(cards[..n], threshold, sim);
      |early| <= |Dedup(cards, threshold, sim)| && Dedup(cards, threshold, sim)[..|early|] == early
    decreases |cards|
  {
    if n == |cards| {
      assert cards[..n] == cards;
    } else {
      var prefix := cards[..|cards| - 1];
      assert cards[..n] == prefix[..n];
      DedupGrows(prefix, n, threshold, sim);
    }
  }

  /** The first card is always kept, and stays first. */
  lemma {:induction false} DedupKeepsFirst(cards: seq<Card>, threshold: real, sim: (string, string) -> Ratio)
    requires |cards| > 0
    ensures |Dedup(cards, threshold, sim)| > 0 && Dedup(cards, threshold, sim)[0] == cards[0]
  {
    DedupGrows(cards, 1, threshold, sim);
    assert cards[..1][..0] == [];
  }

  /** For any two kept cards, the later one's question and answer similarities to the earlier are both below the threshold. */
  lemma {:induction false} DedupNoLaterDup(cards: seq<Card>, threshold: real, sim: (string, string) -> Ratio)
    ensures NoLaterDup(Dedup(cards, threshold, sim), threshold, sim)
    decreases |cards|
  {
    if |cards| > 0 {
      var prefix := cards[..|cards| - 1];
      var kept := Dedup(prefix, threshold, sim);
      var c := cards[|cards| - 1];
      DedupNoLaterDup(prefix, threshold, sim);
      AnyDupExists(c, kept, threshold, sim);
      if !AnyDup(c, kept, threshold, sim) {
        var r := kept + [c];
        forall i, j | 0 <= i < j < |r| ensures !IsDup(r[j], r[i], threshold, sim) {
          if j < |kept| {
            assert r[j] == kept[j] && r[i] == kept[i];
          } else {
            assert r[j] == c && r[i] == kept[i];
          }
        }
      }
    }
  }

  /** Below the threshold means both similarities are below it. */
  lemma NotDupBothBelow(c: Card, k: Card, threshold: real, sim: (string, string) -> Ratio)
    requires !IsDup(c, k, threshold, sim)
    ensures sim(c.question, k.question) / 100.0 < threshold && sim(c.answer, k.answer) / 100.0 < threshold
  {
  }

  /** A list without later duplicates is its own deduplication. */
  lemma {:induction false} DedupOfNoLaterDup(s: seq<Card>, threshold: real, sim: (string, string) -> Ratio)
    requires NoLaterDup(s, threshold, sim)
    ensures Dedup(s, threshold, sim) == s
    decreases |s|
  {
    if |s| > 0 {
      var prefix := s[..|s| - 1];
      assert NoLaterDup(prefix, threshold, sim) by {
        forall i, j | 0 <= i < j < |prefix| ensures !IsDup(prefix[j], prefix[i], threshold, sim) {
          assert prefix[j] == s[j] && prefix[i] == s[i];
        }
      }
      DedupOfNoLaterDup(prefix, threshold, sim);
      var c := s[|s| - 1];
      AnyDupExists(c, prefix, threshold, sim);
      forall j | 0 <= j < |prefix| ensures !IsDup(c, prefix[j], threshold, sim) {
        assert prefix[j] == s[j];
      }
      assert prefix + [c] == s;
    }
  }

  /** Deduplicating twice with the same threshold is deduplicating once. */
  lemma DedupIdempotent(cards: seq<Card>, threshold: real, sim: (string, string) -> Ratio)
    ensures Dedup(Dedup(cards, threshold, sim), threshold, sim) == Dedup(cards, threshold, sim)
  {
    DedupNoLaterDup(cards, threshold, sim);
    DedupOfNoLaterDup(Dedup(cards, threshold, sim), threshold, sim);
  }

  /** Every input card is kept or duplicates a card that is kept. */
  lemma {:induction false} DedupComplete(cards: seq<Card>, threshold: real, sim: (string, string) -> Ratio)
    ensures var r := Dedup(cards, threshold, sim);
      forall i :: 0 <= i < |cards| ==> cards[i] in r || exists k :: k in r && IsDup(cards[i], k, threshold, sim)
    decreases |cards|
  {
    if |cards| > 0 {
      var prefix := cards[..|cards| - 1];
      var kept := Dedup(prefix, threshold, sim);
      var r := Dedup(cards, threshold, sim);
      var c := cards[|cards| - 1];
      DedupComplete(prefix, threshold, sim);
      AnyDupExists(c, kept, threshold, sim);
      assert forall k :: k in kept ==> k in r;
      forall i | 0 <= i < |cards|
        ensures cards[i] in r || exists k :: k in r && IsDup(cards[i], k, threshold, sim)
      {
        if i < |prefix| {
          assert cards[i] == prefix[i];
          if cards[i] !in kept {
            var k :| k in kept && IsDup(prefix[i], k, threshold, sim);
            assert k in r;
          }
        } else if AnyDup(c, kept, threshold, sim) {
          var j :| 0 <= j < |kept| && IsDup(c, kept[j], threshold, sim);
          assert kept[j] in r;
        }
      }
    }
  }

  /** A card is dropped exactly when it duplicates a card kept before it (equality counts). */
  lemma DedupDropIff(cards: seq<Card>, c: Card, threshold: real, sim: (string, string) -> Ratio)
    ensures var kept := Dedup(cards, threshold, sim);
      && (Dedup(cards + [c], threshold, sim) == kept <==> exists j :: 0 <= j < |kept| && IsDup(c, kept[j], threshold, sim))
      && (Dedup(cards + [c], threshold, sim) == kept + [c] <==> !exists j :: 0 <= j < |kept| && IsDup(c, kept[j], threshold, sim))
  {
    var kept := Dedup(cards, threshold, sim);
    assert (cards + [c])[..|cards|] == cards;
    AnyDupExists(c, kept, threshold, sim);
    assert kept != kept + [c] by {
      assert |kept + [c]| == |kept| + 1;
    }
  }

  // ---------------------------------------------------------------- both stages

  /** The orchestrator's final step: the gate, then deduplication. */
  function Finalize(cards: seq<Card>, minQuality: real, threshold: real, sim: (string, string) -> Ratio): seq<Card> {
    Dedup(QualityGate(cards, minQuality), threshold, sim)
  }

  /**
   * The final cards are an order-preserving subsequence of the generated
   * ones, all pass the gate, and no card duplicates an earlier one.
   */
  lemma FinalizeSpec(cards: seq<Card>, minQuality: real, threshold: real, sim: (string, string) -> Ratio)
    ensures var r := Finalize(cards, minQuality, threshold, sim);
      && Sub(r, cards)
      && (forall c :: c in r ==> c in cards && Passes(c, minQuality))
      && NoLaterDup(r, threshold, sim)
  {
    var g := QualityGate(cards, minQuality);
    var r := Dedup(g, threshold, sim);
    QualityGateSub(cards, minQuality);
    DedupSub(g, threshold, sim);
    SubTrans(r, g, cards);
    SubMembers(r, g);
    DedupNoLaterDup(g, threshold, sim);
  }
}

=== FILE: schemas.dfy ===
/**
 * The pipeline's records (models/schemas.py) and the way pydantic builds
 * them from keyword arguments or a decoded dict: `Model(**fields)`.
 *
 * Validation is pydantic's default (lax) mode on JSON values: a `str`
 * field takes only a string, an `Optional[...]` field also takes null or
 * an absent key, a `Literal[...]` field takes exactly one of its strings,
 * `int` and `float` fields take numbers, bools and numeric strings as the
 * Coerce module describes, and keys the model does not declare are
 * ignored.
 */
module Schemas {
  import opened Wrappers
  import opened Json
  import opened Coerce

  // ---------------------------------------------------------------- field validators

  /** An `Optional[str]` field: absent or null gives None, a string gives it, anything else fails. */
  function OptionalStr(m: map<string, Json>, key: string): Option<Option<string>> {
    if key !in m then Some(None)
    else match m[key]
      case JNull => Some(None)
      case JStr(s) => Some(Some(s))
      case _ => None
  }

  /** A required `str` field. */
  function RequiredStr(m: map<string, Json>, key: string): Option<string> {
    if key in m && m[key].JStr? then Some(m[key].s) else None
  }

  /** A `List[str]`: every element a string. */
  function Strs(xs: seq<Json>): (r: Option<seq<string>>)
    ensures r.Some? <==> forall k :: 0 <= k < |xs| ==> xs[k].JStr?
    ensures r.Some? ==> |r.value| == |xs| && forall k :: 0 <= k < |xs| ==> xs[k] == JStr(r.value[k])
  {
    if |xs| == 0 then Some([])
    else if !xs[0].JStr? then None
    else match Strs(xs[1..])
      case None => None
      case Some(rest) => Some([xs[0].s] + rest)
  }

  /** A `List[int]`: every element coerced to an int. */
  function Ints(xs: seq<Json>): (r: Option<seq<int>>)
    ensures r.Some? <==> forall k :: 0 <= k < |xs| ==> LaxInt(xs[k]).Some?
    ensures r.Some? ==> |r.value| == |xs| && forall k :: 0 <= k < |xs| ==> LaxInt(xs[k]) == Some(r.value[k])
  {
    if |xs| == 0 then Some([])
    else match (LaxInt(xs[0]), Ints(xs[1..]))
      case (Some(n), Some(rest)) => Some([n] + rest)
      case _ => None
  }

  function OptionalStrs(m: map<string, Json>, key: string): Option<Option<seq<string>>> {
    if key !in m then Some(None)
    else match m[key]
      case JNull => Some(None)
      case JArr(xs) => (match Strs(xs) case Some(ss) => Some(Some(ss)) case None => None)
      case _ => None
  }

  function OptionalInts(m: map<string, Json>, key: string): Option<Option<seq<int>>> {
    if key !in m then Some(None)
    else match m[key]
      case JNull => Some(None)
      case JArr(xs) => (match Ints(xs) case Some(ns) => Some(Some(ns)) case None => None)
      case _ => None
  }

  function StrsToJson(ss: seq<string>): (r: seq<Json>)
    ensures Strs(r) == Some(ss)
  {
    if |ss| == 0 then []
    else
      var r := [JStr(ss[0])] + StrsToJson(ss[1..]);
      assert r[1..] == StrsToJson(ss[1..]);
      assert [ss[0]] + ss[1..] == ss;
      r
  }

  function IntsToJson(ns: seq<int>): (r: seq<Json>)
    ensures Ints(r) == Some(ns)
  {
    if |ns| == 0 then []
    else
      var r := [JNum(ns[0] as real)] + IntsToJson(ns[1..]);
      assert r[1..] == IntsToJson(ns[1..]);
      assert [ns[0]] + ns[1..] == ns;
      r
  }

  function OptStrToJson(v: Option<string>): Json {
    match v case None => JNull case Some(s) => JStr(s)
  }

  // ---------------------------------------------------------------- Document

  /** A loaded source document; `pages` defaults to 0. */
  datatype Document = Document(name: string, path: string, text: string, pages: int)

  function DocumentFromJson(m: map<string, Json>): (r: Option<Document>)
    ensures r.Some? <==>
      && RequiredStr(m, "name").Some? && RequiredStr(m, "path").Some? && RequiredStr(m, "text").Some?
      && ("pages" !in m || LaxInt(m["pages"]).Some?)
    ensures r.Some? ==> m["name"] == JStr(r.value.name) && m["path"] == JStr(r.value.path) && m["text"] == JStr(r.value.text)
    ensures r.Some? && "pages" !in m ==> r.value.pages == 0
    ensures r.Some? && "pages" in m ==> LaxInt(m["pages"]) == Some(r.value.pages)
  {
    var pages := if "pages" !in m then Some(0) else LaxInt(m["pages"]);
    match (RequiredStr(m, "name"), RequiredStr(m, "path"), RequiredStr(m, "text"), pages)
    case (Some(name), Some(path), Some(text), Some(p)) => Some(Document(name, path, text, p))
    case _ => None
  }

  function DocumentToJson(d: Document): map<string, Json> {
    map["name" := JStr(d.name), "path" := JStr(d.path), "text" := JStr(d.text), "pages" := JNum(d.pages as real)]
  }

  /** Dumping a document and validating the dump gives the document back. */
  lemma DocumentRoundTrip(d: Document)
    ensures DocumentFromJson(DocumentToJson(d)) == Some(d)
  {
  }

  // ---------------------------------------------------------------- ExtractedItem

  datatype ItemType = Statute | JudicialInterpretation | Case | KeywordHit | RawText

  function ItemTypeName(t: ItemType): string {
    match t
    case Statute => "Statute"
    case JudicialInterpretation => "JudicialInterpretation"
    case Case => "Case"
    case KeywordHit => "KeywordHit"
    case RawText => "RawText"
  }

  /** The `Literal[...]` check of `ExtractedItem.type`: exactly the five names are accepted. */
  function ItemTypeFromName(s: string): (r: Option<ItemType>)
    ensures r.Some? ==> ItemTypeName(r.value) == s
    ensures r.None? ==> forall t: ItemType :: ItemTypeName(t) != s
  {
    if s == "Statute" then Some(Statute)
    else if s == "JudicialInterpretation" then Some(JudicialInterpretation)
    else if s == "Case" then Some(Case)
    else if s == "KeywordHit" then Some(KeywordHit)
    else if s == "RawText" then Some(RawText)
    else None
  }

  /** Every item type's name is accepted back as that type. */
  lemma ItemTypeRoundTrip(t: ItemType)
    ensures ItemTypeFromName(ItemTypeName(t)) == Some(t)
  {
  }

  datatype ExtractedItem = ExtractedItem(
    kind: ItemType,
    title: Option<string>,
    articleNo: Option<string>,
    source: Option<string>,
    section: Option<string>,
    caseName: Option<string>,
    court: Option<string>,
    judgmentDate: Option<string>,
    docketNo: Option<string>,
    holding: Option<string>,
    reasoning: Option<string>,
    text: Option<string>,
    pageRange: Option<seq<int>>,
    charSpan: Option<seq<int>>,
    keywordsHit: Option<seq<string>>,
    docName: Option<string>)

  /** An item of the given type with every optional field left at its default, None. */
  function BareItem(kind: ItemType): ExtractedItem {
    ExtractedItem(kind, None, None, None, None, None, None, None, None, None, None, None, None, None, None, None)
  }

  /** The dict `m` holds the value `v` of an `Optional[str]` field. */
  predicate StrFieldHolds(m: map<string, Json>, key: string, v: Option<string>) {
    match v
    case None => key !in m || m[key] == JNull
    case Some(s) => key in m && m[key] == JStr(s)
  }

  /** The dict `m` holds every `Optional[str]` field of `it`. */
  predicate ItemStrFieldsHold(m: map<string, Json>, it: ExtractedItem) {
    && StrFieldHolds(m, "title", it.title) && StrFieldHolds(m, "articleNo", it.articleNo)
    && StrFieldHolds(m, "source", it.source) && StrFieldHolds(m, "section", it.section)
    && StrFieldHolds(m, "caseName", it.caseName) && StrFieldHolds(m, "court", it.court)
    && StrFieldHolds(m, "judgmentDate", it.judgmentDate) && StrFieldHolds(m, "docketNo", it.docketNo)
    && StrFieldHolds(m, "holding", it.holding) && StrFieldHolds(m, "reasoning", it.reasoning)
    && StrFieldHolds(m, "text", it.text) && StrFieldHolds(m, "docName", it.docName)
  }

  /** `ExtractedItem(**m)` succeeds exactly for dicts of this shape. */
  predicate ItemShape(m: map<string, Json>) {
    && "type" in m && m["type"].JStr? && ItemTypeFromName(m["type"].s).Some?
    && OptionalStr(m, "title").Some? && OptionalStr(m, "articleNo").Some? && OptionalStr(m, "source").Some?
    && OptionalStr(m, "section").Some? && OptionalStr(m, "caseName").Some? && OptionalStr(m, "court").Some?
    && OptionalStr(m, "judgmentDate").Some? && OptionalStr(m, "docketNo").Some? && OptionalStr(m, "holding").Some?
    && OptionalStr(m, "reasoning").Some? && OptionalStr(m, "text").Some? && OptionalStr(m, "docName").Some?
    && OptionalInts(m, "pageRange").Some?
    && OptionalInts(m, "charSpan").Some?
    && OptionalStrs(m, "keywordsHit").Some?
  }

  /** `ExtractedItem(**m)`: None when pydantic would raise a validation error. */
  function ItemFromJson(m: map<string, Json>): (r: Option<ExtractedItem>)
    ensures r.Some? <==> ItemShape(m)
    ensures r.Some? ==> m["type"] == JStr(ItemTypeName(r.value.kind))
    ensures r.Some? ==> ItemStrFieldsHold(m, r.value)
    ensures r.Some? ==> Some(r.value.keywordsHit) == OptionalStrs(m, "keywordsHit")
    ensures r.Some? ==> Some(r.value.pageRange) == OptionalInts(m, "pageRange") && Some(r.value.charSpan) == OptionalInts(m, "charSpan")
  {
    if !("type" in m && m["type"].JStr?) then None
    else match (ItemTypeFromName(m["type"].s), OptionalStr(m, "title"), OptionalStr(m, "articleNo"),
                OptionalStr(m, "source"), OptionalStr(m, "section"), OptionalStr(m, "caseName"),
                OptionalStr(m, "court"), OptionalStr(m, "judgmentDate"), OptionalStr(m, "docketNo"))
      case (Some(kind), Some(title), Some(articleNo), Some(source), Some(section), Some(caseName),
            Some(court), Some(judgmentDate), Some(docketNo)) =>
        (match (OptionalStr(m, "holding"), OptionalStr(m, "reasoning"), OptionalStr(m, "text"),
                OptionalInts(m, "pageRange"), OptionalInts(m, "charSpan"), OptionalStrs(m, "keywordsHit"),
                OptionalStr(m, "docName"))
          case (Some(holding), Some(reasoning), Some(text), Some(pageRange), Some(charSpan),
                Some(keywordsHit), Some(docName)) =>
            Some(ExtractedItem(kind, title, articleNo, source, section, caseName, court, judgmentDate,
                               docketNo, holding, reasoning, text, pageRange, charSpan, keywordsHit, docName))
          case _ => None)
      case _ => None
  }

  /** `item.model_dump()`: every field present, None dumped as null. */
  function ItemToJson(it: ExtractedItem): map<string, Json> {
    map[
      "type" := JStr(ItemTypeName(it.kind)),
      "title" := OptStrToJson(it.title),
      "articleNo" := OptStrToJson(it.articleNo),
      "source" := OptStrToJson(it.source),
      "section" := OptStrToJson(it.section),
      "caseName" := OptStrToJson(it.caseName),
      "court" := OptStrToJson(it.court),
      "judgmentDate" := OptStrToJson(it.judgmentDate),
      "docketNo" := OptStrToJson(it.docketNo),
      "holding" := OptStrToJson(it.holding),
      "reasoning" := OptStrToJson(it.reasoning),
      "text" := OptStrToJson(it.text),
      "pageRange" := (match it.pageRange case None => JNull case Some(ns) => JArr(IntsToJson(ns))),
      "charSpan" := (match it.charSpan case None => JNull case Some(ns) => JArr(IntsToJson(ns))),
      "keywordsHit" := (match it.keywordsHit case None => JNull case Some(ss) => JArr(StrsToJson(ss))),
      "docName" := OptStrToJson(it.docName)
    ]
  }

  /** Dumping an item and validating the dump gives the item back. */
  lemma ItemRoundTrip(it: ExtractedItem)
    ensures ItemFromJson(ItemToJson(it)) == Some(it)
  {
    ItemDump0(it);
    ItemDump1(it);
    ItemDump2(it);
    ItemDump3(it);
    ItemDump4(it);
    ItemDump5(it);
    ItemDump6(it);
    ItemDump7(it);
    ItemTypeRoundTrip(it.kind);
    assert ItemTypeFromName(ItemToJson(it)["type"].s) == Some(it.kind);
  }

  lemma ItemDump0(it: ExtractedItem)
    ensures var m := ItemToJson(it);
      && m["type"] == JStr(ItemTypeName(it.kind))
      && OptionalStr(m, "title") == Some(it.title)
  {
  }

  lemma ItemDump1(it: ExtractedItem)
    ensures var m := ItemToJson(it);
      && OptionalStr(m, "articleNo") == Some(it.articleNo)
      && OptionalStr(m, "source") == Some(it.source)
  {
  }

  lemma ItemDump2(it: ExtractedItem)
    ensures var m := ItemToJson(it);
      && OptionalStr(m, "section") == Some(it.section)
      && OptionalStr(m, "caseName") == Some(it.caseName)
  {
  }

  lemma ItemDump3(it: ExtractedItem)
    ensures var m := ItemToJson(it);
      && OptionalStr(m, "court") == Some(it.court)
      && OptionalStr(m, "judgmentDate") == Some(it.judgmentDate)
  {
  }

  lemma ItemDump4(it: ExtractedItem)
    ensures var m := ItemToJson(it);
      && OptionalStr(m, "docketNo") == Some(it.docketNo)
      && OptionalStr(m, "holding") == Some(it.holding)
  {
  }

  lemma ItemDump5(it: ExtractedItem)
    ensures var m := ItemToJson(it);
      && OptionalStr(m, "reasoning") == Some(it.reasoning)
      && OptionalStr(m, "text") == Some(it.text)
  {
  }

  lemma ItemDump6(it: ExtractedItem)
    ensures var m := ItemToJson(it);
      && OptionalStr(m, "docName") == Some(it.docName)
      && OptionalInts(m, "pageRange") == Some(it.pageRange)
  {
  }

  lemma ItemDump7(it: ExtractedItem)
    ensures var m := ItemToJson(it);
      && OptionalInts(m, "charSpan") == Some(it.charSpan)
      && OptionalStrs(m, "keywordsHit") == Some(it.keywordsHit)
  {
  }

  /** Only `type` is required: every other field defaults to None. */
  lemma ItemDefaults(t: ItemType)
    ensures ItemFromJson(map["type" := JStr(ItemTypeName(t))]) == Some(BareItem(t))
  {
  }

  /** A dict without a valid `type` is rejected, whatever else it holds. */
  lemma ItemNeedsType(m: map<string, Json>)
    requires "type" !in m || !m["type"].JStr? || m["type"].s !in ["Statute", "JudicialInterpretation", "Case", "KeywordHit", "RawText"]
    ensures ItemFromJson(m) == None
  {
  }

  /** The string `"3"` is coerced to the int 3. */
  lemma LaxIntOfText3()
    ensures LaxInt(JStr("3")) == Some(3)
  {
    LaxIntOfInt(3, "", "");
    assert IntText(3) == "3";
    assert "" + IntText(3) + "" == "3";
  }

  /** A one-element list is coerced as its element is. */
  lemma IntsSingle(x: Json)
    ensures Ints([x]) == (match LaxInt(x) case Some(n) => Some([n]) case None => None)
  {
    var xs := [x];
    assert xs[1..] == [] && Ints(xs[1..]) == Some([]);
    match LaxInt(x) {
      case Some(n) => assert Ints(xs) == Some([n] + []) && [n] + [] == [n];
      case None =>
    }
  }

  /** A page range is validated element by element. */
  lemma ItemWithPageRange(t: ItemType, xs: seq<Json>, ns: seq<int>)
    requires Ints(xs) == Some(ns)
    ensures var r := ItemFromJson(map["type" := JStr(ItemTypeName(t)), "pageRange" := JArr(xs)]);
      r.Some? && r.value.kind == t && r.value.pageRange == Some(ns)
  {
    var m := map["type" := JStr(ItemTypeName(t)), "pageRange" := JArr(xs)];
    ItemTypeRoundTrip(t);
    assert OptionalInts(m, "pageRange") == Some(Some(ns));
    assert ItemShape(m);
  }

  /** Numeric strings are coerced: a page range given as `["3"]` is kept as `[3]`. */
  lemma ItemPageRangeFromText()
    ensures var r := ItemFromJson(map["type" := JStr("Statute"), "pageRange" := JArr([JStr("3")])]);
      r.Some? && r.value.pageRange == Some([3])
  {
    var xs := [JStr("3")];
    LaxIntOfText3();
    IntsSingle(xs[0]);
    assert xs == [xs[0]];
    ItemWithPageRange(Statute, xs, [3]);
  }

  // ---------------------------------------------------------------- Card

  datatype CardType = Basic | Cloze

  function CardTypeName(t: CardType): string {
    match t
    case Basic => "basic"
    case Cloze => "cloze"
  }

  /** The `Literal["basic", "cloze"]` check of `Card.type`. */
  function CardTypeFromName(s: string): (r: Option<CardType>)
    ensures r.Some? <==> s == "basic" || s == "cloze"
    ensures r.Some? ==> CardTypeName(r.value) == s
  {
    if s == "basic" then Some(Basic) else if s == "cloze" then Some(Cloze) else None
  }

  datatype Card = Card(
    kind: CardType,
    question: string,
    answer: string,
    sourceDoc: string,
    sourceLoc: string,
    tags: seq<string>,
    difficulty: Option<string>,
    evidence: Option<string>,
    quality: real)

  /** `Card(**m)` succeeds exactly for dicts of this shape. */
  predicate CardShape(m: map<string, Json>) {
    && ("type" !in m || (m["type"].JStr? && CardTypeFromName(m["type"].s).Some?))
    && RequiredStr(m, "Question").Some? && RequiredStr(m, "Answer").Some?
    && RequiredStr(m, "SourceDoc").Some? && RequiredStr(m, "SourceLoc").Some?
    && ("Tags" !in m || (m["Tags"].JArr? && Strs(m["Tags"].elems).Some?))
    && OptionalStr(m, "Difficulty").Some? && OptionalStr(m, "Evidence").Some?
    && ("quality" !in m || LaxFloat(m["quality"]).Some?)
  }

  /** `Card(**m)`: None when pydantic would raise a validation error. */
  function CardFromJson(m: map<string, Json>): (r: Option<Card>)
    ensures r.Some? <==> CardShape(m)
    ensures r.Some? ==> ("type" in m ==> m["type"] == JStr(CardTypeName(r.value.kind))) && ("type" !in m ==> r.value.kind == Basic)
    ensures r.Some? ==> m["Question"] == JStr(r.value.question) && m["Answer"] == JStr(r.value.answer)
    ensures r.Some? ==> m["SourceDoc"] == JStr(r.value.sourceDoc) && m["SourceLoc"] == JStr(r.value.sourceLoc)
    ensures r.Some? ==> ("Tags" in m ==> m["Tags"] == JArr(StrsToJson(r.value.tags))) && ("Tags" !in m ==> r.value.tags == [])
    ensures r.Some? ==> StrFieldHolds(m, "Difficulty", r.value.difficulty) && StrFieldHolds(m, "Evidence", r.value.evidence)
    ensures r.Some? ==> ("quality" in m ==> LaxFloat(m["quality"]) == Some(r.value.quality)) && ("quality" !in m ==> r.value.quality == 0.0)
  {
    var kind := if "type" !in m then Some(Basic) else if m["type"].JStr? then CardTypeFromName(m["type"].s) else None;
    var tags := if "Tags" !in m then Some([]) else if m["Tags"].JArr? then Strs(m["Tags"].elems) else None;
    var quality := if "quality" !in m then Some(0.0) else LaxFloat(m["quality"]);
    match (kind, RequiredStr(m, "Question"), RequiredStr(m, "Answer"), RequiredStr(m, "SourceDoc"),
           RequiredStr(m, "SourceLoc"), tags, OptionalStr(m, "Difficulty"), OptionalStr(m, "Evidence"), quality)
    case (Some(k), Some(q), Some(a), Some(d), Some(l), Some(ts), Some(diff), Some(ev), Some(qual)) =>
      assert "Tags" in m ==> m["Tags"].elems == StrsToJson(ts);
      Some(Card(k, q, a, d, l, ts, diff, ev, qual))
    case _ => None
  }

  /** `card.model_dump()` */
  function CardToJson(c: Card): map<string, Json> {
    map[
      "type" := JStr(CardTypeName(c.kind)),
      "Question" := JStr(c.question),
      "Answer" := JStr(c.answer),
      "SourceDoc" := JStr(c.sourceDoc),
      "SourceLoc" := JStr(c.sourceLoc),
      "Tags" := JArr(StrsToJson(c.tags)),
      "Difficulty" := OptStrToJson(c.difficulty),
      "Evidence" := OptStrToJson(c.evidence),
      "quality" := JNum(c.quality)
    ]
  }

  /** Dumping a card and validating the dump gives the card back. */
  lemma CardRoundTrip(c: Card)
    ensures CardFromJson(CardToJson(c)) == Some(c)
  {
  }

  /**
   * Only Question, Answer, SourceDoc and SourceLoc are required: the type
   * defaults to basic, Tags to empty, Difficulty and Evidence to None and
   * quality to 0.0.
   */
  lemma CardDefaults(q: string, a: string, doc: string, loc: string)
    ensures CardFromJson(map["Question" := JStr(q), "Answer" := JStr(a), "SourceDoc" := JStr(doc), "SourceLoc" := JStr(loc)])
         == Some(Card(Basic, q, a, doc, loc, [], None, None, 0.0))
  {
  }

  // ---------------------------------------------------------------- PipelineConfig

  datatype PipelineConfig = PipelineConfig(
    apiBase: string,
    apiKey: string,
    extractModel: string,
    cardModel: string,
    dedupThreshold: real,
    minQuality: real,
    maxCardsPerItem: int)

  const DefaultModel := "DeepSeek-V3"
  const DefaultDedupThreshold: real := 0.88
  const DefaultMinQuality: real := 0.65
  const DefaultMaxCardsPerItem := 3

  function OptionalStrDefault(m: map<string, Json>, key: string, default: string): Option<string> {
    if key !in m then Some(default) else if m[key].JStr? then Some(m[key].s) else None
  }

  function OptionalNum(m: map<string, Json>, key: string, default: real): Option<real> {
    if key !in m then Some(default) else LaxFloat(m[key])
  }

  /** `PipelineConfig(**m)`; there are no range checks on the numbers. */
  function ConfigFromJson(m: map<string, Json>): (r: Option<PipelineConfig>)
    ensures r.Some? <==>
      && RequiredStr(m, "api_base").Some? && RequiredStr(m, "api_key").Some?
      && OptionalStrDefault(m, "extract_model", DefaultModel).Some?
      && OptionalStrDefault(m, "card_model", DefaultModel).Some?
      && OptionalNum(m, "dedup_threshold", DefaultDedupThreshold).Some?
      && OptionalNum(m, "min_quality", DefaultMinQuality).Some?
      && ("max_cards_per_item" !in m || LaxInt(m["max_cards_per_item"]).Some?)
    ensures r.Some? ==> m["api_base"] == JStr(r.value.apiBase) && m["api_key"] == JStr(r.value.apiKey)
    ensures r.Some? ==> if "extract_model" in m then m["extract_model"] == JStr(r.value.extractModel) else r.value.extractModel == DefaultModel
    ensures r.Some? ==> if "card_model" in m then m["card_model"] == JStr(r.value.cardModel) else r.value.cardModel == DefaultModel
    ensures r.Some? && "dedup_threshold" !in m ==> r.value.dedupThreshold == DefaultDedupThreshold
    ensures r.Some? && "min_quality" !in m ==> r.value.minQuality == DefaultMinQuality
    ensures r.Some? && "max_cards_per_item" !in m ==> r.value.maxCardsPerItem == DefaultMaxCardsPerItem
    ensures r.Some? && "dedup_threshold" in m ==> LaxFloat(m["dedup_threshold"]) == Some(r.value.dedupThreshold)
    ensures r.Some? && "min_quality" in m ==> LaxFloat(m["min_quality"]) == Some(r.value.minQuality)
    ensures r.Some? && "max_cards_per_item" in m ==> LaxInt(m["max_cards_per_item"]) == Some(r.value.maxCardsPerItem)
  {
    var maxCards := if "max_cards_per_item" !in m then Some(DefaultMaxCardsPerItem) else LaxInt(m["max_cards_per_item"]);
    match (RequiredStr(m, "api_base"), RequiredStr(m, "api_key"),
           OptionalStrDefault(m, "extract_model", DefaultModel), OptionalStrDefault(m, "card_model", DefaultModel),
           OptionalNum(m, "dedup_threshold", DefaultDedupThreshold), OptionalNum(m, "min_quality", DefaultMinQuality), maxCards)
    case (Some(base), Some(key), Some(em), Some(cm), Some(dt), Some(mq), Some(mc)) =>
      Some(PipelineConfig(base, key, em, cm, dt, mq, mc))
    case _ => None
  }

  /** With only the two credentials given, every other setting takes its default. */
  lemma ConfigDefaults(base: string, key: string)
    ensures ConfigFromJson(map["api_base" := JStr(base), "api_key" := JStr(key)])
         == Some(PipelineConfig(base, key, "DeepSeek-V3", "DeepSeek-V3", 0.88, 0.65, 3))
  {
  }

  /** Missing credentials are a validation error. */
  lemma ConfigNeedsCredentials(m: map<string, Json>)
    requires "api_base" !in m || "api_key" !in m
    ensures ConfigFromJson(m) == None
  {
  }

  /** No range checks: any numbers are accepted for the thresholds. */
  lemma ConfigNoRangeChecks(base: string, key: string, dt: real, mq: real)
    ensures ConfigFromJson(map["api_base" := JStr(base), "api_key" := JStr(key),
                               "dedup_threshold" := JNum(dt), "min_quality" := JNum(mq)])
         == Some(PipelineConfig(base, key, "DeepSeek-V3", "DeepSeek-V3", dt, mq, 3))
  {
  }
}

=== FILE: seqs.dfy ===
/**
 * The loop shapes shared by the pipeline's stages: a list built by
 * extending it with the results of each input in turn, and a list built
 * from one result per input that is abandoned when one input fails.
 */
module Seqs {
  import opened Wrappers

  /** `f` is defined on every element of `xs`. */
  ghost predicate DefinedOn<T, U>(f: T --> seq<U>, xs: seq<T>) {
    forall i :: 0 <= i < |xs| ==> f.requires(xs[i])
  }

  /** The results of `f` on each element of `xs`, concatenated in order. */
  function FlatMap<T, U>(f: T --> seq<U>, xs: seq<T>): seq<U>
    requires DefinedOn(f, xs)
    decreases |xs|
  {
    if |xs| == 0 then [] else f(xs[0]) + FlatMap(f, xs[1..])
  }

  /** The results for `a + b` are those for `a` followed by those for `b`. */
  lemma {:induction false} FlatMapAppend<T, U>(f: T --> seq<U>, a: seq<T>, b: seq<T>)
    requires DefinedOn(f, a) && DefinedOn(f, b)
    ensures DefinedOn(f, a + b)
    ensures FlatMap(f, a + b) == FlatMap(f, a) + FlatMap(f, b)
    decreases |a|
  {
    assert forall i :: 0 <= i < |a + b| ==> (a + b)[i] == if i < |a| then a[i] else b[i - |a|];
    if |a| > 0 {
      assert (a + b)[1..] == a[1..] + b;
      FlatMapAppend(f, a[1..], b);
    } else {
      assert a + b == b;
    }
  }

  /** Every result comes from one of the inputs. */
  lemma {:induction false} FlatMapMember<T, U>(f: T --> seq<U>, xs: seq<T>, y: U)
    requires DefinedOn(f, xs) && y in FlatMap(f, xs)
    ensures exists i :: 0 <= i < |xs| && y in f(xs[i])
    decreases |xs|
  {
    if y !in f(xs[0]) {
      FlatMapMember(f, xs[1..], y);
      var i :| 0 <= i < |xs[1..]| && y in f(xs[1..][i]);
      assert xs[1..][i] == xs[i + 1];
    }
  }

  /** Inputs with no result add nothing; inputs with one result add one each. */
  lemma {:induction false} FlatMapLength<T, U>(f: T --> seq<U>, xs: seq<T>)
    requires DefinedOn(f, xs)
    ensures (forall i :: 0 <= i < |xs| ==> f(xs[i]) == []) ==> FlatMap(f, xs) == []
    ensures (forall i :: 0 <= i < |xs| ==> |f(xs[i])| == 1) ==> |FlatMap(f, xs)| == |xs|
    ensures (forall i :: 0 <= i < |xs| ==> |f(xs[i])| <= 1) ==> |FlatMap(f, xs)| <= |xs|
    decreases |xs|
  {
    if |xs| > 0 {
      assert forall i :: 0 <= i < |xs| - 1 ==> xs[1..][i] == xs[i + 1];
      FlatMapLength(f, xs[1..]);
    }
  }

  lemma FlatMapSingle<T, U>(f: T --> seq<U>, x: T)
    requires f.requires(x)
    ensures DefinedOn(f, [x]) && FlatMap(f, [x]) == f(x)
  {
    assert [x][1..] == [];
  }

  /** `n` copies of `x`. */
  function Copies<T>(x: T, n: nat): (r: seq<T>)
    ensures |r| == n && forall k :: 0 <= k < n ==> r[k] == x
  {
    if n == 0 then [] else [x] + Copies(x, n - 1)
  }

  /** `n` copies of `xs`, one after another. */
  function Repeat<T>(xs: seq<T>, n: nat): seq<T> {
    if n == 0 then [] else xs + Repeat(xs, n - 1)
  }

  /** The results for `n` copies of one input are `n` copies of its result. */
  lemma {:induction false} FlatMapRepeat<T, U>(f: T --> seq<U>, x: T, n: nat)
    requires f.requires(x)
    ensures DefinedOn(f, Copies(x, n)) && FlatMap(f, Copies(x, n)) == Repeat(f(x), n)
    decreases n
  {
    if n > 0 {
      assert Copies(x, n)[1..] == Copies(x, n - 1);
      FlatMapRepeat(f, x, n - 1);
    }
  }

  /** `f` applied to every element, all or nothing: `None` as soon as one application fails. */
  function AllOrNothing<T, U>(f: T -> Option<U>, xs: seq<T>): (r: Option<seq<U>>)
    ensures r.Some? ==> |r.value| == |xs| && forall k :: 0 <= k < |xs| ==> f(xs[k]) == Some(r.value[k])
    ensures (forall k :: 0 <= k < |xs| ==> f(xs[k]).Some?) ==> r.Some?
    decreases |xs|
  {
    if |xs| == 0 then Some([])
    else
      match f(xs[0])
      case None => None
      case Some(y) =>
        assert forall k :: 0 <= k < |xs[1..]| ==> xs[1..][k] == xs[k + 1];
        match AllOrNothing(f, xs[1..])
        case None => None
        case Some(rest) =>
          assert forall k :: 1 <= k < |xs| ==> ([y] + rest)[k] == rest[k - 1];
          Some([y] + rest)
  }

  /** One failing application makes the whole result `None`. */
  lemma {:induction false} AllOrNothingFails<T, U>(f: T -> Option<U>, xs: seq<T>, k: nat)
    requires k < |xs| && f(xs[k]).None?
    ensures AllOrNothing(f, xs).None?
    decreases |xs|
  {
    if k > 0 {
      assert xs[1..][k - 1] == xs[k];
      AllOrNothingFails(f, xs[1..], k - 1);
    }
  }
}

=== FILE: text.dfy ===
/**
 * String helpers shared by every stage: Python's notion of whitespace
 * (`str.isspace`, also what the `\s` class of a `re` pattern matches on
 * `str`), `str.strip`, ASCII `str.lower`, `str.find` / `str.rfind`,
 * `sep.join` and `str.split`.
 */
module Text {
  import opened Wrappers

  /** Python's whitespace characters: `str.isspace()` and the regex class `\s`. */
  predicate IsSpace(c: char) {
    || c == ' '
    || ('\t' <= c <= '\r')
    || ('\U{1c}' <= c <= '\U{1f}')
    || c == '\U{85}'
    || c == '\U{a0}'
    || c == '\U{1680}'
    || ('\U{2000}' <= c <= '\U{200a}')
    || c == '\U{2028}'
    || c == '\U{2029}'
    || c == '\U{202f}'
    || c == '\U{205f}'
    || c == '\U{3000}'
  }

  predicate AllSpace(s: string) {
    forall i :: 0 <= i < |s| ==> IsSpace(s[i])
  }

  /** Neither end of `s` is whitespace: what `str.strip()` returns. */
  predicate IsStripped(s: string) {
    |s| == 0 || (!IsSpace(s[0]) && !IsSpace(s[|s| - 1]))
  }

  /** The first index at or after `i` that is not whitespace (or `|s|`). */
  function SkipSpaceRight(s: string, i: nat): (r: nat)
    requires i <= |s|
    ensures i <= r <= |s|
    ensures forall k :: i <= k < r ==> IsSpace(s[k])
    ensures r < |s| ==> !IsSpace(s[r])
    decreases |s| - i
  {
    if i < |s| && IsSpace(s[i]) then SkipSpaceRight(s, i + 1) else i
  }

  /** The least index `r` at or after `lo` with `s[r..j]` all whitespace. */
  function SkipSpaceLeft(s: string, lo: nat, j: nat): (r: nat)
    requires lo <= j <= |s|
    ensures lo <= r <= j
    ensures forall k :: r <= k < j ==> IsSpace(s[k])
    ensures r > lo ==> !IsSpace(s[r - 1])
    decreases j - lo
  {
    if j > lo && IsSpace(s[j - 1]) then SkipSpaceLeft(s, lo, j - 1) else j
  }

  /**
   * `s.strip()`: the longest slice of `s` that neither starts nor ends with
   * whitespace, everything cut away being whitespace.
   */
  function Strip(s: string): (r: string)
    ensures IsStripped(r)
    ensures exists i, j :: 0 <= i <= j <= |s| && r == s[i..j] && AllSpace(s[..i]) && AllSpace(s[j..])
    ensures r == "" <==> AllSpace(s)
  {
    var i := SkipSpaceRight(s, 0);
    var j := SkipSpaceLeft(s, i, |s|);
    assert AllSpace(s[..i]);
    assert AllSpace(s[j..]);
    assert i == j ==> AllSpace(s) by {
      if i == j {
        forall k | 0 <= k < |s| ensures IsSpace(s[k]) {
          if k < i {} else {}
        }
      }
    }
    s[i..j]
  }

  /** Stripping whitespace changes nothing once it is gone. */
  lemma StripStripped(s: string)
    requires IsStripped(s)
    ensures Strip(s) == s
  {
  }

  /** Stripping removes exactly the whitespace padding around a stripped text. */
  lemma StripPadded(p: string, s: string, q: string)
    requires AllSpace(p) && AllSpace(q) && IsStripped(s)
    ensures Strip(p + s + q) == s
  {
    var x := p + s + q;
    if s == "" {
      assert AllSpace(x) by {
        forall k | 0 <= k < |x| ensures IsSpace(x[k]) {
          if k < |p| { assert x[k] == p[k]; } else { assert x[k] == q[k - |p|]; }
        }
      }
    } else {
      assert forall k :: 0 <= k < |p| ==> x[k] == p[k];
      assert forall k :: |p| + |s| <= k < |x| ==> x[k] == q[k - |p| - |s|];
      assert x[|p|] == s[0];
      var i := SkipSpaceRight(x, 0);
      var j := SkipSpaceLeft(x, i, |x|);
      assert x[|p| + |s| - 1] == s[|s| - 1];
      assert x[|p|..|p| + |s|] == s;
    }
  }

  /** `Strip` is idempotent. */
  lemma StripIdempotent(s: string)
    ensures Strip(Strip(s)) == Strip(s)
  {
    StripStripped(Strip(s));
  }

  function LowerChar(c: char): char {
    if 'A' <= c <= 'Z' then (c as int + 32) as char else c
  }

  /** `s.lower()` for the characters the model needs (ASCII letters); others are kept. */
  function Lower(s: string): (r: string)
    ensures |r| == |s|
  {
    if |s| == 0 then "" else [LowerChar(s[0])] + Lower(s[1..])
  }

  /** `s.find(c)` as an option: the first index of `c`. */
  function FirstIndex(s: string, c: char): (r: Option<nat>)
    ensures r.None? <==> c !in s
    ensures r.Some? ==> r.value < |s| && s[r.value] == c && c !in s[..r.value]
  {
    if |s| == 0 then None
    else if s[0] == c then Some(0)
    else
      match FirstIndex(s[1..], c)
      case None => None
      case Some(i) =>
        assert s[..i + 1] == [s[0]] + s[1..][..i];
        Some(i + 1)
  }

  /** `s.rfind(c)` as an option: the last index of `c`. */
  function LastIndex(s: string, c: char): (r: Option<nat>)
    ensures r.None? <==> c !in s
    ensures r.Some? ==> r.value < |s| && s[r.value] == c && c !in s[r.value + 1..]
  {
    if |s| == 0 then None
    else if s[|s| - 1] == c then Some(|s| - 1)
    else
      var r := LastIndex(s[..|s| - 1], c);
      if r.Some? then
        assert s[r.value + 1..] == s[..|s| - 1][r.value + 1..] + [s[|s| - 1]];
        r
      else r
  }

  /** `sep.join(xs)` */
  function Join(xs: seq<string>, sep: string): string {
    if |xs| == 0 then ""
    else if |xs| == 1 then xs[0]
    else xs[0] + sep + Join(xs[1..], sep)
  }

  /** Joining two non-empty lists puts one separator between their joins. */
  lemma {:induction false} JoinAppend(xs: seq<string>, ys: seq<string>, sep: string)
    requires |xs| > 0 && |ys| > 0
    ensures Join(xs + ys, sep) == Join(xs, sep) + sep + Join(ys, sep)
    decreases |xs|
  {
    assert (xs + ys)[0] == xs[0] && (xs + ys)[1..] == xs[1..] + ys;
    if |xs| > 1 {
      JoinAppend(xs[1..], ys, sep);
    } else {
      assert xs[1..] + ys == ys;
    }
  }

  /** `s.split(c)` for a one-character separator: the pieces between separators. */
  function Split(s: string, c: char): (r: seq<string>)
    ensures |r| > 0
    ensures forall k :: 0 <= k < |r| ==> c !in r[k]
    decreases |s|
  {
    match FirstIndex(s, c)
    case None => [s]
    case Some(i) => [s[..i]] + Split(s[i + 1..], c)
  }

  /** Joining the pieces of a split with the separator restores the string. */
  lemma {:induction false} JoinSplit(s: string, c: char)
    ensures Join(Split(s, c), [c]) == s
    decreases |s|
  {
    match FirstIndex(s, c)
    case None =>
    case Some(i) =>
      var rest := Split(s[i + 1..], c);
      JoinSplit(s[i + 1..], c);
      assert Split(s, c) == [s[..i]] + rest;
      assert ([s[..i]] + rest)[1..] == rest;
      assert s == s[..i] + [c] + s[i + 1..];
  }

  /** Splitting a join restores the pieces when none contains the separator. */
  lemma {:induction false} SplitJoin(xs: seq<string>, c: char)
    requires |xs| > 0
    requires forall k :: 0 <= k < |xs| ==> c !in xs[k]
    ensures Split(Join(xs, [c]), c) == xs
    decreases |xs|
  {
    if |xs| == 1 {
      assert FirstIndex(xs[0], c).None?;
    } else {
      var s := Join(xs, [c]);
      var tail := Join(xs[1..], [c]);
      assert s == xs[0] + [c] + tail;
      assert s[|xs[0]|] == c;
      assert s[..|xs[0]|] == xs[0];
      var fi := FirstIndex(s, c);
      assert c !in s[..|xs[0]|];
      assert fi == Some(|xs[0]|);
      assert s[|xs[0]| + 1..] == tail;
      SplitJoin(xs[1..], c);
    }
  }
}

=== FILE: wrappers.dfy ===
/** The optional-value type used throughout the model, in place of Python's None. */
module Wrappers {

  datatype Option<+T> = None | Some(value: T) {

    /** The wrapped value, or `default` when there is none. */
    function GetOr(default: T): T {
      match this
      case Some(v) => v
      case None => default
    }
  }
}
